=== FILE: README.md ===
# avbutils in Dafny

This project models the part of `avbutils` that walks an Avid bin's mob
graph, together with the helpers around it. It is written in Dafny as
pure functions over immutable data.

A bin is a mob table: a map from mob id to `Mob`, where a mob is a
composition with its type code, usage code, attributes, descriptor and
tracks. A track carries one component: a SourceClip, Sequence, Filler,
Timecode, EssenceGroup, TrackEffect or other effect, or a Selector
(group clip). Edit rates are exact fractions, and `round(edit_rate)` is
rounded half to even as Python rounds.

The model covers these parts:

* **Source references** (`avbutils/sourcerefs.py`), module `SourceRefs`.
  - Offset normalisation and `resolve_base_component_from_component`.
  - The reference chain that `source_references_for_component` yields.
  - The file and physical filters over that chain.
  - `primary_track_for_composition`.
  - The physical source name, type and existence of a composition.
* **Mob stack** (`avbutils/mobstack.py`), module `MobStack`.
  - The per-hop step `_get_mob_from_track_at_offset`, with its Selector
    loop and its effect-unwrapping loop.
  - `MobStack.from_composition` and `source_mobs`.
  - `source_name` and `essence_descriptor`.
  - The managed-media and linked-media tests and `link_type`.
* **Matchback** (`avbutils/matchback.py`), module `Matchback`.
  - The four one-step matchbacks.
  - The `matchback_to_masterclip` loop.
* **Compositions and identification** (`avbutils/compositions.py`,
  `examples/identification_exploration.py`), modules `Compositions` and
  `Identification`.
  - Mob type and usage codes.
  - The role predicates (`composition_is_timeline`, ...).
  - The `get_*_from_bin` generators.
* **Markers** (`avbutils/markers.py`), module `Markers`.
  - Marker colours and `MarkerInfo.from_avb_marker`.
  - The recursive `get_component_markers`.
  - The position walk of `get_markers_from_track`.
* **Sorting** (`avbutils/sorting.py`, `trtlib/__init__.py`), module
  `Sorting`.
  - `BinSorting` and its sort lambdas.
  - Both `human_sort` keys, built on `re.split(r'(\d+)', text)`.
  - Picking the latest sequence by a descending stable sort.
* **Bins** (`avbutils/bins.py`), module `Bins`.
  - Display modes and the display-option flag set.
  - Sort directions, sift methods and column formats.
* **Reels** (`trtlib/reelinfo.py`, `examples/get_trts.py`), module
  `Reels`.
  - The adjusted duration and the LFOA footage string ("feet+frames" at
    16 frames a foot).
  - The total runtime and the reel-number lookup.
  - The command-line option stripping of `process_args`.
* **Lineage** (`examples/lineage_exploration_v3.py`), module `Lineage`.
  - `resolve_mob` with its edit-rate scaling of the offset.
  - The per-track walk of `process_bin`.
  - `TrackMobStack`'s filters, `link_type`, `source_type` and
    `source_name`.

The other modules are shared vocabulary:

* `Avb`: the pyavb object model, the mob lookup and the track lookup.
* `Wrappers`: `Option` and `Result`.
* `Selection`: generator filters written as scans.
* `Chains`: fuel-bounded reference chains.
* `Text`: ASCII `lower`, `title` and `int`/`str` of digit runs.
* `Order`: lexicographic order.
* `Arith`: half-to-even rounding.

A Python exception becomes an `Err` carrying a `Failure` that names its
cause. A generator becomes the sequence of what it yields plus how it
stopped: it finished, it raised, or the hop bound ran out.

## Model

| member | source | states |
|---|---|---|
| Avb.FindMob | avbutils/mobstack.py:104-106 | The lookup finds a mob exactly when its id is in the bin, and then it is that mob. |
| Avb.FirstTrackIndex | avbutils/mobstack.py:104-108 | The position found holds a track of the kind and index, and no earlier track matches. None means no track matches. |
| Avb.TargetTrack | avbutils/sourcerefs.py:97-100 | A clip has a target track exactly when it is a SourceClip whose mob is in the bin and has a track of the clip's kind and id. That track belongs to the mob and matches. |
| Avb.PyIndex | avbutils/matchback.py:5-10 | Python indexing succeeds exactly for -len <= i < len. A negative index counts from the end. |
| SourceRefs.DecodeSourceMobRole | avbutils/sourcerefs.py:15-42 | The mob kind decodes exactly for 1 to 5, to the role with that code. Any other value raises with that value. |
| SourceRefs.SourceMobRoleOf | avbutils/sourcerefs.py:32-38 | A role exists exactly for a source mob (type 3) with a descriptor of kind 1 to 5. An unknown type code raises first. Any other mob type, or a missing descriptor, is "not a source mob". |
| SourceRefs.Normalize | avbutils/sourcerefs.py:50-56 | The result is always at the component's rounded rate. A bare int keeps its frames, a timecode at that rate is kept, and any other timecode is resampled. |
| SourceRefs.NearestBelow | avbutils/sourcerefs.py:58-62 | The member found starts at or before the frame, and every later member below the bound starts after it. None means every member starts after it. A member's start is its transition-aware position in the sequence. |
| SourceRefs.TransitionOverlap | avbutils/markers.py:54-61 | Members are placed as the marker walk places them: a transition starts its own length before the clip before it ends, and the clip after it starts at the same frame. |
| SourceRefs.ResolveBase | avbutils/sourcerefs.py:47-80 | The resolved leaf is reachable through transparent wrappers and at most one sequence step. For a Sequence it is a member of the sequence, at the sequence's rate and a non-negative offset; a miss raises with the normalised frame. A plain component resolves to itself at the normalised offset. |
| SourceRefs.ResolveSequence | avbutils/sourcerefs.py:58-61 | A Sequence raises exactly when every member starts after the normalised offset. Otherwise it steps into the last member starting at or before the offset, at the offset less that member's start, keeping the sequence's rate. |
| SourceRefs.ResolveTransparent | avbutils/sourcerefs.py:67-78 | A transparent wrapper resolves to its inner component at the normalised offset. A wrapper without an inner component raises. |
| SourceRefs.NormalizationFirst | avbutils/sourcerefs.py:50-56 | Only the offset's value at the component's rounded rate matters to the resolution. |
| SourceRefs.ResolveSettled | avbutils/sourcerefs.py:47-80 | Resolving a settled leaf again only re-normalises its offset. |
| SourceRefs.Chain | avbutils/sourcerefs.py:96-100 | The chain stays within the hop bound, and every yielded entry is a SourceClip whose track resolves. |
| SourceRefs.ChainLinked | avbutils/sourcerefs.py:96-100 | The chain starts at the resolved leaf, and each entry is the hop of the one before. |
| SourceRefs.ChainStop | avbutils/sourcerefs.py:97-100 | The chain ends silently at the first unfollowable leaf, or with the failing hop's exception. It is cut short only after using the whole bound. |
| SourceRefs.SourceReferences | avbutils/sourcerefs.py:83-100 | A base resolution that raises gives an empty generator stopped by that exception. Otherwise the result is the chain from the resolved leaf. |
| SourceRefs.ChainFuelIrrelevant | avbutils/sourcerefs.py:97-100 | A chain that ended within its bound is the same under any larger bound. |
| SourceRefs.ChainFuelPrefix | avbutils/sourcerefs.py:97-100 | A smaller bound yields a prefix of the chain. |
| SourceRefs.ClassifyRef | avbutils/sourcerefs.py:102-110 | An entry classifies without raising exactly when its mob is a composition or master mob, or a source mob with a role. An essence role is the file class; any other role is the physical class. |
| SourceRefs.FileReferences | avbutils/sourcerefs.py:102-105 | Every entry yielded is in the full chain and is an essence source mob. |
| SourceRefs.PhysicalReferences | avbutils/sourcerefs.py:107-110 | Every entry yielded is in the full chain and is a physical source mob. |
| SourceRefs.FilePhysicalPartition | avbutils/sourcerefs.py:102-110 | Both filters stop at the same entry with the same exception. Before it, each source-mob entry is kept by exactly one of them, no other entry by either, and both keep chain order. |
| SourceRefs.KeptAt | avbutils/sourcerefs.py:102-110 | Before the cut, an entry is kept exactly when its test holds. |
| SourceRefs.PrimaryTrack | avbutils/sourcerefs.py:133-140 | The result is the first picture or sound track in track order. ValueError is raised exactly when there is none. |
| SourceRefs.PrimaryFrom | avbutils/sourcerefs.py:136-140 | The same as PrimaryTrack, for the tracks from a position on. |
| SourceRefs.First | avbutils/sourcerefs.py:112-120 | `next()` gives the first yielded item. Otherwise it gives StopIteration when the generator finished, or the exception that stopped it. |
| SourceRefs.HasPhysicalSource | avbutils/sourcerefs.py:142-151 | True exactly when the physical chain yields something. False exactly when it finishes silently empty. |
| SourceRefs.PhysicalSourceName | avbutils/sourcerefs.py:112-120 | A primary-track failure propagates. When the physical chain yields something, the result is the name of the first entry's mob. When it yields nothing, the chain's own exception propagates, and a silent end raises ValueError. |
| SourceRefs.PhysicalSourceType | avbutils/sourcerefs.py:122-130 | A primary-track failure propagates. When the physical chain yields something, the result is the role of the first entry's mob, which is decoded and is never Essence. When it yields nothing, the chain's own exception propagates, and a silent end raises ValueError. |
| MobStack.FirstOfKind | avbutils/mobstack.py:82-89 | The track found has the kind, and no earlier track does. None means no track does. |
| MobStack.PastSelectors | avbutils/mobstack.py:79-80 | The result is reached from the start by following Selectors into their selected picture track, and it is no Selector. Any non-Selector reached that way is the result. A Selector without its selected track raises, and nothing else does. |
| MobStack.PastEffects | avbutils/mobstack.py:82-89 | The result is reached from the start by following effects into their first inner track of the kind, and it is no effect. Any non-effect reached that way is the result. An effect without such a track raises, and nothing else does. |
| MobStack.Unwrapped | avbutils/mobstack.py:79-89 | The result is reached by the selector path and then the effect path, and it holds no effect. Any component reached that way, past every Selector and effect, is the result. Only the two loops' exceptions are raised. |
| MobStack.StepLeaf | avbutils/mobstack.py:79-96 | An unwrapping failure propagates, and a missing component raises. A Sequence raises with the offset exactly when every member starts after the offset. Otherwise it gives the last member starting at or before the offset. Anything else is the unwrapped component itself. |
| MobStack.Step | avbutils/mobstack.py:70-108 | Filler gives FillerDuringMatchback. A clip on track 0, or a Timecode, gives StopMatchback. Any other non-clip raises, as does a dangling mob id or a mob without a track of the kind and id. Otherwise the step resolves to that mob, its first matching track and the clip's start. |
| MobStack.StepIgnoresOffset | avbutils/mobstack.py:91-96 | Away from sequences, the offset plays no part in a step. |
| MobStack.Hops | avbutils/mobstack.py:58-65 | The walk stays within its bound, and an exhausted bound raises. |
| MobStack.HopsLinked | avbutils/mobstack.py:58-65 | Collected hops are linked: each hop is the step from the one before at `offset + start + 1`, and a quiet stop follows the last. Conversely, any linked hops within the bound are exactly what the walk collects. |
| MobStack.FromComposition | avbutils/mobstack.py:51-67 | The stack starts with the composition, then has one mob per hop. It succeeds exactly when the walk does. |
| MobStack.IsSourceMob | examples/identification_exploration.py:32-33 | True exactly for type code 3. Any code outside the enumeration raises ValueError with that code. |
| MobStack.SourceMobs | avbutils/mobstack.py:110-112 | The filter succeeds exactly when every type code is known. It keeps exactly the source mobs (type 3), and a leading source mob stays first. |
| MobStack.SourceMobsAppend | avbutils/mobstack.py:110-112 | The source mobs of a concatenation are those of its halves, in order. Filtering succeeds exactly when it succeeds on both halves. |
| MobStack.SourceMobsSingle | avbutils/mobstack.py:110-112 | A single mob is kept exactly when it is a source mob, and an unknown type raises. With the append lemma, the filter keeps order and multiplicity. |
| MobStack.SourceName | avbutils/mobstack.py:114-119 | The name of the last source mob. IndexError when there is none. |
| MobStack.EssenceDescriptor | avbutils/mobstack.py:155-163 | A filter failure propagates, and no source mob is an IndexError at 0. Otherwise the result is the first source mob's descriptor when that is a media file descriptor, and ValueError when it is not. |
| MobStack.Any | avbutils/mobstack.py:121-136 | True exactly when some descriptor passes the test. |
| MobStack.HasManagedMedia | avbutils/mobstack.py:121-136 | Defined exactly when the essence descriptor is. True exactly when one of its members is managed (MSM-located with no physical media, or URL-located). |
| MobStack.HasLinkedMedia | avbutils/mobstack.py:138-153 | Defined exactly when the essence descriptor is. True exactly when one of its members is MSM-located with file-located physical media. |
| MobStack.ManagedExcludesLinked | avbutils/mobstack.py:121-153 | A single descriptor is never both managed and linked. |
| MobStack.MultiCanBeManagedAndLinked | avbutils/mobstack.py:121-153 | A multi-descriptor with one managed and one linked member is both. |
| MobStack.DescriptorHasFileReference | avbutils/mobstack.py:191-209 | True exactly when some member is file-located or has file-located physical media. |
| MobStack.SourceSideReference | avbutils/mobstack.py:165-189 | Defined exactly when the second source mob has a role. True exactly for an imported file source whose descriptor references a file. |
| MobStack.LinkTypeOf | avbutils/mobstack.py:165-189 | Filter and role failures propagate. No source mob is an IndexError at 0, and an essence mob alone is an IndexError at 1. A non-essence first mob raises. Given an essence mob and a decodable second source mob, it succeeds unless the essence side alone references a file. Both sides referencing a file means UME-linked, only the source side hard-imported, and neither physical-media-referred. |
| Matchback.MatchbackTrack | avbutils/matchback.py:21-24 | The track's component, or None exactly when it has none. |
| Matchback.MatchbackGroupclip | avbutils/matchback.py:5-10 | The explicit index or `selected` picks a track by Python list position. An index out of range raises with that index. |
| Matchback.OfKind | avbutils/matchback.py:14 | Exactly the tracks of the kind. |
| Matchback.OfKindAppend | avbutils/matchback.py:14 | Filtering a concatenation filters each half, in order. |
| Matchback.OfKindOne | avbutils/matchback.py:14 | One track is kept exactly when it has the kind. With the append lemma, the filter keeps order and multiplicity. |
| Matchback.OfKindSingle | avbutils/matchback.py:14-19 | When one track has the kind, the filtered list is that track. |
| Matchback.NoneOfKind | avbutils/matchback.py:14-19 | When no track has the kind, the filtered list is empty. |
| Matchback.SingleOfKind | avbutils/matchback.py:14-19 | A one-element filtered list comes from the only track of the kind. |
| Matchback.MatchbackTrackgroup | avbutils/matchback.py:12-19 | A diagnostic with the count comes back exactly when the number of tracks of the kind is not one. Otherwise the result is that track's component. |
| Matchback.MatchbackSequence | avbutils/matchback.py:26-36 | Fewer than two members raise, and more than three give a diagnostic. Two or three members give the second member. |
| Matchback.MatchbackSourceclip | avbutils/matchback.py:38-41 | The referenced mob when it is in the bin, None otherwise. |
| Matchback.Turn | avbutils/matchback.py:54-71 | One turn: a Composition raises NameError. A Selector goes through `matchback_groupclip` before any other track group goes through `matchback_trackgroup`. A Track, a SourceClip and a Sequence go through their own helper. |
| Matchback.TurnDescends | avbutils/matchback.py:54-77 | Each turn of the loop moves strictly down the component tree, or out of it through a SourceClip to a mob. |
| Matchback.RunFrom | avbutils/matchback.py:52-77 | The loop stops only at a master clip or at a node it does not know how to follow. A mob it stops at is in the bin. A first turn that raises makes the walk raise the same error. The value after a successful turn is given by Matchback.RunFromTurn. |
| Matchback.RunFromTurn | avbutils/matchback.py:52-77 | From a component the loop does not stop at, the walk takes one turn and continues as the loop does from the node reached. A raising turn raises. |
| Matchback.MatchbackToMasterclip | avbutils/matchback.py:50-77 | Corrected version: returns the node the loop stops at, a master clip or an exit. A stop node is returned unchanged, a non-master mob raises NameError, and a turn that raises makes the loop raise the same error. The full loop equation is Matchback.MatchbackLoop. |
| Matchback.MatchbackLoop | avbutils/matchback.py:52-77 | The while loop's equation: a master clip (`Matchback.IsMasterclip`, `is_masterclip`) or a stop node ends the loop there. Any other node takes one turn and carries on from where the turn led, and a raising turn raises. |
| Matchback.MatchbackToMasterclipAsWritten | avbutils/matchback.py:50-77 | As written: raises exactly when the corrected version does, with the same exception, and otherwise returns None. |
| Matchback.GroupClipReachesMasterclip | avbutils/matchback.py:50-77 | A group clip over a sequence holding one master clip's clip reaches that master clip, yet the function as written returns None. |
| Compositions.DecodeMobType | avbutils/compositions.py:5-20 | Decodes exactly the enumeration's codes, each to its own member. Any other code raises with the code. |
| Compositions.MobTypeOf | avbutils/compositions.py:17-19 | Succeeds exactly when the mob's type code is in the enumeration, giving the member with that code. Otherwise it raises with the code. |
| Compositions.MobUsageOf | avbutils/compositions.py:42-44 | Succeeds exactly when the mob's usage code is in the enumeration, giving the member with that code. Otherwise it raises with the code. |
| Compositions.DecodeMobUsage | avbutils/compositions.py:25-45 | Decodes exactly the enumeration's codes, each to its own member. Any other code raises with the code. |
| Compositions.DecodeInvertsCode | avbutils/compositions.py:5-45 | Decoding a member's code gives that member back, for both enumerations. |
| Compositions.IsToplevel | avbutils/compositions.py:50-53 | True exactly for a composition mob with usage 0. Raises exactly on an unknown type, or on a composition with an unknown usage. |
| Compositions.ClipColorOf | avbutils/compositions.py:55-64 | A colour exists exactly when all three attributes are present, and it is (R, G, B) taken from them. |
| Compositions.GroupOofterName | avbutils/compositions.py:46-48 | An instance of the `Text.Pretty` rule: `str()` of GROUP_OOFTER is "Group Oofter". |
| Compositions.SourceMobName | avbutils/compositions.py:21-23 | An instance of the `Text.Pretty` rule: `str()` of SOURCE_MOB is "Source Mob". |
| Identification.Is | examples/identification_exploration.py:14-57 | Each role predicate agrees with the role table written on the raw codes. It raises exactly when a code it decodes is unknown. |
| Identification.TimelineIsToplevel | examples/identification_exploration.py:14-16 | A timeline is exactly a top-level composition, raising on the same mobs. |
| Identification.MasterClipIsMasterMob | examples/identification_exploration.py:18-26 | Every master clip is a master mob. A precompute master mob is not a master clip. |
| Identification.UsageOnlyRoles | examples/identification_exploration.py:35-57 | The effect, group, oofter, motion-effect and precompute tests read only the usage code. |
| Identification.FromBin | examples/identification_exploration.py:63-134 | Yields, in bin order, exactly the items before the cut whose role test holds and that are user-placed or allowed. It stops at the first raising test, with that exception. |
| Identification.Wanted | examples/identification_exploration.py:63-70 | An item is wanted exactly when its role test holds and it is user-placed or reference clips are allowed. A role test that raises makes this raise the same error. |
| Identification.WantedMeans | examples/identification_exploration.py:63-70 | An item is wanted exactly when its role holds and it is user-placed or reference clips are allowed. It raises exactly when its role test does. |
| Markers.ColorFromValue | avbutils/markers.py:5-14 | A colour is read only from its own name. Anything else raises. |
| Markers.ColorRoundTrip | avbutils/markers.py:5-14 | Each colour reads back from its value, and only from that value. |
| Markers.Timestamp | avbutils/markers.py:36-37 | A date converts exactly when it is present and numeric. |
| Markers.FromAvbMarker | avbutils/markers.py:29-38 | Succeeds exactly when the colour is valid and both dates are present and numeric. The colour is tested first. User and comment default to "", and the offset is kept. The creation and modification dates are the two timestamps, each from its own attribute, and a missing or non-numeric date raises. |
| Markers.Concat | avbutils/markers.py:73-83 | A marker is in the result exactly when it is in one of the parts. |
| Markers.ConcatAppend | avbutils/markers.py:73-83 | Concatenation is taken part by part, in order. |
| Markers.ConcatOne | avbutils/markers.py:73-83 | One part concatenates to itself. |
| Markers.ComponentMarkers | avbutils/markers.py:66-85 | A component without attributes yields nothing. |
| Markers.ComponentMarkersChildren | avbutils/markers.py:66-85 | With the attributes property, the result is the component's own markers followed by each held component's markers, child by child in order. The held components are a Sequence's members or the components of a track group's tracks that have one. |
| Markers.OwnMarkersFirst | avbutils/markers.py:66-85 | A component's own markers come first. |
| Markers.UnattributedSequenceHidesMembers | avbutils/markers.py:66-85 | A sequence without the attributes property hides its members' markers; one with it shows them. |
| Markers.Place | avbutils/markers.py:55-58 | Each marker is placed at the item's position plus its own offset. |
| Markers.PlacedPrefix | avbutils/markers.py:50-62 | The placements of fewer items come first. |
| Markers.PlacedGrows | avbutils/markers.py:50-62 | One more item only appends placements. |
| Markers.ConvertedAppend | avbutils/markers.py:55-58 | The conversions of consecutive runs concatenate. |
| Markers.FirstFailure | avbutils/markers.py:55-58 | A run's first unconvertible marker, after a converted prefix, is the first unconvertible marker overall. |
| Markers.ConvertItem | avbutils/markers.py:55-58 | Converts one item's markers in order. Otherwise raises at the first marker that cannot be converted. |
| Markers.PlacePrefix | avbutils/markers.py:55-58 | Placing the first markers gives the first placements. |
| Markers.PlaceSnoc | avbutils/markers.py:55-58 | Placing one more marker appends its placement. |
| Markers.ItemConverted | avbutils/markers.py:50-62 | One more item's converted markers extend the conversion so far. |
| Markers.ItemFailure | avbutils/markers.py:50-62 | An item's first failing marker is the track's first failing marker. |
| Markers.MarkersFromTrack | avbutils/markers.py:43-64 | The track's markers are converted in placement order, where each item moves the position forward and each transition moves it back. The loop ends at the position after every item. The first marker that cannot be converted raises, and a track without a component raises. |
| Sorting.DecodeBinSorting | avbutils/sorting.py:5-15 | Decodes exactly 1 to 3, each to its member. Any other code raises. |
| Sorting.GetSortLambda | avbutils/sorting.py:20-31 | Each sorting gives the key of its own field. An unknown choice returns a ValueError object instead of a key. |
| Sorting.Split | avbutils/sorting.py:39 | The split always has an odd number of parts. |
| Sorting.SplitJoin | avbutils/sorting.py:39 | Joining the parts gives the text back. |
| Sorting.SplitAlternates | avbutils/sorting.py:39 | The parts alternate digit-free text and maximal non-empty digit runs, as `re.split` with a capturing group gives. |
| Sorting.SplitUnique | avbutils/sorting.py:39 | Any such alternation that joins back to the text is the split. |
| Sorting.Atoi | avbutils/sorting.py:37 | A non-empty digit run becomes a number. Other parts stay text, lower-cased in this version. |
| Sorting.KeyOfParts | avbutils/sorting.py:39 | The key is `_atoi` of each part, in order. |
| Sorting.KeyOfPartsShape | avbutils/sorting.py:33-39 | A key alternates text and numbers. |
| Sorting.HumanSortKey | avbutils/sorting.py:33-39 | The key is the `re.split` pieces of the text around digit runs, in order. Text pieces are lower-cased, digit runs become their integer values, and the key alternates text and numbers, starting and ending with text. |
| Sorting.TrtHumanSortKey | trtlib/__init__.py:9-15 | The same key as the avbutils version, except that text pieces keep their case. |
| Sorting.HumanSortKeyShape | avbutils/sorting.py:33-39 | Both versions' keys alternate text and numbers, starting and ending with text. |
| Sorting.KeysAligned | avbutils/sorting.py:33-39 | Two keys never set a number against a text at the same index, so comparing them does not raise. |
| Sorting.LowerJoin | avbutils/sorting.py:37-39 | Lower-casing the parts lower-cases their join. |
| Sorting.SplitLower | avbutils/sorting.py:37-39 | Splitting the lower-cased text equals lower-casing each part. |
| Sorting.HumanSortIgnoresCase | avbutils/sorting.py:33-39 | Texts equal up to case get the same key. |
| Sorting.LowerKeyIs | avbutils/sorting.py:33-39 | Lower-casing first does not change the key. |
| Sorting.PartLessStrictTotal | avbutils/sorting.py:33-39 | The comparison of key parts is a strict total order. |
| Sorting.KeyLessStrictTotal | avbutils/sorting.py:33-39 | The comparison of keys is a strict total order. |
| Sorting.RunKey | avbutils/sorting.py:33-39 | A text that is one digit run has the key ["", n, ""]. |
| Sorting.NineBeforeTen | avbutils/sorting.py:34 | "9" sorts before "10" by key in both versions, though "10" < "9" as strings. |
| Sorting.ThreePartKey | avbutils/sorting.py:33-39 | Text, one run, text gives the three-part key of those parts. |
| Sorting.ZeroPaddingIgnored | avbutils/sorting.py:33-39 | Leading zeros of a run do not change the key. |
| Sorting.LeadingZerosIgnored | avbutils/sorting.py:33-39 | "A007" and "a7" get the same key. |
| Sorting.TrtKeepsCase | trtlib/__init__.py:9-15 | The trtlib key keeps letter case, while the avbutils key drops it. |
| Sorting.Latest | trtlib/__init__.py:54-57 | The result is the first element of a descending stable sort: it has a maximal key, and every earlier element's key is smaller. An empty input raises "No sequences". |
| Sorting.TrtKeys | trtlib/__init__.py:55 | The keys `sorted` compares: one per sequence, in order, each the trtlib `human_sort` key of that sequence's name. |
| Sorting.LatestByName | trtlib/__init__.py:54-57 | The latest sequence by trtlib's human sort key. An empty bin raises. |
| Sorting.FieldOf | avbutils/sorting.py:24-29 | Only the name sort reads a string. |
| Sorting.ValueLessStrictTotal | avbutils/sorting.py:24-29 | The comparison of sort values is a strict total order. |
| Sorting.FieldValues | examples/get_trts.py:121 | The keys `sorted` compares: one per sequence, in order, each the field the chosen sort lambda reads. |
| Sorting.LatestBy | examples/get_trts.py:119-123 | An empty bin raises "No sequences". A non-empty bin with an unknown choice fails because the key cannot be called. Otherwise the result is the latest entry by the chosen field. |
| Bins.ModeFromBin | avbutils/bins.py:22-37 | Decodes exactly 0 to 2, each to its mode. Any other value raises. |
| Bins.OptionsAreDistinctBits | avbutils/bins.py:39-82 | Every option has its own named bit. |
| Bins.OptionAt | avbutils/bins.py:39-82 | A bit names an option exactly when it is a named bit, and the option's bit is that bit. |
| Bins.OptionsOf | avbutils/bins.py:84-87 | Exactly the options whose bit is set. |
| Bins.MaskOf | avbutils/bins.py:39-82 | Exactly the bits of the given options. |
| Bins.OptionsRoundTrip | avbutils/bins.py:39-87 | OR-ing options together and reading them back gives the options. |
| Bins.MaskRoundTrip | avbutils/bins.py:39-87 | Reading a mask and OR-ing its options keeps exactly its named bits. |
| Bins.UnnamedBitsYieldNothing | avbutils/bins.py:39-82 | Bits 8 and 12 to 14 name no option. |
| Bins.DecodeSortDirection | avbutils/bins.py:93-100 | Decodes exactly 0 and 1. Any other code raises. |
| Bins.SiftMethodFromItem | avbutils/bins.py:116-119 | Decodes exactly 1 to 3. Any other code raises. |
| Bins.SiftMethodsFromBin | avbutils/bins.py:121-124 | One method per setting in order. Raises at the first setting that does not decode. |
| Bins.DecodeColumnFormat | avbutils/bins.py:126-158 | Decodes exactly the listed formats. Any other code raises. |
| Bins.DecodeInvertsCode | avbutils/bins.py:22-158 | Decoding a member's code gives that member back, for every enumeration here. |
| Bins.MotionEffectsName | avbutils/bins.py:89-91 | An instance of the `Text.Pretty` rule: `str()` of the MOTION_EFFECTS flag is "Motion Effects". |
| Bins.FrameRateName | avbutils/bins.py:160-162 | An instance of the `Text.Pretty` rule: `str()` of FRAME_RATE is "Frame Rate". |
| Reels.Pad2 | trtlib/reelinfo.py:38 | The frames are always two digits. |
| Reels.PadValue | trtlib/reelinfo.py:38 | Two padded digits read back as the number. |
| Reels.FeetAndFrames | trtlib/reelinfo.py:38 | The footage is the feet, one `+`, and exactly two frame digits. The feet read back as the floored quotient by 16 and the digits as the remainder. |
| Reels.FeetAndFramesRoundTrip | trtlib/reelinfo.py:37-38 | The footage string reads back as the frame number it renders. |
| Reels.TrtDurationAdjusted | trtlib/reelinfo.py:29-32 | Adjusted duration plus both leaders is the total. |
| Reels.TrtLfoa | trtlib/reelinfo.py:34-38 | The footage reads back as `total - tail - 1`, with no clamp. |
| Reels.TrtLfoaOfEmptyReel | trtlib/reelinfo.py:34-38 | As written, a reel with no picture between its leaders gets "-1+15". |
| Reels.DurationAdjusted | examples/get_trts.py:64-67 | Never negative, and a missing leader counts 0. Either the duration is 0 or the duration plus the leaders is the total. |
| Reels.AdjustedAgrees | examples/get_trts.py:64-67 | With both leaders set, the result is trtlib's value clamped at 0. |
| Reels.Lfoa | examples/get_trts.py:69-73 | The footage reads back as `max(total - tail - 1, 0)`. A missing tail leader raises TypeError. |
| Reels.LfoaOfEmptyReel | examples/get_trts.py:69-73 | Corrected version: an empty reel gets "0+00". |
| Reels.LfoaNeverNegative | examples/get_trts.py:69-73 | No footage string starts with '-'. |
| Reels.SumAdjusted | examples/get_trts.py:201 | The sum is never negative. |
| Reels.SumAdjustedOne | examples/get_trts.py:201 | One reel sums to its adjusted duration. |
| Reels.SumAdjustedAppend | examples/get_trts.py:201 | The sum of a concatenation is the sum of the sums of its halves, as Python's `sum` gives. |
| Reels.TotalRuntime | examples/get_trts.py:201 | The total runtime is the sum plus the adjustment when that is positive, and 0 otherwise. |
| Reels.SumCoversEachReel | examples/get_trts.py:201 | Every reel's duration is part of the sum. |
| Reels.TotalCoversEachReel | examples/get_trts.py:201 | With no negative adjustment, the total covers every reel. |
| Reels.ReelNumber | examples/get_trts.py:75-85 | Anything but property data raises. A `_USER` entry that is not a dict raises. The value is found exactly when both keys exist, and is `attrs["_USER"]["Reel #"]`. |
| Reels.IndexOf | examples/get_trts.py:215 | The first position of the option. |
| Reels.StripOption | examples/get_trts.py:214-221 | No copy of the option remains, and only original arguments remain. Without the option, nothing changes. Which value wins and the order of the rest are given by Reels.StripOptionIsScan. |
| Reels.Scan | examples/get_trts.py:214-221 | The single left-to-right pass: no copy of the option remains in what it keeps. |
| Reels.ScanPrefix | examples/get_trts.py:214-221 | Arguments without the option before the rest are kept in front, in order. |
| Reels.ScanPair | examples/get_trts.py:214-221 | A pair after option-free arguments only sets the value. |
| Reels.StripOptionIsScan | examples/get_trts.py:214-221 | The delete-and-search loop equals the single pass. The last pair's value wins, every other argument keeps its order, and a trailing option with no value raises. |
| Reels.StripOnePair | examples/get_trts.py:214-221 | Removing the first `opt V` pair is one round, and V becomes the current value. |
| Reels.LastOptionWins | examples/get_trts.py:214-232 | With the option given twice, the later value wins and the other arguments keep their order. |
| Reels.ProcessArgs | examples/get_trts.py:204-240 | None of the three options remain afterwards. The rest is no longer than the input, and every argument in it comes from the input; its order and the values read are given by Reels.ProcessArgsEachOnce and Reels.StripOptionIsScan. |
| Reels.ProcessArgsEachOnce | examples/get_trts.py:204-240 | With each option given once around plain arguments, each value is read and the plain arguments remain, in order. |
| Lineage.LastTrackIndex | examples/lineage_exploration_v3.py:84-89 | The track found matches, and no later track does. None means no track matches. |
| Lineage.LastIsFirstWhenUnique | examples/lineage_exploration_v3.py:84-89 | With a unique match, the last match is the first. |
| Lineage.DuplicateTracksDiffer | examples/lineage_exploration_v3.py:84-89 | With two matches, the walk takes the later one, where pyavb takes the earlier. |
| Lineage.ScaleOffset | examples/lineage_exploration_v3.py:96 | The offset is scaled by the ratio of edit rates, rounded to within half a frame, and a tie goes to the even integer. A zero edit rate raises. |
| Lineage.ScaleNearest | examples/lineage_exploration_v3.py:96 | Away from a tie, the scaled offset is the one integer nearest to the exact value. |
| Lineage.ScaleSameRate | examples/lineage_exploration_v3.py:96 | Between equal rates the offset is unchanged. |
| Lineage.ScaleThereAndBack | examples/lineage_exploration_v3.py:96 | To a k-times rate and back returns the offset. |
| Lineage.ResolveMob | examples/lineage_exploration_v3.py:62-98 | A non-clip, or a null mob id, stops the walk. A dangling id raises, and a mob with no matching track raises. Otherwise the clip always gives the hop to the referenced mob, its last matching track and the scaled offset, unless scaling raises ZeroDivisionError, which propagates. |
| Lineage.ResolveAt | examples/lineage_exploration_v3.py:69-73 | A raising component lookup ends the program through `exit()`. Otherwise the step is `resolve_mob` on the component found. |
| Lineage.Walk | examples/lineage_exploration_v3.py:306-313 | The walk stays within its bound, and every hop's mob is in the bin. A failing lookup at the start exits. |
| Lineage.WalkLinked | examples/lineage_exploration_v3.py:306-313 | Collected hops are linked by `resolve_mob` and end at StopIteration. Conversely, linked hops within the bound are exactly what the walk collects. |
| Lineage.TrackStacksAsWritten | examples/lineage_exploration_v3.py:295-316 | As written: every kept stack is one of the tracks' and is non-empty. Completeness and order are given by Lineage.AsWrittenOne and Lineage.AsWrittenAppend. |
| Lineage.AsWrittenOne | examples/lineage_exploration_v3.py:295-316 | As written, one track alone is its walk from the given offset, and it leaves the offset at the walk's last hop. |
| Lineage.AsWrittenAppend | examples/lineage_exploration_v3.py:295-316 | As written, the tracks after a prefix are walked from the offset the prefix left behind: track j + 1 starts where track j's walk ended. |
| Lineage.TrackStacks | examples/lineage_exploration_v3.py:302-316 | Corrected version: every kept stack is one of the tracks' and is non-empty. Completeness and order are given by Lineage.TrackStacksOne and Lineage.TrackStacksAppend. |
| Lineage.TrackStacksOne | examples/lineage_exploration_v3.py:302-316 | Corrected version: one track alone is its walk from frame 0, kept only when non-empty. |
| Lineage.TrackStacksAppend | examples/lineage_exploration_v3.py:302-316 | Corrected version: the stacks of a concatenation are those of its halves, in order. With the one-track lemma, every track with a non-empty walk has its stack, in track order. |
| Lineage.TrackStacksIndependent | examples/lineage_exploration_v3.py:302-316 | Each kept stack is its own track's walk from frame 0. |
| Lineage.ExampleWalks | examples/lineage_exploration_v3.py:306-313 | In the example, both tracks walked from frame 0 reach the source, and the sound track walked from frame 10 hits filler. |
| Lineage.OffsetLeaksAcrossTracks | examples/lineage_exploration_v3.py:295-316 | As written, the sound track starts at the picture's end offset and gets no stack. |
| Lineage.EachTrackReachesSource | examples/lineage_exploration_v3.py:302-316 | Corrected version: both tracks get their source. |
| Lineage.IsFileSourceMob | examples/lineage_exploration_v3.py:158-161 | Raises exactly on an unknown type. True exactly for a source mob with a media file descriptor. |
| Lineage.IsPhysicalSourceMob | examples/lineage_exploration_v3.py:163-166 | Raises exactly on an unknown type. True exactly for a source mob with any other descriptor. |
| Lineage.FilePhysicalPartition | examples/lineage_exploration_v3.py:180-184 | `file_source_mobs` and `physical_source_mobs` (`Lineage.FileSelection`, `Lineage.PhysicalSelection`) stop at the same mob. Before it, every source mob is kept by exactly one of them, in order. |
| Lineage.FirstFileMob | examples/lineage_exploration_v3.py:188 | The first file source mob, with only earlier tests run. StopIteration exactly when there is none. |
| Lineage.LinkType | examples/lineage_exploration_v3.py:186-212 | UME-linked exactly when a member of the first file mob's descriptor is linked, and Managed otherwise. StopIteration without a file mob. |
| Lineage.AnyLinkedMemberLinks | examples/lineage_exploration_v3.py:195-210 | One linked member of a multi-descriptor suffices. |
| Lineage.OldestPhysical | examples/lineage_exploration_v3.py:230 | The last physical source mob of the whole stack. Any unknown type raises. |
| Lineage.SourceType | examples/lineage_exploration_v3.py:227-238 | "NONE??" without a physical mob, and a missing descriptor raises. A file-located descriptor of the oldest physical mob gives "Source File", and any other descriptor gives its class name. |
| Lineage.FirstPath | examples/lineage_exploration_v3.py:250-258 | The first non-empty path in key order, or "" exactly when there is none. |
| Lineage.PathPreference | examples/lineage_exploration_v3.py:250-258 | The UTF-8 path wins when it is set. The plain path is used only when no other path is. |
| Lineage.SourceName | examples/lineage_exploration_v3.py:240-261 | "NONE????" without a physical mob, and a missing descriptor raises. A file-located descriptor gives the first set path in key order, or "" when none is set. Anything else gives the mob's name. |
| Selection.SelectFrom | examples/identification_exploration.py:63-70 | The filter scan from a position keeps exactly the passing items before the cut, in order, and stops at the first raise. |
| Selection.Select | examples/identification_exploration.py:63-70 | The same scan over the whole input. |
| Selection.FailsSomewhere | examples/identification_exploration.py:63-70 | The scan raises exactly when some test raises. |
| Selection.NothingKept | examples/identification_exploration.py:63-70 | A scan that neither raises nor keeps anything saw every test fail. |
| Selection.LastKept | examples/lineage_exploration_v3.py:230 | The last kept item passed, and every later one failed. |
| Selection.First | examples/lineage_exploration_v3.py:188 | `next(filter(...))` is the first passing item, with only earlier tests run. |
| Selection.Last | examples/lineage_exploration_v3.py:230 | `list(filter(...))[-1]` is the last passing item, and any raise propagates. |
| Selection.Pick | examples/identification_exploration.py:63-70 | The yielded items at the kept positions. |
| Chains.Follow | avbutils/sourcerefs.py:97-100 | The chain stays within the bound, and every entry can be followed. |
| Chains.FollowLinked | avbutils/sourcerefs.py:97-100 | Each entry is the hop of the one before. |
| Chains.FollowStop | avbutils/sourcerefs.py:97-100 | How the chain ends is read off the entry after it. |
| Chains.FollowFuelIrrelevant | avbutils/sourcerefs.py:97-100 | More fuel changes nothing once the chain has ended. |
| Chains.FollowFuelPrefix | avbutils/sourcerefs.py:97-100 | Less fuel gives a prefix. |
| Text.LowerStr | avbutils/sorting.py:37 | `str.lower()` maps each character and keeps its digits. |
| Text.TitleFrom | avbutils/compositions.py:21-23 | `str.title()` lower-cases a letter that follows a letter and upper-cases every other letter. |
| Text.Pretty | avbutils/compositions.py:21-23 | The one `__str__` rule shared by every enumeration in compositions.py and bins.py: underscores become spaces, and each word starts with a capital. |
| Text.DecimalRoundTrip | trtlib/reelinfo.py:38 | Rendering a number and reading it back gives it back. |
| Text.LeadingZerosVanish | avbutils/sorting.py:37 | Leading zeros do not change `int()` of a digit run. |
| Order.LexStrictTotal | avbutils/sorting.py:33-39 | The list comparison is a strict total order when the element comparison is. |
| Arith.RoundHalfEven | examples/lineage_exploration_v3.py:96 | `round()` of a fraction is within half a step, and breaks ties to even. |
| Arith.RoundHalfEvenUnique | examples/lineage_exploration_v3.py:96 | `round()` is the unique integer strictly closer than half a step. |

## Left out

- pyavb is not part of this model. Its reader, the object model, `find_by_mob_id` and `SourceClip.track` are given by their contracts (`Avb.FindMob`, `Avb.TargetTrack`). `Sequence.nearest_component_at_time` is given by a concrete rule, `SourceRefs.NearestBelow`. `round(edit_rate)` is rounded half to even.
- SourceRefs.NearestBelow: pyavb's own `nearest_component_at_time` is not part of this model. The rule assumed is the last member whose start is at or before the frame, scanning every member. Starts use the transition-aware positions of the marker walk (avbutils/markers.py:54-61): a transition moves the position back by its length. How pyavb breaks ties between overlapping members, or whether it stops at the first member past the frame, is not modelled.
- The `timecode` library is not part of this model. Resampling is a parameter (`Resampler`), and timecodes are frame counts at a rate. Parsing `--head`/`--tail`/`--trt-adjust` values is left out; the values are kept as strings.
- SourceRefs.Chain, MobStack.Hops and Lineage.Walk take a hop bound (`fuel`), because the source loops have no cycle guard. A cyclic mob graph that never stops in Python ends here with `TooDeep`/`HopBoundExhausted`.
- `get_component_from_track` of the lineage example is a parameter (`Locate`) that may raise. `resolve_mob` catches any exception from it and calls `exit()`, which is modelled as the `Exited` failure ending the walk. `get_timecode`, `get_timecode_range_for_track`, `analyze_masterclip_stack` and `MasterclipStack` printing are left out: they only print or read timecode components.
- File I/O is left out: `avb.open`, lockfiles, `get_bin_paths` and its dotfile filter, the process pool of `get_trts.py`, `print_trts` and every `print`. Output is not modelled.
- The Qt bin model and GUI files, thumbnails and the `BIN_COLUMN_ROLES` table are left out as presentation.
- Creation and modification times are integer timestamps, because `datetime` conversion is formatting. Text handling (`lower`, `title`, `isdigit`) is ASCII only.
- Sorting.PartLess: comparing a number with a text raises TypeError in Python. Here the pair gets an arbitrary order so that the order is total; `Sorting.KeysAligned` shows that two human sort keys never meet that case.
- Bins.OptionsOf: a display mask is a set of bit positions instead of an integer, so bits above the named ones are kept as positions.
- Markers.ComponentMarkers: in the source, `markers.extend` appends to the component's own `_TMP_CRM` list, so a second call sees the children's markers twice. The model returns a fresh list on every call.
- Matchback.IsMasterclip: pyavb's `mob_type` string "MasterMob" is taken to be mob type code 2.
- MobStack.PastSelectors: the helper that finds the selected track is not part of this model. It is taken to be the first picture track with the selected index.
- Lineage.SourceType: `type(descriptor).__name__` is `ClassName`. The media file classes are represented by their common base class.
- MobStack.SourceMobs: `composition_is_source_mob` is the one of `examples/identification_exploration.py`. `get_tracks_from_composition` is taken as its first match.
- Diagnostic strings that the source returns instead of raising (`matchback_trackgroup`, `matchback_sequence`) are kept only as their cause (`Diagnostic`), not their text.

## Findings

| source | as written | input that shows it | evidently intended | confidence | as-written member | corrected member |
|---|---|---|---|---|---|---|
| avbutils/matchback.py:50-77 | The loop finds the master clip, but the function has no `return`, so every call that does not raise returns None. | A group clip whose selected track is a sequence [filler, clip of a master clip, filler]. | Return the master clip the loop stopped at. | not executed | Matchback.MatchbackToMasterclipAsWritten, Matchback.GroupClipReachesMasterclip | Matchback.MatchbackToMasterclip |
| trtlib/reelinfo.py:34-38 | `frame_number = total - tail - 1` is not clamped, so an empty reel renders a negative footage. | total == tail (no picture between the leaders) gives "-1+15". | Clamp at 0 as `examples/get_trts.py:72` does, giving "0+00". | not executed | Reels.TrtLfoa, Reels.TrtLfoaOfEmptyReel | Reels.Lfoa, Reels.LfoaOfEmptyReel, Reels.LfoaNeverNegative |
| examples/lineage_exploration_v3.py:295,302-316 | `offset = 0` is set once per bin item, so each track's walk starts where the previous track's walk left it. | A master clip whose picture and sound tracks reference a source at frame 10, where the sound track holds filler: the sound track gets no stack. | Reset the offset for every track. | not executed | Lineage.TrackStacksAsWritten, Lineage.OffsetLeaksAcrossTracks | Lineage.TrackStacks, Lineage.TrackStacksIndependent, Lineage.EachTrackReachesSource |

=== FILE: arith.dfy ===
/** Integer helpers: Python's `round()` on an exact rational, which rounds
    half to even. */
module Arith {

  function Abs(x: int): nat {
    if x < 0 then -x else x
  }

  /** Python's `round(Fraction(p, q))`: the nearest integer to p/q, with a
      tie broken towards the even neighbour. */
  function RoundHalfEven(p: int, q: int): (r: int)
    requires q != 0
    ensures 2 * Abs(p - r * q) <= Abs(q)
    ensures 2 * Abs(p - r * q) == Abs(q) ==> r % 2 == 0
  {
    if q < 0 then RoundPos(-p, -q) else RoundPos(p, q)
  }

  function RoundPos(p: int, q: int): (r: int)
    requires q > 0
    ensures 2 * Abs(p - r * q) <= q
    ensures 2 * Abs(p - r * q) == q ==> r % 2 == 0
  {
    var f := p / q;
    var m := p % q;
    assert p == f * q + m;
    if 2 * m < q then
      f
    else if 2 * m > q then
      assert p - (f + 1) * q == m - q;
      f + 1
    else if f % 2 == 0 then
      f
    else
      assert p - (f + 1) * q == m - q;
      f + 1
  }

  /** The rounding is the unique integer strictly closer than half a step,
      so an exact quotient is returned unchanged. */
  lemma RoundHalfEvenUnique(p: int, q: int, n: int)
    requires q != 0
    requires 2 * Abs(p - n * q) < Abs(q)
    ensures RoundHalfEven(p, q) == n
  {
    var r := RoundHalfEven(p, q);
    MulSub(r, n, q);
    CloseMultiples(p - n * q, p - r * q, r - n, q);
  }

  lemma MulSub(x: int, y: int, q: int)
    ensures x * q - y * q == (x - y) * q
  {
  }

  /** Two residues within half a step of each other differ by no multiple
      of the step other than zero. */
  lemma CloseMultiples(a: int, b: int, d: int, q: int)
    requires q != 0
    requires 2 * Abs(a) < Abs(q) && 2 * Abs(b) <= Abs(q)
    requires a - b == d * q
    ensures d == 0
  {
    if d != 0 {
      MulAtLeast(d, q);
    }
  }

  /** A non-zero multiple of a step is at least the step in size. */
  lemma MulAtLeast(d: int, q: int)
    requires d != 0 && q != 0
    ensures Abs(d * q) >= Abs(q)
  {
    MulSub(d, 1, q);
    MulSub(d, -1, q);
    if d > 0 {
      MulSigns(d - 1, q);
    } else {
      MulSigns(-d - 1, q);
      MulSub(0, d + 1, q);
    }
  }

  /** The sign of a product with a natural factor follows the other factor. */
  lemma MulSigns(n: nat, q: int)
    ensures q > 0 ==> n * q >= 0
    ensures q < 0 ==> n * q <= 0
  {
  }

  lemma RoundExact(n: int, q: int)
    requires q != 0
    ensures RoundHalfEven(n * q, q) == n
  {
    RoundHalfEvenUnique(n * q, q, n);
  }
}

=== FILE: avb.dfy ===
/** The read-only object graph the source walks: mobs held in a table keyed
    by mob id, their tracks, and the closed set of component kinds. Every
    Python exception the modelled code can raise is a `Failure`. */
module Avb {
  import opened Wrappers
  import Arith

  type PosInt = n: int | n > 0 witness 1

  /** A rational edit rate (pyavb reads these as fractions). */
  datatype Rate = Rate(num: int, den: PosInt)

  /** `round(edit_rate)`: the integer frame rate the code works in. */
  function Rounded(r: Rate): int {
    Arith.RoundHalfEven(r.num, r.den)
  }

  datatype MediaKind = Picture | Sound | TimecodeKind | Edgecode | DataEssence | OtherKind(name: string)

  /** A mob identifier; `data1` is the first field of the UMID, which is 0
      for the "no reference" id. */
  datatype MobId = MobId(data1: nat, rest: nat)

  /** A value from a property-data or attribute dictionary. */
  datatype AttrValue = IntVal(i: int) | StrVal(s: string) | DictVal(entries: map<string, AttrValue>) | OtherVal

  datatype Marker = Marker(compOffset: int, attributes: map<string, AttrValue>)

  /** A component's `attributes` property: absent altogether, or present
      with its `_TMP_CRM` marker list (empty when the key is missing). */
  datatype Attributes = NoAttributes | Attributes(markers: seq<Marker>)

  /** The track-group kinds that matter to the walks. */
  datatype GroupKind = TrackEffect | TransitionEffect | TimeWarp | Selector(selected: int) | EssenceGroup | OtherGroup

  /** Every component has an edit rate, a length and attributes; the body
      says which kind it is. */
  datatype Component = Component(rate: Rate, length: int, attrs: Attributes, body: Body)

  datatype Body =
    | Sequence(components: seq<Component>)
    | SourceClip(kind: MediaKind, mobId: MobId, trackId: int, startTime: int)
    | Filler
    | TimecodeClip(start: int)
    | OtherClip
    | TrackGroup(group: GroupKind, tracks: seq<Track>)
    /** A Track met where a component is expected. */
    | TrackNode(track: Track)

  /** A track; `component` is None when the track carries no component
      property (some precompute placeholder tracks). */
  datatype Track = Track(kind: MediaKind, index: int, component: Option<Component>)

  /** A TransitionEffect overlaps its neighbours in a sequence. */
  predicate IsTransition(c: Component) {
    c.body.TrackGroup? && c.body.group.TransitionEffect?
  }

  /** The total length of the transitions (or of the other items) among
      the first `n` items. */
  function Lengths(items: seq<Component>, n: nat, transitions: bool): int
    requires n <= |items|
  {
    if n == 0 then 0
    else Lengths(items, n - 1, transitions) + (if IsTransition(items[n - 1]) == transitions then items[n - 1].length else 0)
  }

  /** The position after the first `n` items of a sequence: the start,
      moved forward by every item and back by every transition. */
  function PositionAfter(items: seq<Component>, n: nat, start: int): int
    requires n <= |items|
  {
    start + Lengths(items, n, false) - Lengths(items, n, true)
  }

  /** Where item `n` of a sequence starts: the position before it, less
      its own length when it is a transition. This is where the marker walk
      places an item's markers and where a sequence's members are found by
      time. */
  function ItemPosition(items: seq<Component>, n: nat, start: int): int
    requires n < |items|
  {
    PositionAfter(items, n, start) - (if IsTransition(items[n]) then items[n].length else 0)
  }

  datatype Locator = MSMLocator | FileLocator(paths: map<string, string>) | URLLocator | OtherLocator

  /** Essence descriptors. `FileDescriptor` and `MultiDescriptor` are the
      `MediaFileDescriptor` family; a physical one (tape, film, import, ...)
      keeps its class name. An absent `locator` property is None. */
  datatype Descriptor =
    | FileDescriptor(mobKind: int, locator: Option<Locator>, physicalMedia: Option<Descriptor>)
    | MultiDescriptor(mobKind: int, locator: Option<Locator>, physicalMedia: Option<Descriptor>, descriptors: seq<Descriptor>)
    | PhysicalDescriptor(className: string, mobKind: int, locator: Option<Locator>, physicalMedia: Option<Descriptor>)
  {
    /** `isinstance(d, avb.essence.MediaFileDescriptor)` */
    predicate IsMediaFile() {
      FileDescriptor? || MultiDescriptor?
    }

    /** `d.descriptors if isinstance(d, MultiDescriptor) else [d]` */
    function Members(): seq<Descriptor> {
      if MultiDescriptor? then descriptors else [this]
    }
  }

  datatype Mob = Mob(
    name: string,
    rate: Rate,
    length: int,
    typeCode: int,
    usageCode: int,
    attributes: map<string, AttrValue>,
    descriptor: Option<Descriptor>,
    tracks: seq<Track>)

  /** The mob table of one open bin; `find_by_mob_id` is a lookup in it. */
  type MobTable = map<MobId, Mob>

  datatype BinItem = BinItem(mob: Mob, userPlaced: bool)

  datatype Failure =
    | UnknownMobType(typeCode: int)
    | UnknownMobUsage(usageCode: int)
    | UnknownSourceRole(mobKind: int)
    | NotASourceMob
    | MissingDescriptor
    | NoComponentAtTime(frame: int)
    | MissingComponent
    | NoPrimaryTrack
    | NoPhysicalSource
    | HopBoundExhausted
    | NoSelectedTrack
    | NoInnerTrack
    | NotAReference
    | MobNotFound
    | NoMatchingTrack
    | EmptyStack
    | NotAnEssenceDescriptor
    | NotAnEssenceMob
    | EssenceOnlyFileReference
    | IndexOutOfRange(index: int)
    | UndefinedName
    | UnknownMarkerColor
    | BadTimestamp
    | UnknownCode(code: int)
    | NoSequences
    | KeyNotCallable
    | MissingLeader
    | NotPropertyData
    | UserNotADict
    | MissingOptionValue
    | NoFileSourceMob
    | ZeroEditRate
    | Exited

  type Res<T> = Result<T, Failure>

  /** `find_by_mob_id`: None for a dangling reference. */
  function FindMob(table: MobTable, id: MobId): (r: Option<Mob>)
    ensures r.Some? <==> id in table
    ensures r.Some? ==> r.value == table[id]
  {
    if id in table then Some(table[id]) else None
  }

  predicate Matches(t: Track, kind: MediaKind, index: int) {
    t.kind == kind && t.index == index
  }

  /** The position of the first track of `kind` with `index`. */
  function FirstTrackIndex(tracks: seq<Track>, kind: MediaKind, index: int): (r: Option<nat>)
    ensures r.Some? ==> r.value < |tracks| && Matches(tracks[r.value], kind, index)
    ensures r.Some? ==> forall j :: 0 <= j < r.value ==> !Matches(tracks[j], kind, index)
    ensures r.None? ==> forall j :: 0 <= j < |tracks| ==> !Matches(tracks[j], kind, index)
  {
    if tracks == [] then None
    else if Matches(tracks[0], kind, index) then Some(0)
    else match FirstTrackIndex(tracks[1..], kind, index)
      case None => None
      case Some(i) => Some(i + 1)
  }

  predicate HasTrack(mob: Mob, kind: MediaKind, index: int) {
    exists j :: 0 <= j < |mob.tracks| && Matches(mob.tracks[j], kind, index)
  }

  /** pyavb's `SourceClip.track`: the first track of the referenced mob with
      the clip's media kind and `index == track_id`, or None. */
  function TargetTrack(table: MobTable, clip: Component): (r: Option<Track>)
    ensures r.Some? <==> (clip.body.SourceClip? && clip.body.mobId in table && HasTrack(table[clip.body.mobId], clip.body.kind, clip.body.trackId))
    ensures r.Some? ==> r.value in table[clip.body.mobId].tracks && Matches(r.value, clip.body.kind, clip.body.trackId)
  {
    if !clip.body.SourceClip? || clip.body.mobId !in table then None
    else
      var mob := table[clip.body.mobId];
      match FirstTrackIndex(mob.tracks, clip.body.kind, clip.body.trackId)
      case None => None
      case Some(i) => Some(mob.tracks[i])
  }

  /** Python's `s[i]`: negative indices count from the end. */
  function PyIndex<T>(s: seq<T>, i: int): (r: Res<T>)
    ensures r.Ok? <==> -|s| <= i < |s|
    ensures 0 <= i < |s| ==> r == Ok(s[i])
    ensures -|s| <= i < 0 ==> r == Ok(s[|s| + i])
  {
    if 0 <= i < |s| then Ok(s[i])
    else if -|s| <= i < 0 then Ok(s[|s| + i])
    else Err(IndexOutOfRange(i))
  }
}

=== FILE: bins.dfy ===
/** The bin display settings of `avbutils/bins.py`: view mode, the display
    mask of item kinds, sort direction, sift method and column format. */
module Bins {
  import opened Wrappers
  import opened Avb
  import Text

  /** `BinDisplayModes`, read from a bin's `display_mode`. */
  datatype BinDisplayMode = ListView | FrameView | ScriptView {
    function Code(): int {
      match this
      case ListView => 0
      case FrameView => 1
      case ScriptView => 2
    }
  }

  /** `get_mode_from_bin`: `BinDisplayModes(bin.display_mode)`, which
      raises for any value outside the enumeration. */
  function ModeFromBin(displayMode: int): (r: Res<BinDisplayMode>)
    ensures r.Ok? <==> 0 <= displayMode <= 2
    ensures r.Ok? ==> r.value.Code() == displayMode
    ensures r.Err? ==> r.error == UnknownCode(displayMode)
  {
    if displayMode == 0 then Ok(ListView)
    else if displayMode == 1 then Ok(FrameView)
    else if displayMode == 2 then Ok(ScriptView)
    else Err(UnknownCode(displayMode))
  }

  /** `BinDisplayOptions`, an `IntFlag` over the bin's `display_mask`. */
  datatype DisplayOption =
    | MasterClips | Subclips | Sequences | Sources | Effects | Groups
    | PrecompRenderedEffects | MotionEffects | ShowClipsCreatedByUser
    | ShowReferenceClips | PrecompTitlesMattekeys | StereoscopicClips
    | LinkedMasterClips
  {
    /** The bit the option's value sets: its value is 2 to this power. */
    function Bit(): nat {
      match this
      case MasterClips => 0
      case Subclips => 1
      case Sequences => 2
      case Sources => 3
      case Effects => 4
      case Groups => 5
      case PrecompRenderedEffects => 6
      case MotionEffects => 7
      case ShowClipsCreatedByUser => 9
      case ShowReferenceClips => 10
      case PrecompTitlesMattekeys => 11
      case StereoscopicClips => 15
      case LinkedMasterClips => 16
    }

    function Name(): string {
      match this
      case MasterClips => "MASTER_CLIPS"
      case Subclips => "SUBCLIPS"
      case Sequences => "SEQUENCES"
      case Sources => "SOURCES"
      case Effects => "EFFECTS"
      case Groups => "GROUPS"
      case PrecompRenderedEffects => "PRECOMP_RENDERED_EFFECTS"
      case MotionEffects => "MOTION_EFFECTS"
      case ShowClipsCreatedByUser => "SHOW_CLIPS_CREATED_BY_USER"
      case ShowReferenceClips => "SHOW_REFERENCE_CLIPS"
      case PrecompTitlesMattekeys => "PRECOMP_TITLES_MATTEKEYS"
      case StereoscopicClips => "STEREOSCOPIC_CLIPS"
      case LinkedMasterClips => "LINKED_MASTER_CLIPS"
    }

    /** `__str__` */
    function Str(): string {
      Text.Pretty(Name())
    }
  }

  /** A mask, as the set of positions of its 1-bits: `IntFlag` reads and
      builds masks bit by bit, so this is all of the integer it looks at. */
  type Mask = set<nat>

  /** The bits that carry a name. Bits 8 and 12 to 14 are used by the
      application but carry no name here. */
  const NamedBits: Mask := {0, 1, 2, 3, 4, 5, 6, 7, 9, 10, 11, 15, 16}

  /** No two options share a bit, and every option's bit is named. */
  lemma OptionsAreDistinctBits(o: DisplayOption, p: DisplayOption)
    ensures o.Bit() in NamedBits
    ensures o != p ==> o.Bit() != p.Bit()
  {
  }

  /** The option carried by a named bit. */
  function OptionAt(bit: nat): (r: Option<DisplayOption>)
    ensures r.Some? <==> bit in NamedBits
    ensures r.Some? ==> r.value.Bit() == bit
  {
    match bit
    case 0 => Some(MasterClips)
    case 1 => Some(Subclips)
    case 2 => Some(Sequences)
    case 3 => Some(Sources)
    case 4 => Some(Effects)
    case 5 => Some(Groups)
    case 6 => Some(PrecompRenderedEffects)
    case 7 => Some(MotionEffects)
    case 9 => Some(ShowClipsCreatedByUser)
    case 10 => Some(ShowReferenceClips)
    case 11 => Some(PrecompTitlesMattekeys)
    case 15 => Some(StereoscopicClips)
    case 16 => Some(LinkedMasterClips)
    case _ => None
  }

  /** The named members an `IntFlag` value contains (what iterating it
      yields); unnamed bits stay in the value but yield no member. */
  function OptionsOf(mask: Mask): (r: set<DisplayOption>)
    ensures forall o: DisplayOption :: o in r <==> o.Bit() in mask
  {
    set bit | bit in mask && OptionAt(bit).Some? :: OptionAt(bit).value
  }

  /** OR-ing the options together. */
  function MaskOf(opts: set<DisplayOption>): (m: Mask)
    ensures forall bit :: bit in m <==> exists o :: o in opts && o.Bit() == bit
  {
    set o | o in opts :: o.Bit()
  }

  /** Building a mask from options and reading it back gives the options. */
  lemma OptionsRoundTrip(opts: set<DisplayOption>)
    ensures OptionsOf(MaskOf(opts)) == opts
  {
    forall o: DisplayOption | o.Bit() in MaskOf(opts) ensures o in opts {
      var p :| p in opts && p.Bit() == o.Bit();
      OptionsAreDistinctBits(o, p);
    }
  }

  /** Reading a mask and OR-ing its options back keeps exactly its named
      bits; a mask built only from named bits comes back unchanged. */
  lemma MaskRoundTrip(mask: Mask)
    ensures MaskOf(OptionsOf(mask)) == mask * NamedBits
    ensures mask <= NamedBits ==> MaskOf(OptionsOf(mask)) == mask
  {
    forall bit | bit in mask * NamedBits ensures bit in MaskOf(OptionsOf(mask)) {
      var o := OptionAt(bit).value;
      assert o in OptionsOf(mask);
    }
  }

  /** Bits 8 and 12 to 14 name no option. */
  lemma UnnamedBitsYieldNothing()
    ensures OptionsOf({8, 12, 13, 14}) == {}
  {
    forall o: DisplayOption ensures o !in OptionsOf({8, 12, 13, 14}) {
      OptionsAreDistinctBits(o, o);
    }
  }

  /** `BinSortDirection` */
  datatype BinSortDirection = Ascending | Descending {
    function Code(): int {
      match this
      case Ascending => 0
      case Descending => 1
    }
  }

  function DecodeSortDirection(code: int): (r: Res<BinSortDirection>)
    ensures r.Ok? <==> code == 0 || code == 1
    ensures r.Ok? ==> r.value.Code() == code
    ensures r.Err? ==> r.error == UnknownCode(code)
  {
    if code == 0 then Ok(Ascending)
    else if code == 1 then Ok(Descending)
    else Err(UnknownCode(code))
  }

  /** `BinSiftMethod` */
  datatype BinSiftMethod = Contains | BeginsWith | MatchesExactly {
    function Code(): int {
      match this
      case Contains => 1
      case BeginsWith => 2
      case MatchesExactly => 3
    }
  }

  /** `from_sift_item`: `BinSiftMethod(sift_item.method)`. */
  function SiftMethodFromItem(code: int): (r: Res<BinSiftMethod>)
    ensures r.Ok? <==> 1 <= code <= 3
    ensures r.Ok? ==> r.value.Code() == code
    ensures r.Err? ==> r.error == UnknownCode(code)
  {
    if code == 1 then Ok(Contains)
    else if code == 2 then Ok(BeginsWith)
    else if code == 3 then Ok(MatchesExactly)
    else Err(UnknownCode(code))
  }

  /** `from_bin`: one sift method per sifted setting, in order; the list
      comprehension stops at the first setting that does not decode. */
  method SiftMethodsFromBin(methods: seq<int>) returns (r: Res<seq<BinSiftMethod>>)
    ensures r.Ok? <==> forall i :: 0 <= i < |methods| ==> 1 <= methods[i] <= 3
    ensures r.Ok? ==> |r.value| == |methods|
    ensures r.Ok? ==> forall i :: 0 <= i < |methods| ==> r.value[i].Code() == methods[i]
    ensures r.Err? ==> exists i :: (0 <= i < |methods| && r.error == UnknownCode(methods[i])
      && !(1 <= methods[i] <= 3)
      && forall j :: 0 <= j < i ==> 1 <= methods[j] <= 3)
  {
    var out: seq<BinSiftMethod> := [];
    var i := 0;
    while i < |methods|
      invariant 0 <= i <= |methods|
      invariant |out| == i
      invariant forall j :: 0 <= j < i ==> 1 <= methods[j] <= 3 && out[j].Code() == methods[j]
    {
      var m := SiftMethodFromItem(methods[i]);
      if m.Err? {
        return Err(m.error);
      }
      out := out + [m.value];
      i := i + 1;
    }
    return Ok(out);
  }

  /** `BinColumnFormat` */
  datatype BinColumnFormat =
    | Icon | Perf | UserText | What | Timecode | FrameCount | DateTime
    | FrameRate | Strict | FrameThumb | CodecInfo
  {
    function Code(): int {
      match this
      case Icon => 0
      case Perf => 1
      case UserText => 2
      case What => 20
      case Timecode => 100
      case FrameCount => 101
      case DateTime => 102
      case FrameRate => 103
      case Strict => 105
      case FrameThumb => 106
      case CodecInfo => 109
    }

    function Name(): string {
      match this
      case Icon => "ICON"
      case Perf => "PERF"
      case UserText => "USER_TEXT"
      case What => "WHAT"
      case Timecode => "TIMECODE"
      case FrameCount => "FRAME_COUNT"
      case DateTime => "DATE_TIME"
      case FrameRate => "FRAME_RATE"
      case Strict => "STRICT"
      case FrameThumb => "FRAME"
      case CodecInfo => "CODEC_INFO"
    }

    /** `__str__` */
    function Str(): string {
      Text.Pretty(Name())
    }
  }

  const ColumnFormatCodes: set<int> := {0, 1, 2, 20, 100, 101, 102, 103, 105, 106, 109}

  /** `BinColumnFormat(value)`: 104, 107 and 108 (and every other code
      outside the list) raise. */
  function DecodeColumnFormat(code: int): (r: Res<BinColumnFormat>)
    ensures r.Ok? <==> code in ColumnFormatCodes
    ensures r.Ok? ==> r.value.Code() == code
    ensures r.Err? ==> r.error == UnknownCode(code)
  {
    match code
    case 0 => Ok(Icon)
    case 1 => Ok(Perf)
    case 2 => Ok(UserText)
    case 20 => Ok(What)
    case 100 => Ok(Timecode)
    case 101 => Ok(FrameCount)
    case 102 => Ok(DateTime)
    case 103 => Ok(FrameRate)
    case 105 => Ok(Strict)
    case 106 => Ok(FrameThumb)
    case 109 => Ok(CodecInfo)
    case _ => Err(UnknownCode(code))
  }

  /** Decoding inverts `Code()` for every member of every enumeration here. */
  lemma DecodeInvertsCode(m: BinDisplayMode, d: BinSortDirection, s: BinSiftMethod, f: BinColumnFormat)
    ensures ModeFromBin(m.Code()) == Ok(m)
    ensures DecodeSortDirection(d.Code()) == Ok(d)
    ensures SiftMethodFromItem(s.Code()) == Ok(s)
    ensures DecodeColumnFormat(f.Code()) == Ok(f)
  {
  }

  /** What `__str__` prints for a flag and for a column format. */
  lemma MotionEffectsName()
    ensures MotionEffects.Str() == "Motion Effects"
  {
    var name, expected := "MOTION_EFFECTS", "Motion Effects";
    forall i | 0 <= i < |name| ensures expected[i] == Text.PrettyChar(name, i) {}
    Text.PrettyIs(name, expected);
  }

  lemma FrameRateName()
    ensures FrameRate.Str() == "Frame Rate"
  {
    var name, expected := "FRAME_RATE", "Frame Rate";
    forall i | 0 <= i < |name| ensures expected[i] == Text.PrettyChar(name, i) {}
    Text.PrettyIs(name, expected);
  }
}

=== FILE: chains.dfy ===
/** A reference chain as a generator yields it: start at an entry, yield it
    while it can be followed, hop to the next, and stop silently at an
    entry that cannot be followed, with the exception a hop raised, or on
    the hop bound. Generic in the entry type `L` and the exception type
    `E`; `step(l)` is None when `l` cannot be followed and the hop's
    outcome otherwise. */
module Chains {
  import opened Wrappers

  datatype Stop<E> = Finished | TooDeep | Failed(failure: E)

  /** What a generator yielded before it stopped. */
  datatype Trace<L, E> = Trace(refs: seq<L>, stop: Stop<E>)

  type Step<!L, E> = L -> Option<Result<L, E>>

  /** The chain from `l` with at most `fuel` hops. */
  function Follow<L, E>(step: Step<L, E>, l: L, fuel: nat): (r: Trace<L, E>)
    ensures |r.refs| <= fuel
    ensures forall k :: 0 <= k < |r.refs| ==> step(r.refs[k]).Some?
    decreases fuel
  {
    match step(l)
    case None => Trace([], Finished)
    case Some(hop) =>
      if fuel == 0 then Trace([], TooDeep)
      else match hop
        case Err(e) => Trace([l], Failed(e))
        case Ok(next) =>
          var rest := Follow(step, next, fuel - 1);
          Trace([l] + rest.refs, rest.stop)
  }

  /** A chain starts at its first entry and each entry is the hop of the
      one before. */
  lemma {:induction false} FollowLinked<L, E>(step: Step<L, E>, l: L, fuel: nat)
    ensures var r := Follow(step, l, fuel);
      && (|r.refs| > 0 ==> r.refs[0] == l)
      && (forall k :: 0 <= k < |r.refs| - 1 ==> step(r.refs[k]) == Some(Ok(r.refs[k + 1])))
    decreases fuel
  {
    if step(l).Some? && fuel > 0 && step(l).value.Ok? {
      var next := step(l).value.value;
      var rest := Follow(step, next, fuel - 1);
      var all := [l] + rest.refs;
      assert Follow(step, l, fuel).refs == all;
      FollowLinked(step, next, fuel - 1);
      forall k | 0 <= k < |all| - 1
        ensures step(all[k]) == Some(Ok(all[k + 1]))
      {
        if k > 0 {
          assert all[k] == rest.refs[k - 1] && all[k + 1] == rest.refs[k];
        }
      }
    }
  }

  /** The entry the walk looks at after yielding `refs`. */
  function After<L, E>(step: Step<L, E>, start: L, refs: seq<L>): Result<L, E>
    requires forall k :: 0 <= k < |refs| ==> step(refs[k]).Some?
  {
    if refs == [] then Ok(start) else step(refs[|refs| - 1]).value
  }

  /** Whether a walk ends at the entry after its chain: silently when it
      cannot be followed, with a failed hop's exception, or (only when the
      bound is used up) as too deep. */
  ghost predicate StopsAt<L, E>(step: Step<L, E>, after: Result<L, E>, stop: Stop<E>) {
    match stop
    case Finished => after.Ok? && step(after.value).None?
    case Failed(e) => after == Err(e)
    case TooDeep => after.Ok? && step(after.value).Some?
  }

  /** Prepending a hop does not move the entry after a chain. */
  lemma AfterStep<L, E>(step: Step<L, E>, l: L, next: L, rest: seq<L>)
    requires step(l) == Some(Ok(next))
    requires forall k :: 0 <= k < |rest| ==> step(rest[k]).Some?
    ensures forall k :: 0 <= k < |[l] + rest| ==> step(([l] + rest)[k]).Some?
    ensures After(step, l, [l] + rest) == After(step, next, rest)
  {
    var all := [l] + rest;
    forall k | 0 <= k < |all|
      ensures step(all[k]).Some?
    {
      if k > 0 {
        assert all[k] == rest[k - 1];
      }
    }
    if rest != [] {
      assert all[|all| - 1] == rest[|rest| - 1];
    }
  }

  /** How a chain ends is read off the entry after its last one; it is too
      deep only when it used the whole bound. */
  lemma {:induction false} FollowStop<L, E>(step: Step<L, E>, l: L, fuel: nat)
    ensures var r := Follow(step, l, fuel);
      && StopsAt(step, After(step, l, r.refs), r.stop)
      && (r.stop == TooDeep ==> |r.refs| == fuel)
    decreases fuel
  {
    var r := Follow(step, l, fuel);
    if step(l).Some? && fuel > 0 {
      match step(l).value
      case Err(e) =>
        assert r == Trace([l], Failed(e));
      case Ok(next) =>
        var rest := Follow(step, next, fuel - 1);
        assert r == Trace([l] + rest.refs, rest.stop);
        AfterStep(step, l, next, rest.refs);
        FollowStop(step, next, fuel - 1);
    }
  }

  /** More fuel never changes a chain that ended within the bound. */
  lemma {:induction false} FollowFuelIrrelevant<L, E>(step: Step<L, E>, l: L, fuel: nat, more: nat)
    requires Follow(step, l, fuel).stop != TooDeep
    requires fuel <= more
    ensures Follow(step, l, more) == Follow(step, l, fuel)
    decreases fuel
  {
    if step(l).Some? && fuel > 0 && step(l).value.Ok? {
      var next := step(l).value.value;
      FollowFuelIrrelevant(step, next, fuel - 1, more - 1);
    }
  }

  /** With more fuel the chain only grows: a shorter bound yields a prefix. */
  lemma {:induction false} FollowFuelPrefix<L, E>(step: Step<L, E>, l: L, fuel: nat, more: nat)
    requires fuel <= more
    ensures Follow(step, l, fuel).refs <= Follow(step, l, more).refs
    decreases fuel
  {
    if step(l).Some? && fuel > 0 && step(l).value.Ok? {
      var next := step(l).value.value;
      FollowFuelPrefix(step, next, fuel - 1, more - 1);
    }
  }
}

=== FILE: compositions.dfy ===
/** Decoding of a mob's two integer codes (`avbutils/compositions.py`), the
    top-level-timeline test and the clip colour. */
module Compositions {
  import opened Wrappers
  import opened Avb
  import Text

  /** `MobTypes`: the mob type codes. */
  datatype MobType = CompositionMob | MasterMob | SourceMob {

    function Code(): int {
      match this
      case CompositionMob => 1
      case MasterMob => 2
      case SourceMob => 3
    }

    function Name(): string {
      match this
      case CompositionMob => "COMPOSITION_MOB"
      case MasterMob => "MASTER_MOB"
      case SourceMob => "SOURCE_MOB"
    }

    /** `__str__` */
    function Str(): string {
      Text.Pretty(Name())
    }
  }

  const MobTypeCodes: set<int> := {1, 2, 3}

  /** `MobTypes(code)`: raises ValueError for any code outside the enum. */
  function DecodeMobType(code: int): (r: Res<MobType>)
    ensures r.Ok? <==> code in MobTypeCodes
    ensures r.Ok? ==> r.value.Code() == code
    ensures r.Err? ==> r.error == UnknownMobType(code)
  {
    if code == 1 then Ok(CompositionMob)
    else if code == 2 then Ok(MasterMob)
    else if code == 3 then Ok(SourceMob)
    else Err(UnknownMobType(code))
  }

  /** `MobUsage`: the usage codes, which come from OMF. */
  datatype MobUsage =
    | Undefined | Precompute | Subclip | Effect | GroupClip | GroupOofter
    | Motion | MasterMobUsage | PrecomputeFile | PrecomputeSourceMob
  {
    function Code(): int {
      match this
      case Undefined => 0
      case Precompute => 1
      case Subclip => 2
      case Effect => 3
      case GroupClip => 4
      case GroupOofter => 5
      case Motion => 6
      case MasterMobUsage => 7
      case PrecomputeFile => 9
      case PrecomputeSourceMob => 14
    }

    function Name(): string {
      match this
      case Undefined => "UNDEFINED"
      case Precompute => "PRECOMPUTE"
      case Subclip => "SUBCLIP"
      case Effect => "EFFECT"
      case GroupClip => "GROUP_CLIP"
      case GroupOofter => "GROUP_OOFTER"
      case Motion => "MOTION"
      case MasterMobUsage => "MASTER_MOB"
      case PrecomputeFile => "PRECOMPUTE_FILE"
      case PrecomputeSourceMob => "PRECOMPUTE_SOURCE_MOB"
    }

    /** `__str__` */
    function Str(): string {
      Text.Pretty(Name())
    }
  }

  const MobUsageCodes: set<int> := {0, 1, 2, 3, 4, 5, 6, 7, 9, 14}

  /** `MobUsage(code)`: codes 8 and 10 to 13 (and every other) raise. */
  function DecodeMobUsage(code: int): (r: Res<MobUsage>)
    ensures r.Ok? <==> code in MobUsageCodes
    ensures r.Ok? ==> r.value.Code() == code
    ensures r.Err? ==> r.error == UnknownMobUsage(code)
  {
    match code
    case 0 => Ok(Undefined)
    case 1 => Ok(Precompute)
    case 2 => Ok(Subclip)
    case 3 => Ok(Effect)
    case 4 => Ok(GroupClip)
    case 5 => Ok(GroupOofter)
    case 6 => Ok(Motion)
    case 7 => Ok(MasterMobUsage)
    case 9 => Ok(PrecomputeFile)
    case 14 => Ok(PrecomputeSourceMob)
    case _ => Err(UnknownMobUsage(code))
  }

  /** Decoding inverts `Code()` for every member of both enumerations. */
  lemma DecodeInvertsCode(t: MobType, u: MobUsage)
    ensures DecodeMobType(t.Code()) == Ok(t)
    ensures DecodeMobUsage(u.Code()) == Ok(u)
  {
  }

  /** `MobTypes.from_composition` */
  function MobTypeOf(mob: Mob): (r: Res<MobType>)
    ensures r.Ok? <==> mob.typeCode in MobTypeCodes
    ensures r.Ok? ==> r.value.Code() == mob.typeCode
    ensures r.Err? ==> r.error == UnknownMobType(mob.typeCode)
  {
    DecodeMobType(mob.typeCode)
  }

  /** `MobUsage.from_composition` */
  function MobUsageOf(mob: Mob): (r: Res<MobUsage>)
    ensures r.Ok? <==> mob.usageCode in MobUsageCodes
    ensures r.Ok? ==> r.value.Code() == mob.usageCode
    ensures r.Err? ==> r.error == UnknownMobUsage(mob.usageCode)
  {
    DecodeMobUsage(mob.usageCode)
  }

  /** `composition_is_toplevel`: the type is decoded first; when it is not
      a composition mob the `and` short-circuits and the usage code is never
      decoded. */
  function IsToplevel(mob: Mob): (r: Res<bool>)
    ensures r == Ok(true) <==> mob.typeCode == 1 && mob.usageCode == 0
    ensures r.Err? <==> mob.typeCode !in MobTypeCodes || (mob.typeCode == 1 && mob.usageCode !in MobUsageCodes)
  {
    var t :- MobTypeOf(mob);
    if t != CompositionMob then Ok(false)
    else
      var u :- MobUsageOf(mob);
      Ok(u == Undefined)
  }

  /** `ClipColor(R, G, B)` */
  datatype ClipColor = ClipColor(r: AttrValue, g: AttrValue, b: AttrValue)

  /** `composition_clip_color`: the three colour attributes in R, G, B order
      when all are present; a missing one gives None. */
  function ClipColorOf(mob: Mob): (r: Option<ClipColor>)
    ensures r.Some? <==> "_COLOR_R" in mob.attributes && "_COLOR_G" in mob.attributes && "_COLOR_B" in mob.attributes
    ensures r.Some? ==> r.value.r == mob.attributes["_COLOR_R"]
    ensures r.Some? ==> r.value.g == mob.attributes["_COLOR_G"]
    ensures r.Some? ==> r.value.b == mob.attributes["_COLOR_B"]
  {
    var attrs := mob.attributes;
    if "_COLOR_R" in attrs && "_COLOR_G" in attrs && "_COLOR_B" in attrs then
      Some(ClipColor(attrs["_COLOR_R"], attrs["_COLOR_G"], attrs["_COLOR_B"]))
    else
      None
  }

  /** What `__str__` prints: underscores become spaces and each word is
      capitalised. */
  lemma GroupOofterName()
    ensures GroupOofter.Str() == "Group Oofter"
  {
    var name, expected := "GROUP_OOFTER", "Group Oofter";
    forall i | 0 <= i < |name| ensures expected[i] == Text.PrettyChar(name, i) {}
    Text.PrettyIs(name, expected);
  }

  lemma SourceMobName()
    ensures SourceMob.Str() == "Source Mob"
  {
    var name, expected := "SOURCE_MOB", "Source Mob";
    forall i | 0 <= i < |name| ensures expected[i] == Text.PrettyChar(name, i) {}
    Text.PrettyIs(name, expected);
  }

  /** One resolved mob of a mob walk, the track followed in it and the
      position the walk carries on from: the clip's `start_time` in the
      mob-stack walk, the offset in the mob's edit units in the lineage
      walk. */
  datatype Hop = Hop(mob: Mob, track: Track, at: int)

  /** The mobs a walk resolved, in walk order. */
  function MobsOf(hops: seq<Hop>): (r: seq<Mob>)
    ensures |r| == |hops|
    ensures forall k :: 0 <= k < |hops| ==> r[k] == hops[k].mob
  {
    seq(|hops|, k requires 0 <= k < |hops| => hops[k].mob)
  }
}

=== FILE: identification.dfy ===
/** The mob-role predicates of `examples/identification_exploration.py` and
    the bin filters built on them. Each predicate decodes the type and/or
    usage code, so an unknown code raises, except where Python's `and` has
    already short-circuited. */
module Identification {
  import opened Wrappers
  import opened Avb
  import opened Compositions
  import Selection

  datatype Role =
    | Timeline | MasterClip | AnyMasterMob | Subclip | AnySourceMob
    | EffectMob | GroupClipMob | GroupOofterMob | MotionEffectMob | PrecomputeMob

  /** The roles tested on the usage code alone. */
  predicate UsageOnly(role: Role) {
    role in {EffectMob, GroupClipMob, GroupOofterMob, MotionEffectMob, PrecomputeMob}
  }

  /** The role table written directly on the raw codes. */
  predicate HoldsOnCodes(role: Role, t: int, u: int) {
    match role
    case Timeline => t == 1 && u == 0
    case MasterClip => t == 2 && u == 0
    case AnyMasterMob => t == 2
    case Subclip => t == 1 && u == 2
    case AnySourceMob => t == 3
    case EffectMob => u == 3
    case GroupClipMob => u == 4
    case GroupOofterMob => u == 5
    case MotionEffectMob => u == 6
    case PrecomputeMob => u in {1, 9, 14}
  }

  /** When the predicate raises: a type test decodes the type code first,
      and decodes the usage code only when the type matched. */
  predicate RaisesOnCodes(role: Role, t: int, u: int) {
    match role
    case Timeline => t !in MobTypeCodes || (t == 1 && u !in MobUsageCodes)
    case MasterClip => t !in MobTypeCodes || (t == 2 && u !in MobUsageCodes)
    case Subclip => t !in MobTypeCodes || (t == 1 && u !in MobUsageCodes)
    case AnyMasterMob => t !in MobTypeCodes
    case AnySourceMob => t !in MobTypeCodes
    case _ => u !in MobUsageCodes
  }

  /** `composition_is_timeline`, `composition_is_masterclip`, ... */
  function Is(role: Role, mob: Mob): (r: Res<bool>)
    ensures r.Err? <==> RaisesOnCodes(role, mob.typeCode, mob.usageCode)
    ensures r.Ok? ==> (r.value <==> HoldsOnCodes(role, mob.typeCode, mob.usageCode))
  {
    match role
    case Timeline => TypeAndUsage(mob, CompositionMob, Undefined)
    case MasterClip => TypeAndUsage(mob, MasterMob, Undefined)
    case Subclip => TypeAndUsage(mob, CompositionMob, MobUsage.Subclip)
    case AnyMasterMob =>
      var t :- MobTypeOf(mob);
      Ok(t == MasterMob)
    case AnySourceMob =>
      var t :- MobTypeOf(mob);
      Ok(t == SourceMob)
    case EffectMob =>
      var u :- MobUsageOf(mob);
      Ok(u == Effect)
    case GroupClipMob =>
      var u :- MobUsageOf(mob);
      Ok(u == GroupClip)
    case GroupOofterMob =>
      var u :- MobUsageOf(mob);
      Ok(u == GroupOofter)
    case MotionEffectMob =>
      var u :- MobUsageOf(mob);
      Ok(u == Motion)
    case PrecomputeMob =>
      var u :- MobUsageOf(mob);
      Ok(u in {Precompute, PrecomputeFile, PrecomputeSourceMob})
  }

  /** `MobTypes.from_composition(c) == t and MobUsage.from_composition(c) == u` */
  function TypeAndUsage(mob: Mob, t: MobType, u: MobUsage): Res<bool> {
    var mt :- MobTypeOf(mob);
    if mt != t then Ok(false)
    else
      var mu :- MobUsageOf(mob);
      Ok(mu == u)
  }

  /** A timeline is exactly what `composition_is_toplevel` accepts, raising
      on the same mobs. */
  lemma TimelineIsToplevel(mob: Mob)
    ensures Is(Timeline, mob) == IsToplevel(mob)
  {
  }

  /** Every master clip is a master mob, but not conversely: a precompute
      clip is a master mob that is no master clip. */
  lemma MasterClipIsMasterMob(mob: Mob)
    ensures Is(MasterClip, mob) == Ok(true) ==> Is(AnyMasterMob, mob) == Ok(true)
    ensures mob.typeCode == 2 && mob.usageCode == 1 ==>
      Is(AnyMasterMob, mob) == Ok(true) && Is(MasterClip, mob) == Ok(false)
  {
  }

  /** The effect, group, oofter, motion-effect and precompute tests ignore
      the type code altogether. */
  lemma UsageOnlyRoles(role: Role, a: Mob, b: Mob)
    requires UsageOnly(role) && a.usageCode == b.usageCode
    ensures Is(role, a) == Is(role, b)
  {
  }

  /** One bin item passes `get_*_from_bin`'s two tests: the role predicate
      (which may raise) and then the user-placed test. */
  function Wanted(role: Role, allowReferenceClips: bool, item: BinItem): (r: Res<bool>)
    ensures r == Ok(true) <==> Is(role, item.mob) == Ok(true) && (allowReferenceClips || item.userPlaced)
    ensures r.Err? <==> Is(role, item.mob).Err?
    ensures r.Err? ==> r == Is(role, item.mob)
  {
    var holds :- Is(role, item.mob);
    Ok(holds && (allowReferenceClips || item.userPlaced))
  }

  /** `get_masterclips_from_bin`, `get_subclips_from_bin`, ...: the positions
      of the yielded items, in bin order, and the exception that ends the
      generator if a role test raises. */
  function FromBin(items: seq<BinItem>, role: Role, allowReferenceClips: bool): (r: Selection.Selection)
    ensures r.cut <= |items|
    ensures r.failure.None? <==> r.cut == |items|
    ensures r.failure.Some? ==> Is(role, items[r.cut].mob) == Err(r.failure.value)
    ensures Selection.Increasing(r.indices)
    ensures forall k :: 0 <= k < |r.indices| ==>
      r.indices[k] < r.cut && Is(role, items[r.indices[k]].mob) == Ok(true)
      && (allowReferenceClips || items[r.indices[k]].userPlaced)
    ensures forall j :: 0 <= j < r.cut && Is(role, items[j].mob) == Ok(true) && (allowReferenceClips || items[j].userPlaced) ==>
      j in r.indices
  {
    var wanted := (item: BinItem) => Wanted(role, allowReferenceClips, item);
    WantedMeans(items, role, allowReferenceClips, wanted);
    Selection.Select(items, wanted)
  }

  /** An item is wanted when its role test holds and it is user-placed or
      reference clips are allowed; a raising role test raises here too. */
  lemma WantedMeans(items: seq<BinItem>, role: Role, allowReferenceClips: bool, wanted: BinItem -> Res<bool>)
    requires wanted == ((item: BinItem) => Wanted(role, allowReferenceClips, item))
    ensures forall j :: 0 <= j < |items| ==>
      (wanted(items[j]) == Ok(true) <==> Is(role, items[j].mob) == Ok(true) && (allowReferenceClips || items[j].userPlaced))
    ensures forall j :: 0 <= j < |items| ==>
      (wanted(items[j]).Err? <==> Is(role, items[j].mob).Err?)
      && (wanted(items[j]).Err? ==> wanted(items[j]) == Is(role, items[j].mob))
  {
  }
}

=== FILE: lineage.dfy ===
/** The third lineage walk (`examples/lineage_exploration_v3.py`): from each
    track of a master clip, follow source clips from mob to mob, converting
    the offset into each mob's edit rate, then read the link type and the
    original source off the collected source mobs. */
module Lineage {
  import opened Wrappers
  import opened Avb
  import opened Compositions
  import Arith
  import Selection
  import MobStack

  /** The position of the last track of `kind` with `index`. */
  function LastTrackIndex(tracks: seq<Track>, kind: MediaKind, index: int): (r: Option<nat>)
    ensures r.Some? ==> r.value < |tracks| && Matches(tracks[r.value], kind, index)
    ensures r.Some? ==> forall j :: r.value < j < |tracks| ==> !Matches(tracks[j], kind, index)
    ensures r.None? ==> forall j :: 0 <= j < |tracks| ==> !Matches(tracks[j], kind, index)
  {
    if tracks == [] then None
    else if Matches(tracks[|tracks| - 1], kind, index) then Some(|tracks| - 1)
    else LastTrackIndex(tracks[..|tracks| - 1], kind, index)
  }

  /** The walk keeps the last matching track where pyavb's `SourceClip.track`
      keeps the first; they agree whenever the match is unique. */
  lemma LastIsFirstWhenUnique(tracks: seq<Track>, kind: MediaKind, index: int)
    requires forall i, j :: 0 <= i < j < |tracks| && Matches(tracks[i], kind, index) ==> !Matches(tracks[j], kind, index)
    ensures LastTrackIndex(tracks, kind, index) == FirstTrackIndex(tracks, kind, index)
  {
  }

  /** With two matching tracks the walk takes the later one. */
  lemma DuplicateTracksDiffer(a: Track, b: Track)
    requires a != b && a.kind == b.kind && a.index == b.index
    ensures LastTrackIndex([a, b], a.kind, a.index) == Some(1)
    ensures FirstTrackIndex([a, b], a.kind, a.index) == Some(0)
  {
    assert Matches([a, b][1], a.kind, a.index);
  }

  /** `round((offset + start) * (to / from))` on exact fractions; dividing
      by a zero edit rate raises ZeroDivisionError. */
  function ScaleOffset(frames: int, from: Rate, to: Rate): (r: Res<int>)
    ensures r.Err? <==> from.num == 0
    ensures r.Err? ==> r.error == ZeroEditRate
    ensures r.Ok? ==>
      2 * Arith.Abs(frames * to.num * from.den - r.value * (to.den * from.num)) <= Arith.Abs(to.den * from.num)
    ensures r.Ok? && 2 * Arith.Abs(frames * to.num * from.den - r.value * (to.den * from.num)) == Arith.Abs(to.den * from.num)
      ==> r.value % 2 == 0
  {
    if from.num == 0 then Err(ZeroEditRate)
    else Ok(Arith.RoundHalfEven(frames * to.num * from.den, to.den * from.num))
  }

  /** Away from a tie, the scaled offset is the one integer nearest to the
      exact value. */
  lemma ScaleNearest(frames: int, from: Rate, to: Rate, n: int)
    requires from.num != 0 && to.den != 0
    requires 2 * Arith.Abs(frames * to.num * from.den - n * (to.den * from.num)) < Arith.Abs(to.den * from.num)
    ensures ScaleOffset(frames, from, to) == Ok(n)
  {
    Arith.RoundHalfEvenUnique(frames * to.num * from.den, to.den * from.num, n);
  }

  /** Between equal rates the offset is unchanged. */
  lemma ScaleSameRate(frames: int, rate: Rate)
    requires rate.num != 0
    ensures ScaleOffset(frames, rate, rate) == Ok(frames)
  {
    assert frames * rate.num * rate.den == frames * (rate.den * rate.num);
    Arith.RoundExact(frames, rate.den * rate.num);
  }

  /** Into a k-times faster whole rate and back, the offset returns. */
  lemma ScaleThereAndBack(frames: int, fps: int, k: int)
    requires fps > 0 && k > 0
    ensures ScaleOffset(frames, Rate(fps, 1), Rate(k * fps, 1)) == Ok(frames * k)
    ensures ScaleOffset(frames * k, Rate(k * fps, 1), Rate(fps, 1)) == Ok(frames)
  {
    assert frames * (k * fps) * 1 == (frames * k) * (1 * fps);
    Arith.RoundExact(frames * k, 1 * fps);
    assert frames * k * fps * 1 == frames * (1 * (k * fps));
    Arith.RoundExact(frames, 1 * (k * fps));
  }

  /** `resolve_mob`'s outcome: the next hop, or StopIteration. */
  datatype Step = Stop | Next(hop: Hop)

  /** `resolve_mob`, given the component `get_component_from_track` found.
      A component that is not a source clip, or one referencing the null
      mob id, stops the walk; a dangling id or a mob without a track of the
      followed track's kind and the clip's track id raises. */
  function ResolveMob(table: MobTable, composition: Mob, track: Track, component: Component, offset: int): (r: Res<Step>)
    ensures r == Ok(Stop) <==> !component.body.SourceClip? || component.body.mobId.data1 == 0
    ensures component.body.SourceClip? && component.body.mobId.data1 != 0 && component.body.mobId !in table ==> r == Err(MobNotFound)
    ensures r.Ok? && r.value.Next? ==>
      var clip := component.body;
      var mob := table[clip.mobId];
      var i := LastTrackIndex(mob.tracks, track.kind, clip.trackId);
      && clip.SourceClip? && clip.mobId in table && r.value.hop.mob == mob
      && i.Some? && r.value.hop.track == mob.tracks[i.value]
      && ScaleOffset(offset + clip.startTime, composition.rate, mob.rate) == Ok(r.value.hop.at)
    ensures component.body.SourceClip? && component.body.mobId.data1 != 0 && component.body.mobId in table
      && LastTrackIndex(table[component.body.mobId].tracks, track.kind, component.body.trackId).None?
      ==> r == Err(NoMatchingTrack)
    ensures (component.body.SourceClip? && component.body.mobId.data1 != 0 && component.body.mobId in table
      && LastTrackIndex(table[component.body.mobId].tracks, track.kind, component.body.trackId).Some?) ==>
      var clip := component.body;
      var mob := table[clip.mobId];
      var i := LastTrackIndex(mob.tracks, track.kind, clip.trackId).value;
      var scaled := ScaleOffset(offset + clip.startTime, composition.rate, mob.rate);
      && (scaled.Err? ==> r == Err(scaled.error))
      && (scaled.Ok? ==> r == Ok(Next(Hop(mob, mob.tracks[i], scaled.value))))
  {
    if !component.body.SourceClip? || component.body.mobId.data1 == 0 then Ok(Stop)
    else if component.body.mobId !in table then Err(MobNotFound)
    else
      var clip := component.body;
      var mob := table[clip.mobId];
      match LastTrackIndex(mob.tracks, track.kind, clip.trackId)
      case None => Err(NoMatchingTrack)
      case Some(i) =>
        var next :- ScaleOffset(offset + clip.startTime, composition.rate, mob.rate);
        Ok(Next(Hop(mob, mob.tracks[i], next)))
  }

  /** `get_component_from_track(mob, track, offset)`, whose unwinding of
      sequences and track groups is not part of this model; it may raise. */
  type Locate = (Mob, Track, int) -> Res<Component>

  /** One call of `resolve_mob`: any exception from the lookup is caught
      and the program exits (SystemExit, which nothing catches). */
  function ResolveAt(table: MobTable, locate: Locate, mob: Mob, track: Track, offset: int): (r: Res<Step>)
    ensures locate(mob, track, offset).Err? ==> r == Err(Exited)
    ensures locate(mob, track, offset).Ok? ==> r == ResolveMob(table, mob, track, locate(mob, track, offset).value, offset)
  {
    var component := locate(mob, track, offset);
    if component.Err? then Err(Exited) else ResolveMob(table, mob, track, component.value, offset)
  }

  /** The `while True` loop of `process_bin` from one track: resolve until
      StopIteration, collecting the hops; any other exception propagates.
      At most `fuel` steps are taken (the source has no bound). */
  function Walk(table: MobTable, locate: Locate, mob: Mob, track: Track, offset: int, fuel: nat): (r: Res<seq<Hop>>)
    ensures r.Ok? ==> |r.value| < fuel
    ensures r.Ok? ==> forall k :: 0 <= k < |r.value| ==> r.value[k].mob in table.Values
    ensures fuel == 0 ==> r == Err(HopBoundExhausted)
    ensures fuel > 0 && locate(mob, track, offset).Err? ==> r == Err(Exited)
    decreases fuel
  {
    if fuel == 0 then Err(HopBoundExhausted)
    else
      var step :- ResolveAt(table, locate, mob, track, offset);
      match step
      case Stop => Ok([])
      case Next(hop) =>
        var rest :- Walk(table, locate, hop.mob, hop.track, hop.at, fuel - 1);
        Ok([hop] + rest)
  }

  /** The walk as a relation: each hop is what `resolve_mob` gives from the
      hop before it, and the step after the last is StopIteration. */
  ghost predicate Linked(table: MobTable, locate: Locate, mob: Mob, track: Track, offset: int, hops: seq<Hop>)
    decreases |hops|
  {
    var step := ResolveAt(table, locate, mob, track, offset);
    if hops == [] then step == Ok(Stop)
    else step == Ok(Next(hops[0])) && Linked(table, locate, hops[0].mob, hops[0].track, hops[0].at, hops[1..])
  }

  /** The hops the walk collects are linked, and linked hops within the
      bound are exactly what it collects. */
  lemma {:induction false} WalkLinked(table: MobTable, locate: Locate, mob: Mob, track: Track, offset: int, fuel: nat, hops: seq<Hop>)
    ensures Walk(table, locate, mob, track, offset, fuel) == Ok(hops) ==> Linked(table, locate, mob, track, offset, hops)
    ensures Linked(table, locate, mob, track, offset, hops) && |hops| < fuel ==> Walk(table, locate, mob, track, offset, fuel) == Ok(hops)
    decreases fuel
  {
    if fuel > 0 && hops != [] {
      WalkLinked(table, locate, hops[0].mob, hops[0].track, hops[0].at, fuel - 1, hops[1..]);
      assert hops == [hops[0]] + hops[1..];
    }
  }

  /** The offset the loop variable holds after a walk. */
  function EndOffset(start: int, hops: seq<Hop>): int {
    if hops == [] then start else hops[|hops| - 1].at
  }

  /** The mob stack of one track, kept only when non-empty. */
  datatype TrackStack = TrackStack(track: Track, mobs: seq<Mob>)

  /** What one track contributes: its stack when its walk resolved a mob. */
  function StackOf(track: Track, hops: seq<Hop>): seq<TrackStack> {
    if hops == [] then [] else [TrackStack(track, MobsOf(hops))]
  }

  /** Two loops run one after the other: the first exception wins. */
  function Join(x: Res<seq<TrackStack>>, y: Res<seq<TrackStack>>): Res<seq<TrackStack>> {
    if x.Err? then x else if y.Err? then y else Ok(x.value + y.value)
  }

  /** `process_bin`'s loop over a master clip's tracks as written: `offset`
      is set to 0 once per bin item, so each track's walk starts where the
      previous track's walk left it. */
  function TrackStacksAsWritten(table: MobTable, locate: Locate, master: Mob, tracks: seq<Track>, offset: int, fuel: nat): (r: Res<seq<TrackStack>>)
    ensures r.Ok? ==> forall k :: 0 <= k < |r.value| ==> r.value[k].track in tracks && r.value[k].mobs != []
    decreases |tracks|
  {
    if tracks == [] then Ok([])
    else
      var hops :- Walk(table, locate, master, tracks[0], offset, fuel);
      var rest :- TrackStacksAsWritten(table, locate, master, tracks[1..], EndOffset(offset, hops), fuel);
      Ok(StackOf(tracks[0], hops) + rest)
  }

  /** The offset the as-written loop holds after walking `tracks`. */
  function OffsetAfter(table: MobTable, locate: Locate, master: Mob, tracks: seq<Track>, offset: int, fuel: nat): Res<int>
    decreases |tracks|
  {
    if tracks == [] then Ok(offset)
    else
      var hops :- Walk(table, locate, master, tracks[0], offset, fuel);
      OffsetAfter(table, locate, master, tracks[1..], EndOffset(offset, hops), fuel)
  }

  /** One track alone: its walk from the given offset, which it leaves at
      the walk's last hop. */
  lemma AsWrittenOne(table: MobTable, locate: Locate, master: Mob, t: Track, offset: int, fuel: nat)
    ensures var w := Walk(table, locate, master, t, offset, fuel);
      && TrackStacksAsWritten(table, locate, master, [t], offset, fuel)
           == (if w.Err? then Err(w.error) else Ok(StackOf(t, w.value)))
      && OffsetAfter(table, locate, master, [t], offset, fuel)
           == (if w.Err? then Err(w.error) else Ok(EndOffset(offset, w.value)))
  {
    assert [t][1..] == [];
    var w := Walk(table, locate, master, t, offset, fuel);
    if w.Ok? {
      assert StackOf(t, w.value) + [] == StackOf(t, w.value);
    }
  }

  /** As written, the tracks after a prefix are walked from the offset the
      prefix left behind: track j + 1 starts where track j's walk ended. */
  lemma {:induction false} AsWrittenAppend(table: MobTable, locate: Locate, master: Mob, a: seq<Track>, b: seq<Track>, offset: int, fuel: nat)
    ensures TrackStacksAsWritten(table, locate, master, a, offset, fuel).Err?
      <==> OffsetAfter(table, locate, master, a, offset, fuel).Err?
    ensures var after := OffsetAfter(table, locate, master, a, offset, fuel);
      TrackStacksAsWritten(table, locate, master, a + b, offset, fuel)
        == Join(TrackStacksAsWritten(table, locate, master, a, offset, fuel),
                TrackStacksAsWritten(table, locate, master, b, if after.Ok? then after.value else offset, fuel))
    decreases |a|
  {
    if a == [] {
      assert a + b == b;
      var w := TrackStacksAsWritten(table, locate, master, b, offset, fuel);
      if w.Ok? {
        assert [] + w.value == w.value;
      }
    } else {
      assert (a + b)[0] == a[0];
      assert (a + b)[1..] == a[1..] + b;
      AsWrittenCons(table, locate, master, a + b, offset, fuel);
      AsWrittenCons(table, locate, master, a, offset, fuel);
      var w := Walk(table, locate, master, a[0], offset, fuel);
      if w.Ok? {
        var next := EndOffset(offset, w.value);
        AsWrittenAppend(table, locate, master, a[1..], b, next, fuel);
        var after := OffsetAfter(table, locate, master, a[1..], next, fuel);
        JoinAssoc(StackOf(a[0], w.value), TrackStacksAsWritten(table, locate, master, a[1..], next, fuel),
          TrackStacksAsWritten(table, locate, master, b, if after.Ok? then after.value else next, fuel));
      }
    }
  }

  /** One turn of the as-written loop: the first track's walk, then the
      rest from the offset it left. */
  lemma AsWrittenCons(table: MobTable, locate: Locate, master: Mob, ts: seq<Track>, offset: int, fuel: nat)
    requires ts != []
    ensures var w := Walk(table, locate, master, ts[0], offset, fuel);
      && TrackStacksAsWritten(table, locate, master, ts, offset, fuel)
           == (if w.Err? then Err(w.error)
               else Join(Ok(StackOf(ts[0], w.value)), TrackStacksAsWritten(table, locate, master, ts[1..], EndOffset(offset, w.value), fuel)))
      && OffsetAfter(table, locate, master, ts, offset, fuel)
           == (if w.Err? then Err(w.error) else OffsetAfter(table, locate, master, ts[1..], EndOffset(offset, w.value), fuel))
  {
  }

  lemma JoinAssoc(s: seq<TrackStack>, x: Res<seq<TrackStack>>, y: Res<seq<TrackStack>>)
    ensures Join(Ok(s), Join(x, y)) == Join(Join(Ok(s), x), y)
  {
    if x.Ok? && y.Ok? {
      assert s + (x.value + y.value) == (s + x.value) + y.value;
    }
  }

  /** The same loop with every track's walk starting at frame 0. */
  function TrackStacks(table: MobTable, locate: Locate, master: Mob, tracks: seq<Track>, fuel: nat): (r: Res<seq<TrackStack>>)
    ensures r.Ok? ==> forall k :: 0 <= k < |r.value| ==> r.value[k].track in tracks && r.value[k].mobs != []
    decreases |tracks|
  {
    if tracks == [] then Ok([])
    else
      var hops :- Walk(table, locate, master, tracks[0], 0, fuel);
      var rest :- TrackStacks(table, locate, master, tracks[1..], fuel);
      Ok(StackOf(tracks[0], hops) + rest)
  }

  /** One track alone: its walk from frame 0. */
  lemma TrackStacksOne(table: MobTable, locate: Locate, master: Mob, t: Track, fuel: nat)
    ensures var w := Walk(table, locate, master, t, 0, fuel);
      TrackStacks(table, locate, master, [t], fuel) == (if w.Err? then Err(w.error) else Ok(StackOf(t, w.value)))
  {
    assert [t][1..] == [];
    var w := Walk(table, locate, master, t, 0, fuel);
    if w.Ok? {
      assert StackOf(t, w.value) + [] == StackOf(t, w.value);
    }
  }

  /** The stacks of a concatenation are those of its halves in order: with
      the one-track case this makes the result every track's stack, in
      track order, with no track missing. */
  lemma {:induction false} TrackStacksAppend(table: MobTable, locate: Locate, master: Mob, a: seq<Track>, b: seq<Track>, fuel: nat)
    ensures TrackStacks(table, locate, master, a + b, fuel)
      == Join(TrackStacks(table, locate, master, a, fuel), TrackStacks(table, locate, master, b, fuel))
    decreases |a|
  {
    if a == [] {
      assert a + b == b;
      var y := TrackStacks(table, locate, master, b, fuel);
      if y.Ok? {
        assert [] + y.value == y.value;
      }
    } else {
      assert (a + b)[0] == a[0];
      assert (a + b)[1..] == a[1..] + b;
      TrackStacksAppend(table, locate, master, a[1..], b, fuel);
      var w := Walk(table, locate, master, a[0], 0, fuel);
      var x := TrackStacks(table, locate, master, a[1..], fuel);
      var y := TrackStacks(table, locate, master, b, fuel);
      if w.Ok? && x.Ok? && y.Ok? {
        assert StackOf(a[0], w.value) + (x.value + y.value) == (StackOf(a[0], w.value) + x.value) + y.value;
      }
    }
  }

  /** Each kept track's stack is the walk of that track from frame 0,
      whatever the other tracks hold. */
  lemma {:induction false} TrackStacksIndependent(table: MobTable, locate: Locate, master: Mob, tracks: seq<Track>, fuel: nat, k: nat)
    requires TrackStacks(table, locate, master, tracks, fuel).Ok?
    requires k < |TrackStacks(table, locate, master, tracks, fuel).value|
    ensures var s := TrackStacks(table, locate, master, tracks, fuel).value[k];
      && Walk(table, locate, master, s.track, 0, fuel).Ok?
      && MobsOf(Walk(table, locate, master, s.track, 0, fuel).value) == s.mobs
    decreases |tracks|
  {
    var hops := Walk(table, locate, master, tracks[0], 0, fuel).value;
    var rest := TrackStacks(table, locate, master, tracks[1..], fuel).value;
    var all := TrackStacks(table, locate, master, tracks, fuel).value;
    assert all == StackOf(tracks[0], hops) + rest;
    if hops == [] {
      assert all[k] == rest[k];
      TrackStacksIndependent(table, locate, master, tracks[1..], fuel, k);
    } else if k > 0 {
      assert all[k] == rest[k - 1];
      TrackStacksIndependent(table, locate, master, tracks[1..], fuel, k - 1);
    } else {
      assert all[k] == TrackStack(tracks[0], MobsOf(hops));
    }
  }

  /** A lookup that finds `clip` in `master` at frame 0 and `other`
      everywhere else. */
  function AtFrameZero(master: Mob, clip: Component, other: Component): Locate {
    (m: Mob, t: Track, o: int) => Ok(if m == master && o == 0 then clip else other)
  }

  /** The example below: a master clip with a picture and a sound track,
      both cut from one source mob at frame 10 of a sequence whose later
      frames are filler. */
  const ExampleRate := Rate(24, 1)
  const PictureTrack := Track(Picture, 1, None)
  const SoundTrack := Track(Sound, 1, None)
  const ExampleSource := Mob("source", ExampleRate, 100, 3, 0, map[], None, [PictureTrack, SoundTrack])
  const ExampleMaster := Mob("master", ExampleRate, 100, 2, 0, map[], None, [PictureTrack, SoundTrack])
  const ExampleTable := map[MobId(1, 0) := ExampleSource]
  const ExampleClip := Component(ExampleRate, 100, NoAttributes, SourceClip(Picture, MobId(1, 0), 1, 10))
  const ExampleFiller := Component(ExampleRate, 100, NoAttributes, Filler)
  const ExampleLocate := AtFrameZero(ExampleMaster, ExampleClip, ExampleFiller)

  /** In the example, either track walked from frame 0 reaches the source
      at frame 10, and the sound track walked from frame 10 lands on filler. */
  lemma ExampleWalks()
    ensures Walk(ExampleTable, ExampleLocate, ExampleMaster, PictureTrack, 0, 3) == Ok([Hop(ExampleSource, PictureTrack, 10)])
    ensures Walk(ExampleTable, ExampleLocate, ExampleMaster, SoundTrack, 0, 3) == Ok([Hop(ExampleSource, SoundTrack, 10)])
    ensures Walk(ExampleTable, ExampleLocate, ExampleMaster, SoundTrack, 10, 3) == Ok([])
  {
    var table, locate, source, master := ExampleTable, ExampleLocate, ExampleSource, ExampleMaster;
    var picture, sound, clip, filler := PictureTrack, SoundTrack, ExampleClip, ExampleFiller;
    ScaleSameRate(10, ExampleRate);
    assert source != master;
    assert locate(master, picture, 0) == Ok(clip) && locate(master, sound, 0) == Ok(clip);
    assert locate(source, picture, 10) == Ok(filler) && locate(source, sound, 10) == Ok(filler);
    assert locate(master, sound, 10) == Ok(filler);
    assert LastTrackIndex(source.tracks, Picture, 1) == Some(0);
    assert LastTrackIndex(source.tracks, Sound, 1) == Some(1);
    assert ResolveMob(table, source, picture, filler, 10) == Ok(Stop);
    assert ResolveMob(table, source, sound, filler, 10) == Ok(Stop);
    assert Walk(table, locate, source, picture, 10, 2) == Ok([]);
    assert Walk(table, locate, source, sound, 10, 2) == Ok([]);
    assert ResolveMob(table, master, picture, clip, 0) == Ok(Next(Hop(source, picture, 10)));
    assert ResolveMob(table, master, sound, clip, 0) == Ok(Next(Hop(source, sound, 10)));
    assert [Hop(source, picture, 10)] + [] == [Hop(source, picture, 10)];
    assert [Hop(source, sound, 10)] + [] == [Hop(source, sound, 10)];
    assert ResolveMob(table, master, sound, filler, 10) == Ok(Stop);
  }

  /** As written, the picture walk leaves the offset at 10, the sound walk
      starts there, lands on filler and the sound track gets no stack. */
  lemma OffsetLeaksAcrossTracks()
    ensures TrackStacksAsWritten(ExampleTable, ExampleLocate, ExampleMaster, ExampleMaster.tracks, 0, 3)
      == Ok([TrackStack(PictureTrack, [ExampleSource])])
  {
    var table, locate, source, master := ExampleTable, ExampleLocate, ExampleSource, ExampleMaster;
    var picture, sound := PictureTrack, SoundTrack;
    ExampleWalks();
    assert EndOffset(0, [Hop(source, picture, 10)]) == 10;
    assert MobsOf([Hop(source, picture, 10)]) == [source];
    assert master.tracks[1..] == [sound];
    assert [sound][1..] == [];
    var none: seq<TrackStack> := [];
    var picStack := [TrackStack(picture, [source])];
    assert TrackStacksAsWritten(table, locate, master, [], 10, 3) == Ok(none);
    assert TrackStacksAsWritten(table, locate, master, [sound], 10, 3) == Ok(none + none);
    assert none + none == none;
    assert TrackStacksAsWritten(table, locate, master, master.tracks[1..], EndOffset(0, [Hop(source, picture, 10)]), 3) == Ok(none);
    assert master.tracks[0] == picture;
    assert TrackStacksAsWritten(table, locate, master, master.tracks, 0, 3) == Ok(picStack + none);
    assert picStack + none == picStack;
  }

  /** Each walk starting at frame 0 gives both tracks of the example their
      source. */
  lemma EachTrackReachesSource()
    ensures TrackStacks(ExampleTable, ExampleLocate, ExampleMaster, ExampleMaster.tracks, 3)
      == Ok([TrackStack(PictureTrack, [ExampleSource]), TrackStack(SoundTrack, [ExampleSource])])
  {
    var table, locate, source, master := ExampleTable, ExampleLocate, ExampleSource, ExampleMaster;
    var picture, sound := PictureTrack, SoundTrack;
    ExampleWalks();
    assert MobsOf([Hop(source, picture, 10)]) == [source];
    assert MobsOf([Hop(source, sound, 10)]) == [source];
    assert master.tracks[1..] == [sound];
    assert [sound][1..] == [];
    var none: seq<TrackStack> := [];
    var picStack := [TrackStack(picture, [source])];
    var soundStack := [TrackStack(sound, [source])];
    assert TrackStacks(table, locate, master, [], 3) == Ok(none);
    assert TrackStacks(table, locate, master, [sound], 3) == Ok(soundStack + none);
    assert soundStack + none == soundStack;
    assert master.tracks[0] == picture;
    assert TrackStacks(table, locate, master, master.tracks, 3) == Ok(picStack + soundStack);
    assert picStack + soundStack == [TrackStack(picture, [source]), TrackStack(sound, [source])];
  }

  /** `composition_is_file_source_mob`: a source mob whose descriptor is a
      MediaFileDescriptor; the type is decoded first and an unknown type
      raises. */
  function IsFileSourceMob(mob: Mob): (r: Res<bool>)
    ensures r.Err? <==> mob.typeCode !in MobTypeCodes
    ensures r == Ok(true) <==> mob.typeCode == 3 && mob.descriptor.Some? && mob.descriptor.value.IsMediaFile()
  {
    var t :- MobTypeOf(mob);
    Ok(t == SourceMob && mob.descriptor.Some? && mob.descriptor.value.IsMediaFile())
  }

  /** `composition_is_physical_source_mob`: a source mob whose descriptor
      is anything else, an absent one included. */
  function IsPhysicalSourceMob(mob: Mob): (r: Res<bool>)
    ensures r.Err? <==> mob.typeCode !in MobTypeCodes
    ensures r == Ok(true) <==> mob.typeCode == 3 && !(mob.descriptor.Some? && mob.descriptor.value.IsMediaFile())
  {
    var t :- MobTypeOf(mob);
    Ok(t == SourceMob && !(mob.descriptor.Some? && mob.descriptor.value.IsMediaFile()))
  }

  /** `TrackMobStack.file_source_mobs` */
  function FileSelection(stack: seq<Mob>): Selection.Selection {
    Selection.Select(stack, IsFileSourceMob)
  }

  /** `TrackMobStack.physical_source_mobs` */
  function PhysicalSelection(stack: seq<Mob>): Selection.Selection {
    Selection.Select(stack, IsPhysicalSourceMob)
  }

  /** The two filters split the stack's source mobs: both stop at the
      first unknown mob type, and before it every source mob is kept by
      exactly one of them, in stack order, and no other mob by either. */
  lemma FilePhysicalPartition(stack: seq<Mob>)
    ensures var f := FileSelection(stack);
      var p := PhysicalSelection(stack);
      && f.cut == p.cut && f.failure == p.failure
      && Selection.Increasing(f.indices) && Selection.Increasing(p.indices)
      && forall j :: 0 <= j < f.cut ==>
        && (j in f.indices <==> stack[j].typeCode == 3 && stack[j].descriptor.Some? && stack[j].descriptor.value.IsMediaFile())
        && (j in p.indices <==> stack[j].typeCode == 3 && !(stack[j].descriptor.Some? && stack[j].descriptor.value.IsMediaFile()))
  {
    var f := FileSelection(stack);
    var p := PhysicalSelection(stack);
    assert forall j :: 0 <= j < |stack| ==> (IsFileSourceMob(stack[j]).Err? <==> IsPhysicalSourceMob(stack[j]).Err?);
    forall j | 0 <= j < f.cut
      ensures j in f.indices <==> IsFileSourceMob(stack[j]) == Ok(true)
      ensures j in p.indices <==> IsPhysicalSourceMob(stack[j]) == Ok(true)
    {
      if j in f.indices {
        var k :| 0 <= k < |f.indices| && f.indices[k] == j;
      }
      if j in p.indices {
        var k :| 0 <= k < |p.indices| && p.indices[k] == j;
      }
    }
  }

  /** `next(self.file_source_mobs())`: the lazy filter tests mobs in order
      only until the first file source mob; None stands for StopIteration. */
  function FirstFileMob(stack: seq<Mob>): (r: Res<Option<Mob>>)
    ensures forall i :: (0 <= i < |stack| && IsFileSourceMob(stack[i]) == Ok(true)
                         && forall j :: 0 <= j < i ==> IsFileSourceMob(stack[j]) == Ok(false))
                        ==> r == Ok(Some(stack[i]))
    ensures r.Ok? && r.value.Some? ==> exists i :: (0 <= i < |stack| && stack[i] == r.value.value
      && IsFileSourceMob(stack[i]) == Ok(true) && forall j :: 0 <= j < i ==> IsFileSourceMob(stack[j]) == Ok(false))
    ensures r.Err? ==> exists i :: (0 <= i < |stack| && IsFileSourceMob(stack[i]) == Err(r.error)
      && forall j :: 0 <= j < i ==> IsFileSourceMob(stack[j]) == Ok(false))
    ensures r == Ok(None) <==> forall j :: 0 <= j < |stack| ==> IsFileSourceMob(stack[j]) == Ok(false)
  {
    Selection.First(stack, IsFileSourceMob)
  }

  datatype LinkKind = UmeLinked | Managed {
    function Str(): string {
      match this
      case UmeLinked => "UME-linked"
      case Managed => "Managed"
    }
  }

  /** A media file (sub-)descriptor located by the media manager whose
      physical media is located by a file path. */
  predicate LinkedMember(d: Descriptor) {
    d.IsMediaFile() && MobStack.LinkedMember(d)
  }

  /** `TrackMobStack.link_type`: UME-linked when any (sub-)descriptor of
      the first file source mob is linked, Managed otherwise; a stack with
      no file source mob raises StopIteration. */
  function LinkType(stack: seq<Mob>): (r: Res<LinkKind>)
    ensures r.Ok? <==> FirstFileMob(stack).Ok? && FirstFileMob(stack).value.Some?
    ensures FirstFileMob(stack) == Ok(None) ==> r == Err(NoFileSourceMob)
    ensures r.Ok? ==> var d := FirstFileMob(stack).value.value.descriptor.value;
      (r.value == UmeLinked <==> exists i :: 0 <= i < |d.Members()| && LinkedMember(d.Members()[i]))
  {
    var first :- FirstFileMob(stack);
    if first.None? then Err(NoFileSourceMob)
    else
      match first.value.descriptor
      case None => Err(MissingDescriptor)
      case Some(d) => Ok(if MobStack.Any(d.Members(), LinkedMember) then UmeLinked else Managed)
  }

  /** One linked member of a multi-descriptor is enough. */
  lemma AnyLinkedMemberLinks(managed: Descriptor, linked: Descriptor, name: string)
    requires LinkedMember(linked)
    ensures var file := Mob(name, Rate(24, 1), 0, 3, 0, map[], Some(MultiDescriptor(1, None, None, [managed, linked])), []);
      LinkType([file]) == Ok(UmeLinked)
  {
    var file := Mob(name, Rate(24, 1), 0, 3, 0, map[], Some(MultiDescriptor(1, None, None, [managed, linked])), []);
    assert IsFileSourceMob(file) == Ok(true);
    assert file.descriptor.value.Members()[1] == linked;
  }

  /** `list(self.physical_source_mobs())[-1]`: the last physical source
      mob of the whole stack, None for the IndexError; the filter is run to
      the end, so any unknown mob type raises. */
  function OldestPhysical(stack: seq<Mob>): (r: Res<Option<Mob>>)
    ensures r.Err? <==> exists i :: 0 <= i < |stack| && IsPhysicalSourceMob(stack[i]).Err?
    ensures r == Ok(None) <==> forall j :: 0 <= j < |stack| ==> IsPhysicalSourceMob(stack[j]) == Ok(false)
    ensures r.Ok? && r.value.Some? ==> exists i :: (0 <= i < |stack| && stack[i] == r.value.value
      && IsPhysicalSourceMob(stack[i]) == Ok(true)
      && forall j :: i < j < |stack| ==> IsPhysicalSourceMob(stack[j]) == Ok(false))
  {
    Selection.Last(stack, IsPhysicalSourceMob)
  }

  /** A descriptor's `locator` property is present and a FileLocator. */
  predicate FileLocated(d: Descriptor) {
    d.locator.Some? && d.locator.value.FileLocator?
  }

  /** `type(descriptor).__name__`; the media file classes stand in for
      their concrete subclasses. */
  function ClassName(d: Descriptor): string {
    match d
    case FileDescriptor(_, _, _) => "MediaFileDescriptor"
    case MultiDescriptor(_, _, _, _) => "MultiDescriptor"
    case PhysicalDescriptor(name, _, _, _) => name
  }

  /** `TrackMobStack.source_type`: "Source File" when the oldest physical
      source mob's descriptor is file-located, else the descriptor's class
      name; "NONE??" when there is no physical source mob. */
  function SourceType(stack: seq<Mob>): (r: Res<string>)
    ensures OldestPhysical(stack) == Ok(None) ==> r == Ok("NONE??")
    ensures r.Err? <==> (OldestPhysical(stack).Err?
      || (OldestPhysical(stack).Ok? && OldestPhysical(stack).value.Some? && OldestPhysical(stack).value.value.descriptor.None?))
    ensures r == Ok("Source File") <==> (OldestPhysical(stack).Ok? && OldestPhysical(stack).value.Some?
      && var d := OldestPhysical(stack).value.value.descriptor;
      d.Some? && (FileLocated(d.value) || ClassName(d.value) == "Source File"))
    ensures (OldestPhysical(stack).Ok? && OldestPhysical(stack).value.Some?
             && OldestPhysical(stack).value.value.descriptor.Some?) ==>
      var d := OldestPhysical(stack).value.value.descriptor.value;
      && (FileLocated(d) ==> r == Ok("Source File"))
      && (!FileLocated(d) ==> r == Ok(ClassName(d)))
  {
    var oldest :- OldestPhysical(stack);
    if oldest.None? then Ok("NONE??")
    else
      match oldest.value.descriptor
      case None => Err(MissingDescriptor)
      case Some(d) => Ok(if FileLocated(d) then "Source File" else ClassName(d))
  }

  /** Where a file locator may keep the source path, in the order tried. */
  const PathKeys: seq<string> := ["path_utf8", "path2_utf8", "path_posix", "path"]

  predicate NoPath(paths: map<string, string>, key: string) {
    key !in paths || paths[key] == ""
  }

  /** The first key with a non-empty path, or "". */
  function FirstPath(paths: map<string, string>, keys: seq<string>): (r: string)
    ensures r == "" <==> forall k :: 0 <= k < |keys| ==> NoPath(paths, keys[k])
    ensures r != "" ==> exists k :: (0 <= k < |keys| && keys[k] in paths && paths[keys[k]] == r
      && forall j :: 0 <= j < k ==> NoPath(paths, keys[j]))
  {
    if keys == [] then ""
    else if !NoPath(paths, keys[0]) then paths[keys[0]]
    else
      var rest := FirstPath(paths, keys[1..]);
      assert forall k :: 1 <= k < |keys| ==> keys[k] == keys[1..][k - 1];
      rest
  }

  /** The UTF-8 path wins whenever it is set; the plain path is used only
      when none of the others is. */
  lemma PathPreference(paths: map<string, string>)
    ensures !NoPath(paths, "path_utf8") ==> FirstPath(paths, PathKeys) == paths["path_utf8"]
    ensures NoPath(paths, "path_utf8") && NoPath(paths, "path2_utf8") && NoPath(paths, "path_posix")
      ==> FirstPath(paths, PathKeys) == if "path" in paths then paths["path"] else ""
  {
    var keys := PathKeys;
    assert keys[1..][1..][1..] == ["path"];
    assert FirstPath(paths, keys[1..][1..][1..][1..]) == "";
    assert FirstPath(paths, keys[1..][1..][1..]) == if "path" in paths then paths["path"] else "";
  }

  /** `TrackMobStack.source_name`: for a file-located oldest physical
      source, the first non-empty path (or ""); otherwise the mob's name;
      "NONE????" when there is no physical source mob. */
  function SourceName(stack: seq<Mob>): (r: Res<string>)
    ensures OldestPhysical(stack) == Ok(None) ==> r == Ok("NONE????")
    ensures r.Err? <==> (OldestPhysical(stack).Err?
      || (OldestPhysical(stack).Ok? && OldestPhysical(stack).value.Some? && OldestPhysical(stack).value.value.descriptor.None?))
    ensures r.Ok? && OldestPhysical(stack).value.Some? ==>
      var mob := OldestPhysical(stack).value.value;
      var d := mob.descriptor.value;
      && (!FileLocated(d) ==> r.value == mob.name)
      && (FileLocated(d) ==> (r.value == "" <==> forall k :: 0 <= k < |PathKeys| ==> NoPath(d.locator.value.paths, PathKeys[k])))
      && (FileLocated(d) && r.value != "" ==> exists k :: 0 <= k < |PathKeys| && PathKeys[k] in d.locator.value.paths && d.locator.value.paths[PathKeys[k]] == r.value)
      && (FileLocated(d) ==> r.value == FirstPath(d.locator.value.paths, PathKeys))
  {
    var oldest :- OldestPhysical(stack);
    if oldest.None? then Ok("NONE????")
    else
      match oldest.value.descriptor
      case None => Err(MissingDescriptor)
      case Some(d) => Ok(if FileLocated(d) then FirstPath(d.locator.value.paths, PathKeys) else oldest.value.name)
  }
}

=== FILE: markers.dfy ===
/** Marker extraction of `avbutils/markers.py`: markers are stored on
    components under `_TMP_CRM`; the track walk places each at the running
    frame position plus its `comp_offset`, where a transition steps the
    position back by its length. */
module Markers {
  import opened Wrappers
  import opened Avb

  /** `MarkerColor`: the eight colours Avid offers. */
  datatype MarkerColor = Red | Green | Blue | Cyan | Magenta | Yellow | Black | White {
    function Value(): string {
      match this
      case Red => "Red"
      case Green => "Green"
      case Blue => "Blue"
      case Cyan => "Cyan"
      case Magenta => "Magenta"
      case Yellow => "Yellow"
      case Black => "Black"
      case White => "White"
    }
  }

  /** `MarkerColor(value)`: exactly the eight colour names; anything else,
      a missing key included, raises. */
  function ColorFromValue(v: Option<AttrValue>): (r: Res<MarkerColor>)
    ensures r.Ok? ==> v == Some(StrVal(r.value.Value()))
    ensures r.Err? ==> r.error == UnknownMarkerColor
  {
    match v
    case Some(StrVal(s)) =>
      if s == "Red" then Ok(Red)
      else if s == "Green" then Ok(Green)
      else if s == "Blue" then Ok(Blue)
      else if s == "Cyan" then Ok(Cyan)
      else if s == "Magenta" then Ok(Magenta)
      else if s == "Yellow" then Ok(Yellow)
      else if s == "Black" then Ok(Black)
      else if s == "White" then Ok(White)
      else Err(UnknownMarkerColor)
    case _ => Err(UnknownMarkerColor)
  }

  /** Every colour is read back from its own value, and only from it. */
  lemma ColorRoundTrip(c: MarkerColor, v: Option<AttrValue>)
    ensures ColorFromValue(Some(StrVal(c.Value()))) == Ok(c)
    ensures ColorFromValue(v) == Ok(c) <==> v == Some(StrVal(c.Value()))
  {
  }

  /** `MarkerInfo`; the two dates are kept as the POSIX timestamps the
      attributes hold (the conversion to a local datetime is left out). */
  datatype MarkerInfo = MarkerInfo(
    frmOffset: int,
    user: AttrValue,
    comment: AttrValue,
    color: MarkerColor,
    dateCreated: int,
    dateModified: int)

  function Get(attrs: map<string, AttrValue>, key: string): Option<AttrValue> {
    if key in attrs then Some(attrs[key]) else None
  }

  /** `datetime.fromtimestamp` accepts a number and raises on None. */
  function Timestamp(v: Option<AttrValue>): (r: Res<int>)
    ensures r.Ok? <==> v.Some? && v.value.IntVal?
    ensures r.Ok? ==> r.value == v.value.i
  {
    if v.Some? && v.value.IntVal? then Ok(v.value.i) else Err(BadTimestamp)
  }

  /** `MarkerInfo.from_avb_marker`: user and comment default to "", the
      colour must be one of the eight, and the two dates must be present;
      the arguments are evaluated in that order. */
  function FromAvbMarker(offset: int, m: Marker): (r: Res<MarkerInfo>)
    ensures r.Ok? <==>
      && ColorFromValue(Get(m.attributes, "_ATN_CRM_COLOR")).Ok?
      && Timestamp(Get(m.attributes, "_ATN_CRM_LONG_CREATE_DATE")).Ok?
      && Timestamp(Get(m.attributes, "_ATN_CRM_LONG_MOD_DATE")).Ok?
    ensures ColorFromValue(Get(m.attributes, "_ATN_CRM_COLOR")).Err? ==> r == Err(UnknownMarkerColor)
    ensures r.Ok? ==> r.value.frmOffset == offset
    ensures r.Ok? ==> r.value.user == (if "_ATN_CRM_USER" in m.attributes then m.attributes["_ATN_CRM_USER"] else StrVal(""))
    ensures r.Ok? ==> r.value.comment == (if "_ATN_CRM_COM" in m.attributes then m.attributes["_ATN_CRM_COM"] else StrVal(""))
    ensures r.Ok? ==> Some(StrVal(r.value.color.Value())) == Get(m.attributes, "_ATN_CRM_COLOR")
    ensures r.Ok? ==> Timestamp(Get(m.attributes, "_ATN_CRM_LONG_CREATE_DATE")) == Ok(r.value.dateCreated)
    ensures r.Ok? ==> Timestamp(Get(m.attributes, "_ATN_CRM_LONG_MOD_DATE")) == Ok(r.value.dateModified)
    ensures ColorFromValue(Get(m.attributes, "_ATN_CRM_COLOR")).Ok? && r.Err? ==> r == Err(BadTimestamp)
  {
    var user := Get(m.attributes, "_ATN_CRM_USER").GetOr(StrVal(""));
    var comment := Get(m.attributes, "_ATN_CRM_COM").GetOr(StrVal(""));
    var color :- ColorFromValue(Get(m.attributes, "_ATN_CRM_COLOR"));
    var created :- Timestamp(Get(m.attributes, "_ATN_CRM_LONG_CREATE_DATE"));
    var modified :- Timestamp(Get(m.attributes, "_ATN_CRM_LONG_MOD_DATE"));
    Ok(MarkerInfo(offset, user, comment, color, created, modified))
  }

  function Concat(parts: seq<seq<Marker>>): (r: seq<Marker>)
    ensures forall m :: m in r ==> exists k :: 0 <= k < |parts| && m in parts[k]
    ensures forall k, m :: 0 <= k < |parts| && m in parts[k] ==> m in r
  {
    if parts == [] then [] else parts[0] + Concat(parts[1..])
  }

  /** Concatenation is taken part by part, in order. */
  lemma {:induction false} ConcatAppend(a: seq<seq<Marker>>, b: seq<seq<Marker>>)
    ensures Concat(a + b) == Concat(a) + Concat(b)
    decreases |a|
  {
    if a == [] {
      assert a + b == b;
    } else {
      assert (a + b)[0] == a[0];
      assert (a + b)[1..] == a[1..] + b;
      ConcatAppend(a[1..], b);
      assert a[0] + (Concat(a[1..]) + Concat(b)) == (a[0] + Concat(a[1..])) + Concat(b);
    }
  }

  lemma ConcatOne(p: seq<Marker>)
    ensures Concat([p]) == p
  {
    assert [p][1..] == [];
    assert p + [] == p;
  }

  /** `get_component_markers`: nothing for a component without the
      `attributes` property, whatever it contains; otherwise its own
      markers, then those of its sequence members or of its tracks that
      carry a component, in order. */
  function ComponentMarkers(c: Component): (r: seq<Marker>)
    ensures c.attrs.NoAttributes? ==> r == []
    decreases c
  {
    match c.attrs
    case NoAttributes => []
    case Attributes(own) =>
      var children :=
        match c.body
        case Sequence(cs) => Concat(seq(|cs|, k requires 0 <= k < |cs| => ComponentMarkers(cs[k])))
        case TrackGroup(_, ts) =>
          Concat(seq(|ts|, k requires 0 <= k < |ts| =>
            if ts[k].component.Some? then ComponentMarkers(ts[k].component.value) else []))
        case _ => [];
      own + children
  }

  /** The components a component holds: a Sequence's members, or the
      components of a track group's tracks that have one. */
  function Children(c: Component): seq<Component> {
    match c.body
    case Sequence(cs) => cs
    case TrackGroup(_, ts) => Present(ts)
    case _ => []
  }

  function Present(ts: seq<Track>): (r: seq<Component>)
    ensures forall x :: x in r <==> exists k :: 0 <= k < |ts| && ts[k].component == Some(x)
  {
    if ts == [] then []
    else (if ts[0].component.Some? then [ts[0].component.value] else []) + Present(ts[1..])
  }

  function MarkersOf(xs: seq<Component>): (r: seq<seq<Marker>>)
    ensures |r| == |xs|
  {
    seq(|xs|, k requires 0 <= k < |xs| => ComponentMarkers(xs[k]))
  }

  /** The per-track marker lists of a track group, a track without a
      component contributing none. */
  function TrackParts(ts: seq<Track>): seq<seq<Marker>> {
    seq(|ts|, k requires 0 <= k < |ts| => if ts[k].component.Some? then ComponentMarkers(ts[k].component.value) else [])
  }

  /** A component with the `attributes` property yields its own markers
      followed by each child's markers, child by child in order. */
  lemma ComponentMarkersChildren(c: Component)
    requires c.attrs.Attributes?
    ensures ComponentMarkers(c) == c.attrs.markers + Concat(MarkersOf(Children(c)))
  {
    match c.body
    case Sequence(cs) =>
      assert MarkersOf(cs) == seq(|cs|, k requires 0 <= k < |cs| => ComponentMarkers(cs[k]));
    case TrackGroup(_, ts) =>
      TrackPartsPresent(ts);
      assert TrackParts(ts) == seq(|ts|, k requires 0 <= k < |ts| =>
        if ts[k].component.Some? then ComponentMarkers(ts[k].component.value) else []);
    case _ =>
      assert MarkersOf([]) == [];
  }

  lemma {:induction false} TrackPartsPresent(ts: seq<Track>)
    ensures Concat(TrackParts(ts)) == Concat(MarkersOf(Present(ts)))
    decreases |ts|
  {
    if ts != [] {
      var rest := ts[1..];
      var first := if ts[0].component.Some? then [ts[0].component.value] else [];
      TrackPartsCons(ts);
      ConcatAppend([TrackPart(ts[0])], TrackParts(rest));
      ConcatOne(TrackPart(ts[0]));
      TrackPartsPresent(rest);
      assert Present(ts) == first + Present(rest);
      MarkersOfAppend(first, Present(rest));
      ConcatAppend(MarkersOf(first), MarkersOf(Present(rest)));
      PresentPart(ts[0]);
    }
  }

  /** One track's marker list: its component's, or none. */
  function TrackPart(t: Track): seq<Marker> {
    if t.component.Some? then ComponentMarkers(t.component.value) else []
  }

  lemma TrackPartsCons(ts: seq<Track>)
    requires ts != []
    ensures TrackParts(ts) == [TrackPart(ts[0])] + TrackParts(ts[1..])
  {
    assert forall k :: 0 <= k < |ts| ==> TrackParts(ts)[k] == TrackPart(ts[k]);
  }

  lemma MarkersOfAppend(a: seq<Component>, b: seq<Component>)
    ensures MarkersOf(a + b) == MarkersOf(a) + MarkersOf(b)
  {
    assert forall k :: 0 <= k < |a + b| ==> MarkersOf(a + b)[k] == ComponentMarkers((a + b)[k]);
  }

  lemma PresentPart(t: Track)
    ensures Concat(MarkersOf(if t.component.Some? then [t.component.value] else [])) == TrackPart(t)
  {
    if t.component.Some? {
      assert MarkersOf([t.component.value]) == [TrackPart(t)];
      ConcatOne(TrackPart(t));
    } else {
      assert MarkersOf([]) == [];
    }
  }

  /** A component's own markers come first, before any child's. */
  lemma OwnMarkersFirst(c: Component)
    requires c.attrs.Attributes?
    ensures |ComponentMarkers(c)| >= |c.attrs.markers|
    ensures ComponentMarkers(c)[..|c.attrs.markers|] == c.attrs.markers
  {
  }

  /** Without the `attributes` property a Sequence is not searched, even
      when its members hold markers. */
  lemma UnattributedSequenceHidesMembers(m: Marker)
    ensures var member := Component(Rate(24, 1), 10, Attributes([m]), OtherClip);
      ComponentMarkers(Component(Rate(24, 1), 10, NoAttributes, Sequence([member]))) == []
      && ComponentMarkers(Component(Rate(24, 1), 10, Attributes([]), Sequence([member]))) == [m]
  {
    var member := Component(Rate(24, 1), 10, Attributes([m]), OtherClip);
    assert ComponentMarkers(member) == [m];
    var parts := seq(1, k requires 0 <= k < 1 => ComponentMarkers([member][k]));
    assert parts[0] == [m];
    assert parts == [[m]];
    assert Concat(parts) == [m] + Concat([]);
  }

  /** A marker together with the frame it is placed at. */
  datatype Placement = Placement(offset: int, marker: Marker)

  /** The items the track walk visits: a Sequence's members, or the track's
      component alone. */
  function Items(c: Component): seq<Component> {
    if c.body.Sequence? then c.body.components else [c]
  }

  function Place(pos: int, ms: seq<Marker>): (r: seq<Placement>)
    ensures |r| == |ms|
    ensures forall k :: 0 <= k < |ms| ==> r[k] == Placement(pos + ms[k].compOffset, ms[k])
  {
    seq(|ms|, k requires 0 <= k < |ms| => Placement(pos + ms[k].compOffset, ms[k]))
  }

  /** Where the markers of the first `n` items land, item by item. */
  function Placed(items: seq<Component>, n: nat, start: int): seq<Placement>
    requires n <= |items|
  {
    if n == 0 then []
    else Placed(items, n - 1, start) + Place(ItemPosition(items, n - 1, start), ComponentMarkers(items[n - 1]))
  }

  /** `infos` is the MarkerInfo of every placement, in order. */
  predicate Converted(ps: seq<Placement>, infos: seq<MarkerInfo>) {
    |infos| == |ps| && forall k :: 0 <= k < |ps| ==> FromAvbMarker(ps[k].offset, ps[k].marker) == Ok(infos[k])
  }

  /** The placements of fewer items come first. */
  lemma PlacedPrefix(items: seq<Component>, start: int, a: nat, b: nat)
    requires a <= b <= |items|
    ensures Placed(items, a, start) <= Placed(items, b, start)
  {
    var f := PlacedUpTo(items, start);
    PlacedAllGrow(items, start, f);
    GrowingPrefix(f, a, b);
  }

  /** The placements of the first `n` items, as a total function of `n`. */
  function PlacedUpTo(items: seq<Component>, start: int): nat -> seq<Placement> {
    (n: nat) => if n <= |items| then Placed(items, n, start) else []
  }

  lemma PlacedAllGrow(items: seq<Component>, start: int, f: nat -> seq<Placement>)
    requires f == PlacedUpTo(items, start)
    ensures forall n: nat :: n < |items| ==> f(n) <= f(n + 1)
  {
    forall n: nat | n < |items|
      ensures f(n) <= f(n + 1)
    {
      PlacedGrows(items, start, n + 1);
    }
  }

  /** One more item only appends placements. */
  lemma PlacedGrows(items: seq<Component>, start: int, b: nat)
    requires 0 < b <= |items|
    ensures Placed(items, b - 1, start) <= Placed(items, b, start)
  {
    var before := Placed(items, b - 1, start);
    var after := Placed(items, b, start);
    assert after == before + Place(ItemPosition(items, b - 1, start), ComponentMarkers(items[b - 1]));
    assert after[..|before|] == before;
  }

  /** A sequence that only ever grows at its end keeps every earlier value
      as a prefix. */
  lemma {:induction false} GrowingPrefix<T>(f: nat -> seq<T>, a: nat, b: nat)
    requires a <= b
    requires forall n: nat :: a <= n < b ==> f(n) <= f(n + 1)
    ensures f(a) <= f(b)
    decreases b
  {
    if a < b {
      GrowingPrefix(f, a, b - 1);
      assert f(b)[..|f(a)|] == f(b - 1)[..|f(a)|];
    }
  }

  /** Conversions of consecutive runs concatenate. */
  lemma ConvertedAppend(a: seq<Placement>, x: seq<MarkerInfo>, b: seq<Placement>, y: seq<MarkerInfo>)
    requires Converted(a, x) && Converted(b, y)
    ensures Converted(a + b, x + y)
  {
    var ps, infos := a + b, x + y;
    forall k | 0 <= k < |ps|
      ensures FromAvbMarker(ps[k].offset, ps[k].marker) == Ok(infos[k])
    {
      if k < |a| {
        assert ps[k] == a[k] && infos[k] == x[k];
      } else {
        assert ps[k] == b[k - |a|] && infos[k] == y[k - |a|];
      }
    }
  }

  /** A run's first unconvertible marker, after a fully converted run, is
      the first unconvertible marker of any sequence both form a prefix
      of. */
  lemma FirstFailure(done: seq<Placement>, infos: seq<MarkerInfo>, run: seq<Placement>, k: nat, full: seq<Placement>, e: Failure)
    requires Converted(done, infos) && done + run <= full
    requires k < |run| && FromAvbMarker(run[k].offset, run[k].marker) == Err(e)
    requires forall j :: 0 <= j < k ==> FromAvbMarker(run[j].offset, run[j].marker).Ok?
    ensures exists n :: (0 <= n < |full| && FromAvbMarker(full[n].offset, full[n].marker) == Err(e)
                         && forall j :: 0 <= j < n ==> FromAvbMarker(full[j].offset, full[j].marker).Ok?)
  {
    var n := |done| + k;
    assert full[n] == (done + run)[n] == run[k];
    forall j | 0 <= j < n
      ensures FromAvbMarker(full[j].offset, full[j].marker).Ok?
    {
      assert full[j] == (done + run)[j];
      if j >= |done| {
        assert (done + run)[j] == run[j - |done|];
      }
    }
  }

  /** The inner loop: convert one item's markers at its position; the
      first that cannot be converted raises. */
  method ConvertItem(pos: int, markers: seq<Marker>) returns (r: Res<seq<MarkerInfo>>, ghost k: nat)
    ensures r.Ok? ==> Converted(Place(pos, markers), r.value)
    ensures r.Err? ==> var run := Place(pos, markers);
      && k < |run| && FromAvbMarker(run[k].offset, run[k].marker) == Err(r.error)
      && forall j :: 0 <= j < k ==> FromAvbMarker(run[j].offset, run[j].marker).Ok?
  {
    var infos: seq<MarkerInfo> := [];
    for j := 0 to |markers|
      invariant Converted(Place(pos, markers[..j]), infos)
    {
      var info := FromAvbMarker(pos + markers[j].compOffset, markers[j]);
      if info.Err? {
        PlacePrefix(pos, markers, j);
        return Err(info.error), j;
      }
      PlaceSnoc(pos, markers, j);
      ConvertedAppend(Place(pos, markers[..j]), infos, [Placement(pos + markers[j].compOffset, markers[j])], [info.value]);
      infos := infos + [info.value];
    }
    assert markers[..|markers|] == markers;
    return Ok(infos), 0;
  }

  /** The placements of the first markers are the first placements. */
  lemma PlacePrefix(pos: int, ms: seq<Marker>, j: nat)
    requires j <= |ms|
    ensures Place(pos, ms[..j]) == Place(pos, ms)[..j]
  {
    var short := Place(pos, ms[..j]);
    forall k | 0 <= k < j
      ensures short[k] == Place(pos, ms)[k]
    {
      assert ms[..j][k] == ms[k];
    }
  }

  /** Placing one more marker appends its placement. */
  lemma PlaceSnoc(pos: int, ms: seq<Marker>, j: nat)
    requires j < |ms|
    ensures Place(pos, ms[..j + 1]) == Place(pos, ms[..j]) + [Placement(pos + ms[j].compOffset, ms[j])]
  {
    var longer := Place(pos, ms[..j + 1]);
    var grown := Place(pos, ms[..j]) + [Placement(pos + ms[j].compOffset, ms[j])];
    forall k | 0 <= k < |longer|
      ensures longer[k] == grown[k]
    {
      if k < j {
        assert ms[..j + 1][k] == ms[..j][k];
      }
    }
  }

  /** One more item's converted markers extend the conversion of the
      items before it. */
  lemma ItemConverted(items: seq<Component>, start: int, i: nat, infos: seq<MarkerInfo>, more: seq<MarkerInfo>)
    requires i < |items|
    requires Converted(Placed(items, i, start), infos)
    requires Converted(Place(ItemPosition(items, i, start), ComponentMarkers(items[i])), more)
    ensures Converted(Placed(items, i + 1, start), infos + more)
  {
    ConvertedAppend(Placed(items, i, start), infos, Place(ItemPosition(items, i, start), ComponentMarkers(items[i])), more);
  }

  /** The first marker of item `i` that cannot be converted, after the
      items before it converted, is the first of the whole track. */
  lemma ItemFailure(items: seq<Component>, start: int, i: nat, infos: seq<MarkerInfo>, k: nat, e: Failure)
    requires i < |items|
    requires Converted(Placed(items, i, start), infos)
    requires var run := Place(ItemPosition(items, i, start), ComponentMarkers(items[i]));
      && k < |run| && FromAvbMarker(run[k].offset, run[k].marker) == Err(e)
      && forall j :: 0 <= j < k ==> FromAvbMarker(run[j].offset, run[j].marker).Ok?
    ensures var ps := Placed(items, |items|, start);
      exists n :: (0 <= n < |ps| && FromAvbMarker(ps[n].offset, ps[n].marker) == Err(e)
                   && forall j :: 0 <= j < n ==> FromAvbMarker(ps[j].offset, ps[j].marker).Ok?)
  {
    var run := Place(ItemPosition(items, i, start), ComponentMarkers(items[i]));
    PlacedPrefix(items, start, i + 1, |items|);
    assert Placed(items, i + 1, start) == Placed(items, i, start) + run;
    FirstFailure(Placed(items, i, start), infos, run, k, Placed(items, |items|, start), e);
  }

  /** `get_markers_from_track`. `endPos` is the position the loop ends at.
      The markers are those of `Placed`, converted in order; the first
      marker that cannot be converted raises. */
  method MarkersFromTrack(track: Track, start: int) returns (r: Res<seq<MarkerInfo>>, endPos: int)
    ensures track.component.None? ==> r == Err(MissingComponent)
    ensures track.component.Some? && r.Ok? ==>
      var items := Items(track.component.value);
      endPos == PositionAfter(items, |items|, start) && Converted(Placed(items, |items|, start), r.value)
    ensures track.component.Some? && r.Err? ==>
      var items := Items(track.component.value);
      var ps := Placed(items, |items|, start);
      exists k :: (0 <= k < |ps| && FromAvbMarker(ps[k].offset, ps[k].marker) == Err(r.error)
                   && forall j :: 0 <= j < k ==> FromAvbMarker(ps[j].offset, ps[j].marker).Ok?)
  {
    if track.component.None? {
      return Err(MissingComponent), start;
    }
    var items := Items(track.component.value);
    var pos := start;
    var infos: seq<MarkerInfo> := [];
    for i := 0 to |items|
      invariant pos == PositionAfter(items, i, start)
      invariant Converted(Placed(items, i, start), infos)
    {
      var item := items[i];
      if IsTransition(item) {
        pos := pos - item.length;
      }
      assert pos == ItemPosition(items, i, start);
      var more, k := ConvertItem(pos, ComponentMarkers(item));
      if more.Err? {
        ItemFailure(items, start, i, infos, k, more.error);
        return Err(more.error), pos;
      }
      ItemConverted(items, start, i, infos, more.value);
      infos := infos + more.value;
      if !IsTransition(item) {
        pos := pos + item.length;
      }
    }
    return Ok(infos), pos;
  }
}

=== FILE: matchback.dfy ===
/** The step-by-step "match back to a master clip" loop of
    `avbutils/matchback.py`: each step moves from a component to the one it
    stands for, until a master clip or a kind the loop does not know. */
module Matchback {
  import opened Wrappers
  import opened Avb

  /** The helpers return a diagnostic string instead of raising in two
      places; the text renders Python objects, so only its cause is kept. */
  datatype Diagnostic = WrongTrackCount(count: nat) | LongSequence(count: nat)

  /** What the loop variable can hold: a mob (a Composition), a component,
      a diagnostic string, or None. */
  datatype Node = NMob(mob: Mob) | NComp(c: Component) | NDiag(diagnostic: Diagnostic) | NNone

  /** `matchback_track`: the track's component, None when it has none. */
  function MatchbackTrack(t: Track): (r: Node)
    ensures r.NNone? <==> t.component.None?
    ensures r.NComp? ==> t.component == Some(r.c)
    ensures !r.NMob? && !r.NDiag?
  {
    if t.component.Some? then NComp(t.component.value) else NNone
  }

  /** `matchback_groupclip`: the component of the track at the explicit
      position, or at `selected` when none is given (a list position, so
      negative values count from the end). */
  function MatchbackGroupclip(tracks: seq<Track>, selected: int, index: Option<int>): (r: Res<Node>)
    ensures var i := if index.Some? then index.value else selected;
      && (r.Ok? <==> -|tracks| <= i < |tracks|)
      && (0 <= i < |tracks| ==> r == Ok(MatchbackTrack(tracks[i])))
      && (r.Err? ==> r.error == IndexOutOfRange(i))
    ensures r.Ok? ==> exists j :: 0 <= j < |tracks| && r.value == MatchbackTrack(tracks[j])
  {
    var t :- PyIndex(tracks, if index.Some? then index.value else selected);
    Ok(MatchbackTrack(t))
  }

  /** The tracks of one media kind, in order. */
  function OfKind(tracks: seq<Track>, kind: MediaKind): (r: seq<Track>)
    ensures |r| <= |tracks|
    ensures forall t :: t in r <==> t in tracks && t.kind == kind
  {
    if tracks == [] then []
    else (if tracks[0].kind == kind then [tracks[0]] else []) + OfKind(tracks[1..], kind)
  }

  /** The filter keeps order and multiplicity: filtering a concatenation
      filters each half, and one track is kept exactly when it has the
      kind. */
  lemma {:induction false} OfKindAppend(a: seq<Track>, b: seq<Track>, kind: MediaKind)
    ensures OfKind(a + b, kind) == OfKind(a, kind) + OfKind(b, kind)
    decreases |a|
  {
    if a == [] {
      assert a + b == b;
    } else {
      assert (a + b)[0] == a[0];
      assert (a + b)[1..] == a[1..] + b;
      OfKindAppend(a[1..], b, kind);
      var head := if a[0].kind == kind then [a[0]] else [];
      assert head + (OfKind(a[1..], kind) + OfKind(b, kind)) == (head + OfKind(a[1..], kind)) + OfKind(b, kind);
    }
  }

  lemma OfKindOne(t: Track, kind: MediaKind)
    ensures OfKind([t], kind) == if t.kind == kind then [t] else []
  {
    assert [t][1..] == [];
  }

  /** Exactly one track has the kind: the filtered list is that track. */
  lemma {:induction false} OfKindSingle(tracks: seq<Track>, kind: MediaKind, i: nat)
    requires i < |tracks| && tracks[i].kind == kind
    requires forall j :: 0 <= j < |tracks| && j != i ==> tracks[j].kind != kind
    ensures OfKind(tracks, kind) == [tracks[i]]
    decreases |tracks|
  {
    if i == 0 {
      NoneOfKind(tracks[1..], kind);
    } else {
      OfKindSingle(tracks[1..], kind, i - 1);
    }
  }

  lemma {:induction false} NoneOfKind(tracks: seq<Track>, kind: MediaKind)
    requires forall j :: 0 <= j < |tracks| ==> tracks[j].kind != kind
    ensures OfKind(tracks, kind) == []
    decreases |tracks|
  {
    if tracks != [] {
      NoneOfKind(tracks[1..], kind);
    }
  }

  /** A filtered list of one element comes from exactly one track. */
  lemma {:induction false} SingleOfKind(tracks: seq<Track>, kind: MediaKind)
    requires |OfKind(tracks, kind)| == 1
    ensures exists i :: (0 <= i < |tracks| && tracks[i] == OfKind(tracks, kind)[0]
                         && forall j :: 0 <= j < |tracks| && tracks[j].kind == kind ==> tracks[j] == tracks[i])
    decreases |tracks|
  {
    var rest := OfKind(tracks[1..], kind);
    if tracks[0].kind == kind {
      assert |rest| == 0;
    } else {
      SingleOfKind(tracks[1..], kind);
      var i :| 0 <= i < |tracks[1..]| && tracks[1..][i] == rest[0]
        && forall j :: 0 <= j < |tracks[1..]| && tracks[1..][j].kind == kind ==> tracks[1..][j] == tracks[1..][i];
      assert tracks[i + 1] == OfKind(tracks, kind)[0];
      forall j | 0 <= j < |tracks| && tracks[j].kind == kind
        ensures tracks[j] == tracks[i + 1]
      {
        assert j > 0 && tracks[j] == tracks[1..][j - 1];
      }
    }
  }

  /** `matchback_trackgroup`: the component of the only track of the kind;
      with zero or several such tracks a diagnostic is returned, not
      raised. */
  function MatchbackTrackgroup(tracks: seq<Track>, kind: MediaKind): (r: Node)
    ensures r.NDiag? <==> |OfKind(tracks, kind)| != 1
    ensures r.NDiag? ==> r.diagnostic == WrongTrackCount(|OfKind(tracks, kind)|)
    ensures !r.NDiag? ==> exists i :: (0 <= i < |tracks| && tracks[i].kind == kind && r == MatchbackTrack(tracks[i])
                                       && forall j :: 0 <= j < |tracks| && tracks[j].kind == kind ==> tracks[j] == tracks[i])
  {
    var filtered := OfKind(tracks, kind);
    if |filtered| != 1 then NDiag(WrongTrackCount(|filtered|))
    else
      SingleOfKind(tracks, kind);
      MatchbackTrack(filtered[0])
  }

  /** `matchback_sequence`: more than three members is a diagnostic;
      otherwise the member at position 1, which is missing when there are
      fewer than two. */
  function MatchbackSequence(cs: seq<Component>): (r: Res<Node>)
    ensures r.Err? <==> |cs| < 2
    ensures r.Err? ==> r.error == IndexOutOfRange(1)
    ensures |cs| > 3 ==> r == Ok(NDiag(LongSequence(|cs|)))
    ensures 2 <= |cs| <= 3 ==> r == Ok(NComp(cs[1]))
  {
    if |cs| > 3 then Ok(NDiag(LongSequence(|cs|)))
    else
      var member :- PyIndex(cs, 1);
      Ok(NComp(member))
  }

  /** `matchback_sourceclip`: the referenced mob, None when it is not in
      the bin. */
  function MatchbackSourceclip(table: MobTable, id: MobId): (r: Node)
    ensures r.NMob? <==> id in table
    ensures r.NMob? ==> r.mob == table[id]
    ensures !r.NMob? ==> r == NNone
  {
    match FindMob(table, id)
    case Some(m) => NMob(m)
    case None => NNone
  }

  /** `is_masterclip`: a Composition whose `mob_type` is "MasterMob", which
      pyavb reports for mob type code 2. */
  predicate IsMasterclip(n: Node) {
    n.NMob? && n.mob.typeCode == 2
  }

  /** The loop's stopping points other than a master clip: Filler, any
      other leaf the loop does not know, a diagnostic and None. */
  predicate Exits(n: Node) {
    || n.NDiag? || n.NNone?
    || (n.NComp? && (n.c.body.Filler? || n.c.body.TimecodeClip? || n.c.body.OtherClip?))
  }

  /** One turn of the loop for a node that is not a master clip: a
      Composition calls the undefined `get_video_track_from_composition`
      (NameError); Selector is tested before the other track groups. */
  function Turn(table: MobTable, n: Node): (r: Res<Node>)
    requires !IsMasterclip(n) && !Exits(n)
    ensures n.NMob? ==> r == Err(UndefinedName)
    ensures n.NComp? && n.c.body.TrackGroup? && n.c.body.group.Selector? ==>
      r == MatchbackGroupclip(n.c.body.tracks, n.c.body.group.selected, None)
    ensures n.NComp? && n.c.body.TrackGroup? && !n.c.body.group.Selector? ==>
      r == Ok(MatchbackTrackgroup(n.c.body.tracks, Picture))
    ensures n.NComp? && n.c.body.TrackNode? ==> r == Ok(MatchbackTrack(n.c.body.track))
    ensures n.NComp? && n.c.body.SourceClip? ==> r == Ok(MatchbackSourceclip(table, n.c.body.mobId))
    ensures n.NComp? && n.c.body.Sequence? ==> r == MatchbackSequence(n.c.body.components)
  {
    match n
    case NMob(_) => Err(UndefinedName)
    case NComp(c) =>
      (match c.body
       case TrackGroup(g, ts) =>
         if g.Selector? then MatchbackGroupclip(ts, g.selected, None) else Ok(MatchbackTrackgroup(ts, Picture))
       case TrackNode(t) => Ok(MatchbackTrack(t))
       case SourceClip(_, id, _, _) => Ok(MatchbackSourceclip(table, id))
       case Sequence(cs) => MatchbackSequence(cs))
  }

  /** Each turn moves strictly down the component tree, or out of it to a
      mob, which ends the loop at the next turn. */
  predicate Below(next: Node, n: Node) {
    n.NComp? && next.NComp? ==>
      || (n.c.body.TrackGroup? && exists j :: 0 <= j < |n.c.body.tracks| && n.c.body.tracks[j].component == Some(next.c))
      || (n.c.body.TrackNode? && n.c.body.track.component == Some(next.c))
      || (n.c.body.Sequence? && next.c in n.c.body.components)
  }

  lemma TurnDescends(table: MobTable, n: Node)
    requires !IsMasterclip(n) && !Exits(n)
    ensures Turn(table, n).Ok? ==> Below(Turn(table, n).value, n)
    ensures n.NComp? && n.c.body.SourceClip? && Turn(table, n).Ok? ==> !Turn(table, n).value.NComp?
  {
  }

  /** The loop from a component, returning the node it stopped at. A mob
      can only be entered through a SourceClip and ends the loop (a master
      clip stops it, any other mob raises), so the walk stays within the
      component tree and needs no bound. */
  function RunFrom(table: MobTable, c: Component): (r: Res<Node>)
    ensures r.Ok? ==> IsMasterclip(r.value) || Exits(r.value)
    ensures r.Ok? && r.value.NMob? ==> r.value.mob in table.Values
    ensures !Exits(NComp(c)) && Turn(table, NComp(c)).Err? ==>
      r == Err(Turn(table, NComp(c)).error)
    decreases c
  {
    var n := NComp(c);
    if Exits(n) then Ok(n)
    else
      TurnDescends(table, n);
      var next :- Turn(table, n);
      match next
      case NComp(x) =>
        if c.body.TrackGroup? then
          var j :| 0 <= j < |c.body.tracks| && c.body.tracks[j].component == Some(x);
          RunFrom(table, c.body.tracks[j].component.value)
        else if c.body.Sequence? then
          var j :| 0 <= j < |c.body.components| && c.body.components[j] == x;
          RunFrom(table, c.body.components[j])
        else
          RunFrom(table, c.body.track.component.value)
      case NMob(m) => if m.typeCode == 2 then Ok(next) else Err(UndefinedName)
      case _ => Ok(next)
  }

  /** `matchback_to_masterclip` with the node it stops at returned. */
  function MatchbackToMasterclip(table: MobTable, n: Node): (r: Res<Node>)
    ensures r.Ok? ==> IsMasterclip(r.value) || Exits(r.value)
    ensures IsMasterclip(n) || Exits(n) ==> r == Ok(n)
    ensures n.NMob? && !IsMasterclip(n) ==> r == Err(UndefinedName)
    ensures !IsMasterclip(n) && !Exits(n) && Turn(table, n).Err? ==>
      r == Err(Turn(table, n).error)
  {
    if IsMasterclip(n) || Exits(n) then Ok(n)
    else if n.NMob? then Err(UndefinedName)
    else RunFrom(table, n.c)
  }

  /** The while loop's equation: a master clip or a stopping node is where
      the loop ends, and any other node takes one turn and carries on from
      where the turn led (a raising turn raises). */
  lemma MatchbackLoop(table: MobTable, n: Node)
    ensures MatchbackToMasterclip(table, n) ==
      if IsMasterclip(n) || Exits(n) then Ok(n)
      else if Turn(table, n).Err? then Err(Turn(table, n).error)
      else MatchbackToMasterclip(table, Turn(table, n).value)
  {
    if !IsMasterclip(n) && !Exits(n) && n.NComp? {
      RunFromTurn(table, n.c);
    }
  }

  /** The component walk takes one turn and continues as the loop does. */
  lemma RunFromTurn(table: MobTable, c: Component)
    requires !Exits(NComp(c))
    ensures RunFrom(table, c) ==
      if Turn(table, NComp(c)).Err? then Err(Turn(table, NComp(c)).error)
      else MatchbackToMasterclip(table, Turn(table, NComp(c)).value)
  {
    var n := NComp(c);
    TurnDescends(table, n);
    if Turn(table, n).Ok? {
      var next := Turn(table, n).value;
      if next.NComp? {
        assert RunFrom(table, c) == RunFrom(table, next.c);
        if Exits(next) {
          assert RunFrom(table, next.c) == Ok(next);
        }
      }
    }
  }

  /** `matchback_to_masterclip` as written: it has no return statement, so
      a run that does not raise gives None whatever node it stopped at. */
  function MatchbackToMasterclipAsWritten(table: MobTable, n: Node): (r: Res<()>)
    ensures r.Ok? <==> MatchbackToMasterclip(table, n).Ok?
    ensures r.Err? ==> r.error == MatchbackToMasterclip(table, n).error
  {
    var _ :- MatchbackToMasterclip(table, n);
    Ok(())
  }

  /** A group clip whose selected camera is a sequence holding one clip of a
      master clip between two fillers matches back to that master clip;
      the function as written returns None for it all the same. */
  lemma GroupClipReachesMasterclip()
    ensures var master := Mob("A001C003", Rate(24, 1), 100, 2, 0, map[], None, []);
      var id := MobId(1, 7);
      var table := map[id := master];
      var filler := Component(Rate(24, 1), 0, NoAttributes, Filler);
      var clip := Component(Rate(24, 1), 100, NoAttributes, SourceClip(Picture, id, 1, 0));
      var sequence := Component(Rate(24, 1), 100, NoAttributes, Sequence([filler, clip, filler]));
      var group := Component(Rate(24, 1), 100, NoAttributes, TrackGroup(Selector(0), [Track(Picture, 1, Some(sequence))]));
      && MatchbackToMasterclip(table, NComp(group)) == Ok(NMob(master))
      && MatchbackToMasterclipAsWritten(table, NComp(group)) == Ok(())
  {
    var master := Mob("A001C003", Rate(24, 1), 100, 2, 0, map[], None, []);
    var id := MobId(1, 7);
    var table := map[id := master];
    var filler := Component(Rate(24, 1), 0, NoAttributes, Filler);
    var clip := Component(Rate(24, 1), 100, NoAttributes, SourceClip(Picture, id, 1, 0));
    var sequence := Component(Rate(24, 1), 100, NoAttributes, Sequence([filler, clip, filler]));
    var group := Component(Rate(24, 1), 100, NoAttributes, TrackGroup(Selector(0), [Track(Picture, 1, Some(sequence))]));
    assert RunFrom(table, clip) == Ok(NMob(master));
    assert RunFrom(table, sequence) == RunFrom(table, clip);
    assert RunFrom(table, group) == RunFrom(table, sequence);
  }
}

=== FILE: mobstack.dfy ===
/** The older mob-stack walk of `avbutils/mobstack.py`: step from a track to
    the mob its component references (with its own stop rules), collect the
    mobs, and read the essence linkage off the source mobs' descriptors. */
module MobStack {
  import opened Wrappers
  import opened Avb
  import opened Compositions
  import Identification
  import Selection
  import SourceRefs

  predicate IsSelector(c: Option<Component>) {
    c.Some? && c.value.body.TrackGroup? && c.value.body.group.Selector?
  }

  predicate IsEffect(c: Option<Component>) {
    c.Some? && c.value.body.TrackGroup?
    && (c.value.body.group.TrackEffect? || c.value.body.group.TimeWarp? || c.value.body.group.TransitionEffect?)
  }

  /** The first track of a kind, whatever its index. */
  function FirstOfKind(tracks: seq<Track>, kind: MediaKind): (r: Option<nat>)
    ensures r.Some? ==> r.value < |tracks| && tracks[r.value].kind == kind
    ensures r.Some? ==> forall j :: 0 <= j < r.value ==> tracks[j].kind != kind
    ensures r.None? ==> forall j :: 0 <= j < |tracks| ==> tracks[j].kind != kind
  {
    if tracks == [] then None
    else if tracks[0].kind == kind then Some(0)
    else match FirstOfKind(tracks[1..], kind)
      case None => None
      case Some(i) => Some(i + 1)
  }

  /** x is reached from c by following Selectors into their selected
      picture track, zero or more times. */
  predicate SelectedFrom(c: Option<Component>, x: Option<Component>)
    decreases c
  {
    || x == c
    || (IsSelector(c)
        && FirstTrackIndex(c.value.body.tracks, Picture, c.value.body.group.selected).Some?
        && SelectedFrom(c.value.body.tracks[FirstTrackIndex(c.value.body.tracks, Picture, c.value.body.group.selected).value].component, x))
  }

  /** x is reached from c by following effects into their first inner
      track of `kind`, zero or more times. */
  predicate EffectFrom(kind: MediaKind, c: Option<Component>, x: Option<Component>)
    decreases c
  {
    || x == c
    || (IsEffect(c)
        && FirstOfKind(c.value.body.tracks, kind).Some?
        && EffectFrom(kind, c.value.body.tracks[FirstOfKind(c.value.body.tracks, kind).value].component, x))
  }

  /** The first loop: a Selector is replaced by the component of its
      picture track whose index is `selected` (the helper that finds it is
      not part of this model and is taken to be the first such track), for
      as long as a Selector remains. */
  function PastSelectors(c: Option<Component>): (r: Res<Option<Component>>)
    ensures r.Ok? ==> !IsSelector(r.value) && SelectedFrom(c, r.value)
    ensures forall x :: SelectedFrom(c, x) && !IsSelector(x) ==> r == Ok(x)
    ensures r.Err? ==> r.error == NoSelectedTrack
    ensures IsSelector(c) && FirstTrackIndex(c.value.body.tracks, Picture, c.value.body.group.selected).None? ==>
      r == Err(NoSelectedTrack)
    decreases c
  {
    if !IsSelector(c) then Ok(c)
    else
      var x := c.value;
      match FirstTrackIndex(x.body.tracks, Picture, x.body.group.selected)
      case None => Err(NoSelectedTrack)
      case Some(i) => PastSelectors(x.body.tracks[i].component)
  }

  /** The second loop: a TrackEffect, TimeWarp or TransitionEffect is
      replaced by the component of its first inner track of the same media
      kind, ignoring the index. */
  function PastEffects(kind: MediaKind, c: Option<Component>): (r: Res<Option<Component>>)
    ensures r.Ok? ==> !IsEffect(r.value) && EffectFrom(kind, c, r.value)
    ensures forall x :: EffectFrom(kind, c, x) && !IsEffect(x) ==> r == Ok(x)
    ensures r.Err? ==> r.error == NoInnerTrack
    ensures IsEffect(c) && FirstOfKind(c.value.body.tracks, kind).None? ==> r == Err(NoInnerTrack)
    decreases c
  {
    if !IsEffect(c) then Ok(c)
    else
      var x := c.value;
      match FirstOfKind(x.body.tracks, kind)
      case None => Err(NoInnerTrack)
      case Some(i) => PastEffects(kind, x.body.tracks[i].component)
  }

  /** Both loops in order. Note that a Selector met inside an effect is
      not unwrapped again. */
  function Unwrapped(track: Track): (r: Res<Option<Component>>)
    ensures r.Ok? ==> !IsEffect(r.value)
    ensures r.Ok? ==> exists y :: SelectedFrom(track.component, y) && !IsSelector(y) && EffectFrom(track.kind, y, r.value)
    ensures forall y, x :: SelectedFrom(track.component, y) && !IsSelector(y) && EffectFrom(track.kind, y, x) && !IsEffect(x) ==>
      r == Ok(x)
    ensures r.Err? ==> r.error == NoSelectedTrack || r.error == NoInnerTrack
    ensures !IsSelector(track.component) && !IsEffect(track.component) ==> r == Ok(track.component)
  {
    var c :- PastSelectors(track.component);
    PastEffects(track.kind, c)
  }

  /** The component `_get_mob_from_track_at_offset` ends up judging: the
      unwrapped component or, for a Sequence, its member at the offset. */
  function StepLeaf(track: Track, offset: int): (r: Res<Component>)
    ensures Unwrapped(track).Err? ==> r == Err(Unwrapped(track).error)
    ensures Unwrapped(track) == Ok(None) ==> r == Err(MissingComponent)
    ensures Unwrapped(track).Ok? && Unwrapped(track).value.Some? ==>
      var c := Unwrapped(track).value.value;
      && (!c.body.Sequence? ==> r == Ok(c))
      && (c.body.Sequence? && r.Err? ==> r.error == NoComponentAtTime(offset))
      && (c.body.Sequence? ==> (r.Err? <==> forall j :: 0 <= j < |c.body.components| ==> ItemPosition(c.body.components, j, 0) > offset))
      && (c.body.Sequence? && r.Ok? ==>
            exists k :: 0 <= k < |c.body.components| && r.value == c.body.components[k]
              && ItemPosition(c.body.components, k, 0) <= offset
              && forall j :: k < j < |c.body.components| ==> ItemPosition(c.body.components, j, 0) > offset)
  {
    var c :- Unwrapped(track);
    if c.None? then Err(MissingComponent)
    else if c.value.body.Sequence? then
      var cs := c.value.body.components;
      match SourceRefs.Nearest(cs, offset)
      case None => Err(NoComponentAtTime(offset))
      case Some(k) =>
        assert ItemPosition(cs, k, 0) <= offset;
        Ok(cs[k])
    else Ok(c.value)
  }

  /** What one step produces: the next mob, its track and the clip's
      `start_time`, or one of the two signals that end the stack quietly. */
  datatype StepOutcome = Resolved(mob: Mob, track: Track, startTime: int) | StopMatchback | FillerDuringMatchback

  /** `_get_mob_from_track_at_offset`. Filler ends the walk with
      FillerDuringMatchback; a SourceClip on track 0 or a Timecode with
      StopMatchback; any other leaf must be a SourceClip whose mob and
      track exist. The offset only chooses the sequence member. */
  function Step(table: MobTable, track: Track, offset: int): (r: Res<StepOutcome>)
    ensures StepLeaf(track, offset).Err? ==> r == Err(StepLeaf(track, offset).error)
    ensures r == Ok(FillerDuringMatchback) <==> StepLeaf(track, offset).Ok? && StepLeaf(track, offset).value.body.Filler?
    ensures r == Ok(StopMatchback) <==> StepLeaf(track, offset).Ok? && (var b := StepLeaf(track, offset).value.body;
      (b.SourceClip? && b.trackId == 0) || b.TimecodeClip?)
    ensures r.Ok? && r.value.Resolved? ==>
      var b := StepLeaf(track, offset).value.body;
      && b.SourceClip? && b.trackId != 0 && b.mobId in table
      && r.value.mob == table[b.mobId] && r.value.startTime == b.startTime
      && Matches(r.value.track, track.kind, b.trackId)
      && FirstTrackIndex(r.value.mob.tracks, track.kind, b.trackId).Some?
      && r.value.track == r.value.mob.tracks[FirstTrackIndex(r.value.mob.tracks, track.kind, b.trackId).value]
    ensures StepLeaf(track, offset).Ok? ==>
      var b := StepLeaf(track, offset).value.body;
      && (!b.Filler? && !b.SourceClip? && !b.TimecodeClip? ==> r == Err(NotAReference))
      && (b.SourceClip? && b.trackId != 0 && b.mobId !in table ==> r == Err(MobNotFound))
      && (b.SourceClip? && b.trackId != 0 && b.mobId in table ==>
            var mob := table[b.mobId];
            match FirstTrackIndex(mob.tracks, track.kind, b.trackId)
            case None => r == Err(NoMatchingTrack)
            case Some(i) => r == Ok(Resolved(mob, mob.tracks[i], b.startTime)))
  {
    var leaf :- StepLeaf(track, offset);
    var b := leaf.body;
    if b.Filler? then Ok(FillerDuringMatchback)
    else if b.SourceClip? && b.trackId == 0 then Ok(StopMatchback)
    else if b.TimecodeClip? then Ok(StopMatchback)
    else if !b.SourceClip? then Err(NotAReference)
    else if b.mobId !in table then Err(MobNotFound)
    else
      var mob := table[b.mobId];
      match FirstTrackIndex(mob.tracks, track.kind, b.trackId)
      case None => Err(NoMatchingTrack)
      case Some(i) => Ok(Resolved(mob, mob.tracks[i], b.startTime))
  }

  /** Away from sequences the offset plays no part in a step. */
  lemma StepIgnoresOffset(table: MobTable, track: Track, o1: int, o2: int)
    requires Unwrapped(track).Ok? && Unwrapped(track).value.Some? ==> !Unwrapped(track).value.value.body.Sequence?
    ensures Step(table, track, o1) == Step(table, track, o2)
  {
  }

  /** The hops from `track` on, each looked up at
      `frame_offset + previous start_time + 1`; at most `fuel` steps are
      taken (the source has no bound). */
  function Hops(table: MobTable, track: Track, frameOffset: int, lastStart: int, fuel: nat): (r: Res<seq<Hop>>)
    ensures r.Ok? ==> |r.value| < fuel
    ensures fuel == 0 ==> r == Err(HopBoundExhausted)
    decreases fuel
  {
    if fuel == 0 then Err(HopBoundExhausted)
    else
      var outcome :- Step(table, track, frameOffset + lastStart + 1);
      match outcome
      case Resolved(mob, next, start) =>
        var rest :- Hops(table, next, frameOffset, start, fuel - 1);
        Ok([Hop(mob, next, start)] + rest)
      case _ => Ok([])
  }

  /** The stack's hops written as a relation: each hop is the step from
      the one before it, and the step after the last one is one of the two
      quiet stop signals. */
  predicate Linked(table: MobTable, track: Track, frameOffset: int, lastStart: int, hops: seq<Hop>)
    decreases |hops|
  {
    var outcome := Step(table, track, frameOffset + lastStart + 1);
    if hops == [] then outcome == Ok(StopMatchback) || outcome == Ok(FillerDuringMatchback)
    else
      && outcome == Ok(Resolved(hops[0].mob, hops[0].track, hops[0].at))
      && Linked(table, hops[0].track, frameOffset, hops[0].at, hops[1..])
  }

  /** The hops the walk collects are linked, and any linked hops within the
      bound are what the walk collects. */
  lemma {:induction false} HopsLinked(table: MobTable, track: Track, frameOffset: int, lastStart: int, fuel: nat, hops: seq<Hop>)
    ensures Hops(table, track, frameOffset, lastStart, fuel) == Ok(hops) ==> Linked(table, track, frameOffset, lastStart, hops)
    ensures Linked(table, track, frameOffset, lastStart, hops) && |hops| < fuel ==> Hops(table, track, frameOffset, lastStart, fuel) == Ok(hops)
    decreases fuel
  {
    if fuel > 0 && hops != [] {
      HopsLinked(table, hops[0].track, frameOffset, hops[0].at, fuel - 1, hops[1..]);
      assert hops == [hops[0]] + hops[1..];
    }
  }

  /** `MobStack.from_composition`: the starting composition, then one mob
      per hop. */
  function FromComposition(table: MobTable, composition: Mob, track: Track, frameOffset: int, fuel: nat): (r: Res<seq<Mob>>)
    ensures r.Ok? ==> |r.value| >= 1 && r.value[0] == composition
    ensures r.Ok? <==> Hops(table, track, frameOffset, 0, fuel).Ok?
    ensures r.Ok? ==> r.value[1..] == MobsOf(Hops(table, track, frameOffset, 0, fuel).value)
  {
    var hops :- Hops(table, track, frameOffset, 0, fuel);
    Ok([composition] + MobsOf(hops))
  }

  /** `composition_is_source_mob`: a source mob is type 3; an unknown type
      code raises. */
  function IsSourceMob(mob: Mob): (r: Res<bool>)
    ensures r.Ok? <==> mob.typeCode in MobTypeCodes
    ensures r == Ok(true) <==> mob.typeCode == 3
    ensures r.Err? ==> r.error == UnknownMobType(mob.typeCode)
  {
    Identification.Is(Identification.AnySourceMob, mob)
  }

  /** `source_mobs`: `composition_is_source_mob` filtered over the stack in
      order; the first unknown type code raises. */
  function SourceMobs(stack: seq<Mob>): (r: Res<seq<Mob>>)
    ensures r.Ok? <==> forall j :: 0 <= j < |stack| ==> stack[j].typeCode in MobTypeCodes
    ensures r.Ok? ==> |r.value| <= |stack|
    ensures r.Ok? ==> forall m :: m in r.value <==> m in stack && m.typeCode == 3
    ensures r.Ok? && |stack| > 0 && stack[0].typeCode == 3 ==> r.value[0] == stack[0]
  {
    if stack == [] then Ok([])
    else
      var keep :- IsSourceMob(stack[0]);
      var rest :- SourceMobs(stack[1..]);
      assert forall m :: m in stack <==> m == stack[0] || m in stack[1..];
      Ok(if keep then [stack[0]] + rest else rest)
  }

  /** `source_name`: the name of the last source mob; IndexError when
      there is none. */
  function SourceName(stack: seq<Mob>): (r: Res<string>)
    ensures SourceMobs(stack).Ok? && SourceMobs(stack).value != [] ==>
      r == Ok(SourceMobs(stack).value[|SourceMobs(stack).value| - 1].name)
    ensures SourceMobs(stack) == Ok([]) ==> r == Err(IndexOutOfRange(-1))
  {
    var sources :- SourceMobs(stack);
    var last :- PyIndex(sources, -1);
    Ok(last.name)
  }

  /** The source mobs of a concatenation are those of its halves, in order,
      and a single mob is kept exactly when it is a source mob: together
      these pin `source_mobs` down as an order- and count-preserving
      filter. */
  lemma {:induction false} SourceMobsAppend(a: seq<Mob>, b: seq<Mob>)
    ensures SourceMobs(a + b).Ok? <==> SourceMobs(a).Ok? && SourceMobs(b).Ok?
    ensures SourceMobs(a + b).Ok? ==> SourceMobs(a + b).value == SourceMobs(a).value + SourceMobs(b).value
    decreases |a|
  {
    if a == [] {
      assert a + b == b;
    } else {
      assert (a + b)[0] == a[0];
      assert (a + b)[1..] == a[1..] + b;
      SourceMobsAppend(a[1..], b);
      if SourceMobs(a + b).Ok? && IsSourceMob(a[0]) == Ok(true) {
        assert [a[0]] + (SourceMobs(a[1..]).value + SourceMobs(b).value)
          == ([a[0]] + SourceMobs(a[1..]).value) + SourceMobs(b).value;
      }
    }
  }

  lemma SourceMobsSingle(m: Mob)
    ensures m.typeCode == 3 ==> SourceMobs([m]) == Ok([m])
    ensures m.typeCode in MobTypeCodes && m.typeCode != 3 ==> SourceMobs([m]) == Ok([])
    ensures m.typeCode !in MobTypeCodes ==> SourceMobs([m]).Err?
  {
    assert [m][1..] == [];
    assert SourceMobs([m][1..]) == Ok([]);
    assert m.typeCode == 3 ==> IsSourceMob(m) == Ok(true);
    assert [m][0] == m && [m] + [] == [m];
  }

  /** `essence_descriptor`: the first source mob's descriptor, which must be
      a MediaFileDescriptor. */
  function EssenceDescriptor(stack: seq<Mob>): (r: Res<Descriptor>)
    ensures r.Ok? ==> r.value.IsMediaFile()
    ensures r.Ok? ==> SourceMobs(stack).Ok? && |SourceMobs(stack).value| > 0 && SourceMobs(stack).value[0].descriptor == Some(r.value)
    ensures SourceMobs(stack).Err? ==> r == Err(SourceMobs(stack).error)
    ensures SourceMobs(stack) == Ok([]) ==> r == Err(IndexOutOfRange(0))
    ensures SourceMobs(stack).Ok? && |SourceMobs(stack).value| > 0 ==>
      var d := SourceMobs(stack).value[0].descriptor;
      && (d.Some? && d.value.IsMediaFile() ==> r == Ok(d.value))
      && (d.None? || !d.value.IsMediaFile() ==> r == Err(NotAnEssenceDescriptor))
  {
    var sources :- SourceMobs(stack);
    var first :- PyIndex(sources, 0);
    if first.descriptor.Some? && first.descriptor.value.IsMediaFile() then Ok(first.descriptor.value)
    else Err(NotAnEssenceDescriptor)
  }

  /** A for-loop that returns True on the first match and False after. */
  function Any(ds: seq<Descriptor>, p: Descriptor -> bool): (r: bool)
    ensures r <==> exists i :: 0 <= i < |ds| && p(ds[i])
  {
    if ds == [] then false
    else if p(ds[0]) then true
    else
      var rest := Any(ds[1..], p);
      assert forall i :: 1 <= i < |ds| ==> ds[i] == ds[1..][i - 1];
      rest
  }

  predicate HasLocator(d: Option<Descriptor>, test: Locator -> bool) {
    d.Some? && d.value.locator.Some? && test(d.value.locator.value)
  }

  /** Managed: an MSM-located (sub-)descriptor with no physical media or a
      URL-located one. */
  predicate ManagedMember(d: Descriptor) {
    HasLocator(Some(d), (l: Locator) => l.MSMLocator?) && (d.physicalMedia.None? || HasLocator(d.physicalMedia, (l: Locator) => l.URLLocator?))
  }

  /** UME-linked: an MSM-located (sub-)descriptor whose physical media is
      file-located. */
  predicate LinkedMember(d: Descriptor) {
    HasLocator(Some(d), (l: Locator) => l.MSMLocator?) && HasLocator(d.physicalMedia, (l: Locator) => l.FileLocator?)
  }

  function HasManagedMedia(stack: seq<Mob>): (r: Res<bool>)
    ensures r.Ok? <==> EssenceDescriptor(stack).Ok?
    ensures r.Ok? ==>
      (r.value <==> exists i :: 0 <= i < |EssenceDescriptor(stack).value.Members()| && ManagedMember(EssenceDescriptor(stack).value.Members()[i]))
  {
    var desc :- EssenceDescriptor(stack);
    Ok(Any(desc.Members(), ManagedMember))
  }

  function HasLinkedMedia(stack: seq<Mob>): (r: Res<bool>)
    ensures r.Ok? <==> EssenceDescriptor(stack).Ok?
    ensures r.Ok? ==>
      (r.value <==> exists i :: 0 <= i < |EssenceDescriptor(stack).value.Members()| && LinkedMember(EssenceDescriptor(stack).value.Members()[i]))
  {
    var desc :- EssenceDescriptor(stack);
    Ok(Any(desc.Members(), LinkedMember))
  }

  /** For a single (non-multi) essence descriptor, managed and linked media
      exclude each other. */
  lemma ManagedExcludesLinked(stack: seq<Mob>)
    requires EssenceDescriptor(stack).Ok? && !EssenceDescriptor(stack).value.MultiDescriptor?
    ensures !(HasManagedMedia(stack) == Ok(true) && HasLinkedMedia(stack) == Ok(true))
  {
    var d := EssenceDescriptor(stack).value;
    assert d.Members() == [d];
  }

  /** A multi-descriptor can be both: one managed member, one linked. */
  lemma MultiCanBeManagedAndLinked()
    ensures var managed := FileDescriptor(1, Some(MSMLocator), None);
      var linked := FileDescriptor(1, Some(MSMLocator), Some(PhysicalDescriptor("ImportDescriptor", 5, Some(FileLocator(map[])), None)));
      var essence := Mob("clip", Rate(24, 1), 0, 3, 0, map[], Some(MultiDescriptor(1, None, None, [managed, linked])), []);
      HasManagedMedia([essence]) == Ok(true) && HasLinkedMedia([essence]) == Ok(true)
  {
    var managed := FileDescriptor(1, Some(MSMLocator), None);
    var linked := FileDescriptor(1, Some(MSMLocator), Some(PhysicalDescriptor("ImportDescriptor", 5, Some(FileLocator(map[])), None)));
    var essence := Mob("clip", Rate(24, 1), 0, 3, 0, map[], Some(MultiDescriptor(1, None, None, [managed, linked])), []);
    var sources := SourceMobs([essence]);
    assert sources.Ok? && sources.value[0] == essence;
    assert ManagedMember(managed) && LinkedMember(linked);
    assert essence.descriptor.value.Members()[0] == managed;
    assert essence.descriptor.value.Members()[1] == linked;
  }

  /** A file reference: a file-located (sub-)descriptor, or one whose
      physical media is file-located. */
  predicate FileRefMember(d: Descriptor) {
    HasLocator(Some(d), (l: Locator) => l.FileLocator?) || HasLocator(d.physicalMedia, (l: Locator) => l.FileLocator?)
  }

  /** `_descriptor_has_file_reference` */
  function DescriptorHasFileReference(d: Descriptor): (r: bool)
    ensures r <==> exists i :: 0 <= i < |d.Members()| && FileRefMember(d.Members()[i])
  {
    Any(d.Members(), FileRefMember)
  }

  datatype LinkType = UmeLinked | HardImported | PhysicalMediaReferred {
    function Str(): string {
      match this
      case UmeLinked => "UME Linked"
      case HardImported => "Hard Imported"
      case PhysicalMediaReferred => "Physical Media Referred"
    }
  }

  /** The file-reference test on the second source mob: it must be an
      imported file source and its descriptor must reference a file. */
  function SourceSideReference(second: Mob): (r: Res<bool>)
    ensures r.Ok? <==> SourceRefs.SourceMobRoleOf(second).Ok?
    ensures r == Ok(true) <==>
      SourceRefs.SourceMobRoleOf(second) == Ok(SourceRefs.SourceFile) && DescriptorHasFileReference(second.descriptor.value)
  {
    var role :- SourceRefs.SourceMobRoleOf(second);
    Ok(role == SourceRefs.SourceFile && DescriptorHasFileReference(second.descriptor.value))
  }

  /** `link_type`. The first source mob must be an essence mob; then the
      essence-side and source-side file references decide, and a reference
      on the essence side alone raises. */
  function LinkTypeOf(stack: seq<Mob>): (r: Res<LinkType>)
    ensures SourceMobs(stack).Err? ==> r == Err(SourceMobs(stack).error)
    ensures SourceMobs(stack) == Ok([]) ==> r == Err(IndexOutOfRange(0))
    ensures SourceMobs(stack).Ok? && |SourceMobs(stack).value| >= 1 ==>
      var role := SourceRefs.SourceMobRoleOf(SourceMobs(stack).value[0]);
      && (role.Err? ==> r == Err(role.error))
      && (role == Ok(SourceRefs.Essence) && |SourceMobs(stack).value| == 1 ==> r == Err(IndexOutOfRange(1)))
    ensures (&& SourceMobs(stack).Ok? && |SourceMobs(stack).value| >= 2
             && SourceRefs.SourceMobRoleOf(SourceMobs(stack).value[0]) == Ok(SourceRefs.Essence)
             && SourceSideReference(SourceMobs(stack).value[1]).Err?)
      ==> r == Err(SourceSideReference(SourceMobs(stack).value[1]).error)
    ensures (&& SourceMobs(stack).Ok? && |SourceMobs(stack).value| >= 2
             && SourceRefs.SourceMobRoleOf(SourceMobs(stack).value[0]) == Ok(SourceRefs.Essence)
             && SourceSideReference(SourceMobs(stack).value[1]).Ok?
             && !(DescriptorHasFileReference(SourceMobs(stack).value[0].descriptor.value)
                  && SourceSideReference(SourceMobs(stack).value[1]) == Ok(false)))
      ==> r.Ok?
    ensures r.Ok? ==>
      && SourceMobs(stack).Ok? && |SourceMobs(stack).value| >= 2
      && SourceRefs.SourceMobRoleOf(SourceMobs(stack).value[0]) == Ok(SourceRefs.Essence)
      && SourceSideReference(SourceMobs(stack).value[1]).Ok?
    ensures r.Ok? ==>
      var essenceRef := DescriptorHasFileReference(SourceMobs(stack).value[0].descriptor.value);
      var sourceRef := SourceSideReference(SourceMobs(stack).value[1]).value;
      && (r.value == UmeLinked <==> essenceRef && sourceRef)
      && (r.value == HardImported <==> !essenceRef && sourceRef)
      && (r.value == PhysicalMediaReferred <==> !essenceRef && !sourceRef)
    ensures (&& SourceMobs(stack).Ok? && |SourceMobs(stack).value| >= 2
             && SourceRefs.SourceMobRoleOf(SourceMobs(stack).value[0]) == Ok(SourceRefs.Essence)
             && SourceSideReference(SourceMobs(stack).value[1]) == Ok(false)
             && DescriptorHasFileReference(SourceMobs(stack).value[0].descriptor.value))
      ==> r == Err(EssenceOnlyFileReference)
    ensures (&& SourceMobs(stack).Ok? && |SourceMobs(stack).value| >= 1
             && SourceRefs.SourceMobRoleOf(SourceMobs(stack).value[0]).Ok?
             && SourceRefs.SourceMobRoleOf(SourceMobs(stack).value[0]) != Ok(SourceRefs.Essence))
      ==> r == Err(NotAnEssenceMob)
  {
    var sources :- SourceMobs(stack);
    var essence :- PyIndex(sources, 0);
    var role :- SourceRefs.SourceMobRoleOf(essence);
    if role != SourceRefs.Essence then Err(NotAnEssenceMob)
    else
      var essenceRef := DescriptorHasFileReference(essence.descriptor.value);
      var second :- PyIndex(sources, 1);
      var sourceRef :- SourceSideReference(second);
      if essenceRef && sourceRef then Ok(UmeLinked)
      else if sourceRef then Ok(HardImported)
      else if essenceRef then Err(EssenceOnlyFileReference)
      else Ok(PhysicalMediaReferred)
  }
}

=== FILE: order.dfy ===
/** Python's ordering of lists and strings: lexicographic, element by
    element, a proper prefix first. */
module Order {

  /** `less` is a strict total order. */
  ghost predicate StrictTotal<T(!new)>(less: (T, T) -> bool) {
    && (forall x :: !less(x, x))
    && (forall x, y, z :: less(x, y) && less(y, z) ==> less(x, z))
    && (forall x, y :: x == y || less(x, y) || less(y, x))
  }

  /** Lexicographic order over `less`. */
  predicate LexLess<T(==)>(a: seq<T>, b: seq<T>, less: (T, T) -> bool)
    decreases |a|
  {
    if a == [] then b != []
    else if b == [] then false
    else less(a[0], b[0]) || (a[0] == b[0] && LexLess(a[1..], b[1..], less))
  }

  lemma {:induction false} LexIrreflexive<T(!new)>(a: seq<T>, less: (T, T) -> bool)
    requires StrictTotal(less)
    ensures !LexLess(a, a, less)
    decreases |a|
  {
    if a != [] {
      LexIrreflexive(a[1..], less);
    }
  }

  lemma {:induction false} LexTransitive<T(!new)>(a: seq<T>, b: seq<T>, c: seq<T>, less: (T, T) -> bool)
    requires StrictTotal(less)
    requires LexLess(a, b, less) && LexLess(b, c, less)
    ensures LexLess(a, c, less)
    decreases |a|
  {
    if a != [] && b != [] && c != [] && a[0] == b[0] && b[0] == c[0] {
      LexTransitive(a[1..], b[1..], c[1..], less);
    }
  }

  lemma {:induction false} LexTotal<T(!new)>(a: seq<T>, b: seq<T>, less: (T, T) -> bool)
    requires StrictTotal(less)
    ensures a == b || LexLess(a, b, less) || LexLess(b, a, less)
    decreases |a|
  {
    if a != [] && b != [] && a[0] == b[0] {
      LexTotal(a[1..], b[1..], less);
      if a[1..] == b[1..] {
        assert a == [a[0]] + a[1..] && b == [b[0]] + b[1..];
      }
    }
  }

  /** The lexicographic order is itself a strict total order. */
  lemma LexStrictTotal<T(!new)>(less: (T, T) -> bool)
    requires StrictTotal(less)
    ensures StrictTotal((a: seq<T>, b: seq<T>) => LexLess(a, b, less))
  {
    forall a: seq<T> {
      LexIrreflexive(a, less);
    }
    forall a: seq<T>, b: seq<T>, c: seq<T> | LexLess(a, b, less) && LexLess(b, c, less) {
      LexTransitive(a, b, c, less);
    }
    forall a: seq<T>, b: seq<T> {
      LexTotal(a, b, less);
    }
  }

  function CharLess(x: char, y: char): bool {
    x < y
  }

  /** Python's `str` comparison, by code point. */
  predicate StrLess(a: string, b: string) {
    LexLess(a, b, CharLess)
  }

  lemma CharLessStrictTotal()
    ensures StrictTotal(CharLess)
  {
  }
}

=== FILE: reels.dfy ===
/** Reel durations and 35 mm footage (`trtlib/reelinfo.py` and
    `examples/get_trts.py`). Durations are frame counts: a `Timecode`'s
    `frame_number`. 35 mm 4-perf film runs 16 frames to the foot. */
module Reels {
  import opened Wrappers
  import opened Avb
  import Text

  const FramesPerFoot := 16

  /** `f"{n:02}"` for 0 <= n < 100. */
  function Pad2(n: nat): (s: string)
    requires n < 100
    ensures |s| == 2 && Text.AllDigits(s)
  {
    [Text.DigitChar(n / 10), Text.DigitChar(n % 10)]
  }

  /** `f"{n//16}+{(n%16):02}"`. Python floors both operators; for the
      positive divisor 16 Dafny's Euclidean `/` and `%` are the same. */
  function FeetAndFrames(n: int): (r: string)
    ensures PlusAt(r).Some? && |r| == PlusAt(r).value + 3
    ensures ReadInt(r[..|r| - 3]) == Some(n / FramesPerFoot)
    ensures Text.AllDigits(r[|r| - 2..]) && Text.DecimalValue(r[|r| - 2..]) == n % FramesPerFoot
  {
    var feet := Text.IntToDecimal(n / FramesPerFoot);
    var frames := Pad2(n % FramesPerFoot);
    ReadRendered(n / FramesPerFoot);
    PlusAfter(feet, frames);
    PadValue(n % FramesPerFoot);
    var r := feet + "+" + frames;
    assert r[..|r| - 3] == feet && r[|r| - 2..] == frames;
    r
  }

  /** Position of the first '+'. */
  function PlusAt(s: string): (r: Option<nat>)
    ensures r.Some? ==> r.value < |s| && s[r.value] == '+'
    ensures r.Some? ==> forall i :: 0 <= i < r.value ==> s[i] != '+'
    ensures r.None? ==> forall i :: 0 <= i < |s| ==> s[i] != '+'
  {
    if s == [] then None
    else if s[0] == '+' then Some(0)
    else match PlusAt(s[1..])
      case None => None
      case Some(k) => Some(k + 1)
  }

  /** Reads an optionally signed run of decimal digits. */
  function ReadInt(s: string): Option<int> {
    if |s| > 0 && s[0] == '-' then
      if |s| > 1 && Text.AllDigits(s[1..]) then Some(0 - Text.DecimalValue(s[1..])) else None
    else if |s| > 0 && Text.AllDigits(s) then Some(Text.DecimalValue(s))
    else None
  }

  /** Reads "F+ff" back into a frame number: feet times 16 plus frames. */
  function ReadFeetAndFrames(s: string): Option<int> {
    match PlusAt(s)
    case None => None
    case Some(k) =>
      var feet := ReadInt(s[..k]);
      var frames := s[k + 1..];
      if feet.Some? && |frames| == 2 && Text.AllDigits(frames) && Text.DecimalValue(frames) < FramesPerFoot
      then Some(feet.value * FramesPerFoot + Text.DecimalValue(frames))
      else None
  }

  lemma PadValue(n: nat)
    requires n < 100
    ensures Text.DecimalValue(Pad2(n)) == n
  {
    var s := Pad2(n);
    assert s[..1] == [s[0]] && s[..1][..0] == [];
    assert Text.DecimalValue(s[..1]) == n / 10;
    assert Text.DecimalValue(s) == (n / 10) * 10 + n % 10;
  }

  lemma ReadRendered(i: int)
    ensures ReadInt(Text.IntToDecimal(i)) == Some(i)
    ensures forall k :: 0 <= k < |Text.IntToDecimal(i)| ==> Text.IntToDecimal(i)[k] != '+'
  {
    var s := Text.IntToDecimal(i);
    if i < 0 {
      assert s[1..] == Text.NatToDecimal(-i);
      Text.DecimalRoundTrip(-i);
    } else {
      Text.DecimalRoundTrip(i);
    }
  }

  lemma {:induction false} PlusAfter(a: string, b: string)
    requires forall k :: 0 <= k < |a| ==> a[k] != '+'
    ensures PlusAt(a + "+" + b) == Some(|a|)
    decreases |a|
  {
    if a != [] {
      assert (a + "+" + b)[1..] == a[1..] + "+" + b;
      PlusAfter(a[1..], b);
    }
  }

  /** The footage string reads back as the frame number it renders: the
      feet and the two-digit frames (always 00 to 15) recombine to n. */
  lemma {:induction false} FeetAndFramesRoundTrip(n: int)
    ensures ReadFeetAndFrames(FeetAndFrames(n)) == Some(n)
  {
    var feet := Text.IntToDecimal(n / FramesPerFoot);
    var frames := Pad2(n % FramesPerFoot);
    var s := FeetAndFrames(n);
    ReadRendered(n / FramesPerFoot);
    PlusAfter(feet, frames);
    assert s[..|feet|] == feet;
    assert s[|feet| + 1..] == frames;
    PadValue(n % FramesPerFoot);
  }

  /** `trtlib.reelinfo.ReelInfo`: both leaders are always set. */
  datatype TrtReelInfo = TrtReelInfo(sequenceName: string, total: int, head: int, tail: int)

  /** `duration_adjusted`, which may come out negative. */
  function TrtDurationAdjusted(r: TrtReelInfo): (d: int)
    ensures d + r.head + r.tail == r.total
  {
    r.total - r.head - r.tail
  }

  /** `lfoa` as `trtlib` writes it, without a clamp. */
  function TrtLfoa(r: TrtReelInfo): (s: string)
    ensures ReadFeetAndFrames(s) == Some(r.total - r.tail - 1)
  {
    FeetAndFramesRoundTrip(r.total - r.tail - 1);
    FeetAndFrames(r.total - r.tail - 1)
  }

  /** A reel with no picture between its leaders gets the footage "-1+15". */
  lemma TrtLfoaOfEmptyReel(name: string, total: int, head: int)
    ensures TrtLfoa(TrtReelInfo(name, total, head, total)) == "-1+15"
  {
    assert Text.IntToDecimal(-1) == "-1";
    assert Pad2(15) == "15";
  }

  /** `ReelInfo` of `examples/get_trts.py`: leaders may be None. */
  datatype ReelInfo = ReelInfo(
    sequenceName: string,
    total: int,
    reelNumber: Option<AttrValue>,
    head: Option<int>,
    tail: Option<int>)

  /** `x or 0` for a leader. */
  function OrZero(leader: Option<int>): int {
    if leader.Some? then leader.value else 0
  }

  /** `duration_adjusted`: clamped at zero, a missing leader counting 0. */
  function DurationAdjusted(r: ReelInfo): (d: int)
    ensures d >= 0
    ensures d >= r.total - OrZero(r.head) - OrZero(r.tail)
    ensures d == 0 || d + OrZero(r.head) + OrZero(r.tail) == r.total
  {
    var d := r.total - OrZero(r.head) - OrZero(r.tail);
    if d > 0 then d else 0
  }

  /** With both leaders set, the clamped duration is `trtlib`'s whenever
      that is not negative, and 0 otherwise. */
  lemma AdjustedAgrees(r: ReelInfo)
    requires r.head.Some? && r.tail.Some?
    ensures var t := TrtReelInfo(r.sequenceName, r.total, r.head.value, r.tail.value);
            DurationAdjusted(r) == if TrtDurationAdjusted(t) >= 0 then TrtDurationAdjusted(t) else 0
  {
  }

  /** `lfoa`: the frame number is clamped at 0; a missing tail leader is a
      `TypeError` (`duration_total - None`). */
  function Lfoa(r: ReelInfo): (s: Res<string>)
    ensures s.Err? <==> r.tail.None?
    ensures s.Err? ==> s.error == MissingLeader
    ensures s.Ok? ==> ReadFeetAndFrames(s.value) == Some(if r.total - r.tail.value - 1 > 0 then r.total - r.tail.value - 1 else 0)
  {
    if r.tail.None? then Err(MissingLeader)
    else
      var n := r.total - r.tail.value - 1;
      var clamped := if n > 0 then n else 0;
      FeetAndFramesRoundTrip(clamped);
      Ok(FeetAndFrames(clamped))
  }

  /** The clamp gives "0+00" where `trtlib` gives "-1+15", and never
      renders a negative footage. */
  lemma LfoaOfEmptyReel(r: ReelInfo)
    requires r.tail == Some(r.total)
    ensures Lfoa(r) == Ok("0+00")
  {
    assert Text.IntToDecimal(0) == "0";
    assert Pad2(0) == "00";
    assert FeetAndFrames(0) == "0" + "+" + "00" == "0+00";
  }

  lemma LfoaNeverNegative(r: ReelInfo)
    requires r.tail.Some?
    ensures Lfoa(r).Ok? && Lfoa(r).value[0] != '-'
  {
    var n := r.total - r.tail.value - 1;
    var clamped := if n > 0 then n else 0;
    assert Text.IntToDecimal(clamped / FramesPerFoot)[0] != '-' by {
      assert Text.AllDigits(Text.IntToDecimal(clamped / FramesPerFoot));
    }
  }

  function SumAdjusted(reels: seq<ReelInfo>): (s: int)
    ensures s >= 0
  {
    if reels == [] then 0 else DurationAdjusted(reels[0]) + SumAdjusted(reels[1..])
  }

  /** The "Total Runtime" line: `max(sum(adjusted) + adjust, 0)`. */
  function TotalRuntime(reels: seq<ReelInfo>, adjust: int): (t: int)
    ensures t >= 0
    ensures t >= SumAdjusted(reels) + adjust
    ensures t == 0 || t == SumAdjusted(reels) + adjust
  {
    var t := SumAdjusted(reels) + adjust;
    if t > 0 then t else 0
  }

  /** The sum is Python's `sum` over the reels: one reel contributes its
      adjusted duration, and the sum of a concatenation adds up. */
  lemma SumAdjustedOne(r: ReelInfo)
    ensures SumAdjusted([r]) == DurationAdjusted(r)
  {
    assert [r][1..] == [];
  }

  lemma {:induction false} SumAdjustedAppend(a: seq<ReelInfo>, b: seq<ReelInfo>)
    ensures SumAdjusted(a + b) == SumAdjusted(a) + SumAdjusted(b)
    decreases |a|
  {
    if a == [] {
      assert a + b == b;
    } else {
      assert (a + b)[0] == a[0];
      assert (a + b)[1..] == a[1..] + b;
      SumAdjustedAppend(a[1..], b);
    }
  }

  /** Every reel's duration is part of the sum. */
  lemma {:induction false} SumCoversEachReel(reels: seq<ReelInfo>, i: nat)
    requires i < |reels|
    ensures SumAdjusted(reels) >= DurationAdjusted(reels[i])
  {
    if i > 0 {
      SumCoversEachReel(reels[1..], i - 1);
    }
  }

  /** With no negative adjustment, the total runtime is at least every
      reel's adjusted duration. */
  lemma TotalCoversEachReel(reels: seq<ReelInfo>, adjust: int, i: nat)
    requires adjust >= 0 && i < |reels|
    ensures TotalRuntime(reels, adjust) >= DurationAdjusted(reels[i])
  {
    SumCoversEachReel(reels, i);
  }

  /** `get_reel_number_from_timeline_attributes`: `attrs["_USER"]["Reel #"]`.
      Anything but property data raises ValueError; a missing key at
      either level is None; a `_USER` entry that cannot be indexed by a
      string raises. */
  function ReelNumber(attrs: AttrValue): (r: Res<Option<AttrValue>>)
    ensures r.Err? <==> (!attrs.DictVal?
      || ("_USER" in attrs.entries && !attrs.entries["_USER"].DictVal?))
    ensures r.Ok? && r.value.Some? <==> (attrs.DictVal? && "_USER" in attrs.entries
      && attrs.entries["_USER"].DictVal? && "Reel #" in attrs.entries["_USER"].entries)
    ensures r.Ok? && r.value.Some? ==> r.value.value == attrs.entries["_USER"].entries["Reel #"]
    ensures !attrs.DictVal? ==> r == Err(NotPropertyData)
  {
    if !attrs.DictVal? then Err(NotPropertyData)
    else if "_USER" !in attrs.entries then Ok(None)
    else
      var user := attrs.entries["_USER"];
      if !user.DictVal? then Err(UserNotADict)
      else if "Reel #" in user.entries then Ok(Some(user.entries["Reel #"]))
      else Ok(None)
  }

  /** `sys.argv.index(opt)`. */
  function IndexOf(args: seq<string>, opt: string): (i: nat)
    requires opt in args
    ensures i < |args| && args[i] == opt
    ensures forall j :: 0 <= j < i ==> args[j] != opt
  {
    if args[0] == opt then 0 else 1 + IndexOf(args[1..], opt)
  }

  /** One `while opt in sys.argv` loop of `process_args`: each round takes
      the value after the first `opt` and deletes the pair; the last value
      taken wins. A trailing `opt` with no value is an IndexError. */
  function StripOption(args: seq<string>, opt: string, current: Option<string>): (r: Res<(Option<string>, seq<string>)>)
    ensures r.Ok? ==> opt !in r.value.1
    ensures r.Ok? ==> |r.value.1| <= |args|
    ensures r.Ok? ==> forall s :: s in r.value.1 ==> s in args
    ensures opt !in args ==> r == Ok((current, args))
    decreases |args|
  {
    if opt !in args then Ok((current, args))
    else
      var i := IndexOf(args, opt);
      if i + 1 >= |args| then Err(MissingOptionValue)
      else StripOption(args[..i] + args[i + 2..], opt, Some(args[i + 1]))
  }

  /** The same loop read as one left-to-right pass: each `opt` takes the
      next argument as its value (even another `opt`), every other
      argument is kept in order, and the value of the last pair is the
      result. */
  function Scan(args: seq<string>, opt: string, current: Option<string>): (r: Res<(Option<string>, seq<string>)>)
    ensures r.Ok? ==> opt !in r.value.1
    decreases |args|
  {
    if args == [] then Ok((current, []))
    else if args[0] == opt then
      if |args| < 2 then Err(MissingOptionValue) else Scan(args[2..], opt, Some(args[1]))
    else
      var (value, rest) :- Scan(args[1..], opt, current);
      Ok((value, [args[0]] + rest))
  }

  /** A scan's result with `before` put back in front of what it keeps. */
  function Prefixed(before: seq<string>, r: Res<(Option<string>, seq<string>)>): Res<(Option<string>, seq<string>)> {
    if r.Err? then r else Ok((r.value.0, before + r.value.1))
  }

  lemma {:induction false} ScanPrefix(before: seq<string>, xs: seq<string>, opt: string, current: Option<string>)
    requires opt !in before
    ensures Scan(before + xs, opt, current) == Prefixed(before, Scan(xs, opt, current))
    decreases |before|
  {
    if before == [] {
      assert before + xs == xs;
      var inner := Scan(xs, opt, current);
      if inner.Ok? {
        assert before + inner.value.1 == inner.value.1;
      }
    } else {
      assert (before + xs)[0] == before[0];
      assert (before + xs)[1..] == before[1..] + xs;
      ScanPrefix(before[1..], xs, opt, current);
      var inner := Scan(xs, opt, current);
      if inner.Ok? {
        assert [before[0]] + (before[1..] + inner.value.1) == before + inner.value.1;
      }
    }
  }

  /** In the pass, a pair after arguments without `opt` only sets the value. */
  lemma ScanPair(before: seq<string>, opt: string, v: string, after: seq<string>, current: Option<string>)
    requires opt !in before
    ensures Scan(before + [opt, v] + after, opt, current) == Scan(before + after, opt, Some(v))
  {
    assert before + [opt, v] + after == before + ([opt, v] + after);
    ScanPrefix(before, [opt, v] + after, opt, current);
    ScanPrefix(before, after, opt, Some(v));
    assert ([opt, v] + after)[2..] == after;
  }

  /** The delete-and-search loop is the single pass. */
  lemma {:induction false} StripOptionIsScan(args: seq<string>, opt: string, current: Option<string>)
    ensures StripOption(args, opt, current) == Scan(args, opt, current)
    decreases |args|
  {
    if opt !in args {
      ScanPrefix(args, [], opt, current);
      assert args + [] == args;
    } else {
      var i := IndexOf(args, opt);
      var before := args[..i];
      assert opt !in before;
      if i + 1 >= |args| {
        assert args == before + [opt];
        ScanPrefix(before, [opt], opt, current);
      } else {
        var v := args[i + 1];
        var after := args[i + 2..];
        assert args == before + [opt, v] + after;
        StripOnePair(before, opt, v, after, current);
        StripOptionIsScan(before + after, opt, Some(v));
        ScanPair(before, opt, v, after, current);
      }
    }
  }

  /** Removing a leading `opt V` pair (after arguments without `opt`)
      is one round of the loop: the rest keeps its order and V becomes the
      current value. */
  lemma StripOnePair(before: seq<string>, opt: string, v: string, after: seq<string>, current: Option<string>)
    requires opt !in before
    ensures StripOption(before + [opt, v] + after, opt, current) == StripOption(before + after, opt, Some(v))
  {
    var args := before + [opt, v] + after;
    assert args[|before|] == opt;
    var i := IndexOf(args, opt);
    assert i == |before|;
    assert args[..i] + args[i + 2..] == before + after;
  }

  /** An option given twice (`--head 1 ... --head 2`): the later value
      wins and every other argument keeps its place. */
  lemma LastOptionWins(opt: string, a: seq<string>, v1: string, b: seq<string>, v2: string, c: seq<string>)
    requires opt !in a && opt !in b && opt !in c
    ensures StripOption(a + [opt, v1] + b + [opt, v2] + c, opt, None) == Ok((Some(v2), a + b + c))
  {
    var later := b + [opt, v2] + c;
    assert a + [opt, v1] + b + [opt, v2] + c == a + [opt, v1] + later;
    StripOnePair(a, opt, v1, later, None);
    assert a + later == (a + b) + [opt, v2] + c;
    assert opt !in a + b;
    StripOnePair(a + b, opt, v2, c, Some(v1));
    assert opt !in (a + b) + c;
  }

  /** The options `process_args` strips, as raw strings (parsing them as
      timecodes is left to the timecode library). */
  datatype Options = Options(head: Option<string>, tail: Option<string>, trtAdjust: Option<string>, rest: seq<string>)

  /** `process_args`: `--head`, then `--tail`, then `--trt-adjust`. */
  function ProcessArgs(args: seq<string>): (r: Res<Options>)
    ensures r.Ok? ==> "--head" !in r.value.rest && "--tail" !in r.value.rest && "--trt-adjust" !in r.value.rest
    ensures r.Ok? ==> |r.value.rest| <= |args|
    ensures r.Ok? ==> forall s :: s in r.value.rest ==> s in args
  {
    var (head, afterHead) :- StripOption(args, "--head", None);
    var (tail, afterTail) :- StripOption(afterHead, "--tail", None);
    var (adjust, rest) :- StripOption(afterTail, "--trt-adjust", None);
    Ok(Options(head, tail, adjust, rest))
  }

  predicate NoOptions(xs: seq<string>) {
    "--head" !in xs && "--tail" !in xs && "--trt-adjust" !in xs
  }

  /** Each option given once, in the order the usage line shows, between
      plain arguments: each value is read and the plain arguments are what
      remains, in order. */
  lemma ProcessArgsEachOnce(a: seq<string>, h: string, b: seq<string>, t: string, c: seq<string>, j: string, d: seq<string>)
    requires NoOptions(a) && NoOptions(b) && NoOptions(c) && NoOptions(d)
    requires NoOptions([h]) && NoOptions([t]) && NoOptions([j])
    ensures ProcessArgs(a + ["--head", h] + b + ["--tail", t] + c + ["--trt-adjust", j] + d)
      == Ok(Options(Some(h), Some(t), Some(j), a + b + c + d))
  {
    var args := a + ["--head", h] + b + ["--tail", t] + c + ["--trt-adjust", j] + d;
    var tailPart := b + ["--tail", t] + c + ["--trt-adjust", j] + d;
    assert args == a + ["--head", h] + tailPart;
    assert "--head" !in tailPart;
    StripOnePair(a, "--head", h, tailPart, None);
    assert StripOption(a + tailPart, "--head", Some(h)) == Ok((Some(h), a + tailPart));
    var afterHead := a + tailPart;
    var adjustPart := c + ["--trt-adjust", j] + d;
    assert afterHead == (a + b) + ["--tail", t] + adjustPart;
    assert "--tail" !in a + b && "--tail" !in adjustPart;
    StripOnePair(a + b, "--tail", t, adjustPart, None);
    assert StripOption((a + b) + adjustPart, "--tail", Some(t)) == Ok((Some(t), (a + b) + adjustPart));
    var afterTail := (a + b) + adjustPart;
    assert afterTail == (a + b + c) + ["--trt-adjust", j] + d;
    assert "--trt-adjust" !in a + b + c && "--trt-adjust" !in d;
    StripOnePair(a + b + c, "--trt-adjust", j, d, None);
    assert "--trt-adjust" !in (a + b + c) + d;
    assert (a + b + c) + d == a + b + c + d;
  }
}

=== FILE: selection.dfy ===
/** Python's `filter` / filtering generator over a list whose predicate may
    raise: the items are tested in order, the kept ones are yielded in order,
    and the first test that raises ends the generator with that exception. */
module Selection {
  import opened Wrappers
  import opened Avb

  /** `indices` are the positions yielded; `cut` is how far the scan got
      (the position whose test raised, or the length). */
  datatype Selection = Selection(indices: seq<nat>, cut: nat, failure: Option<Failure>)

  predicate Increasing(s: seq<nat>) {
    forall k, l :: 0 <= k < l < |s| ==> s[k] < s[l]
  }

  /** The scan from position `from` on. */
  function SelectFrom<T>(xs: seq<T>, keep: T -> Res<bool>, from: nat): (r: Selection)
    requires from <= |xs|
    ensures from <= r.cut <= |xs|
    ensures r.failure.None? <==> r.cut == |xs|
    ensures r.failure.Some? ==> keep(xs[r.cut]) == Err(r.failure.value)
    ensures forall j :: from <= j < r.cut ==> keep(xs[j]).Ok?
    ensures Increasing(r.indices)
    ensures forall k :: 0 <= k < |r.indices| ==> from <= r.indices[k] < r.cut && keep(xs[r.indices[k]]) == Ok(true)
    ensures forall j :: from <= j < r.cut && keep(xs[j]) == Ok(true) ==> j in r.indices
    decreases |xs| - from
  {
    if from == |xs| then Selection([], from, None)
    else match keep(xs[from])
      case Err(e) => Selection([], from, Some(e))
      case Ok(b) =>
        var rest := SelectFrom(xs, keep, from + 1);
        if b then Selection([from] + rest.indices, rest.cut, rest.failure) else rest
  }

  /** The whole scan: the kept positions in increasing order, every position
      before the cut whose test held, and the first raised exception. */
  function Select<T>(xs: seq<T>, keep: T -> Res<bool>): (r: Selection)
    ensures r.cut <= |xs|
    ensures r.failure.None? <==> r.cut == |xs|
    ensures r.failure.Some? ==> keep(xs[r.cut]) == Err(r.failure.value)
    ensures forall j :: 0 <= j < r.cut ==> keep(xs[j]).Ok?
    ensures Increasing(r.indices)
    ensures forall k :: 0 <= k < |r.indices| ==> r.indices[k] < r.cut && keep(xs[r.indices[k]]) == Ok(true)
    ensures forall j :: 0 <= j < r.cut && keep(xs[j]) == Ok(true) ==> j in r.indices
  {
    SelectFrom(xs, keep, 0)
  }

  /** The scan raises exactly when some test raises. */
  lemma FailsSomewhere<T>(xs: seq<T>, keep: T -> Res<bool>)
    ensures Select(xs, keep).failure.Some? <==> exists i :: 0 <= i < |xs| && keep(xs[i]).Err?
  {
    var sel := Select(xs, keep);
    if sel.failure.Some? {
      assert keep(xs[sel.cut]).Err?;
    }
  }

  /** A scan that neither raises nor keeps anything saw every test fail. */
  lemma NothingKept<T>(xs: seq<T>, keep: T -> Res<bool>)
    requires Select(xs, keep).failure.None? && Select(xs, keep).indices == []
    ensures forall j :: 0 <= j < |xs| ==> keep(xs[j]) == Ok(false)
  {
    var sel := Select(xs, keep);
    forall j | 0 <= j < |xs|
      ensures keep(xs[j]) == Ok(false)
    {
      var b := keep(xs[j]);
      assert b.Ok?;
      assert b.value ==> j in sel.indices;
      assert b == Ok(b.value);
    }
  }

  /** The last kept position of a scan that did not raise: its test held
      and every later one failed. */
  lemma LastKept<T>(xs: seq<T>, keep: T -> Res<bool>)
    requires Select(xs, keep).failure.None? && Select(xs, keep).indices != []
    ensures var sel := Select(xs, keep);
      var i := sel.indices[|sel.indices| - 1];
      && i < |xs| && keep(xs[i]) == Ok(true)
      && forall j :: i < j < |xs| ==> keep(xs[j]) == Ok(false)
  {
    var sel := Select(xs, keep);
    var last := |sel.indices| - 1;
    forall j | sel.indices[last] < j < |xs|
      ensures keep(xs[j]) == Ok(false)
    {
      var b := keep(xs[j]);
      assert b.Ok?;
      if b.value {
        assert false;
      }
      assert b == Ok(b.value);
    }
  }

  /** `next(filter(keep, xs))`, None for StopIteration: the lazy filter
      tests the items in order only until the first one it keeps. */
  function First<T>(xs: seq<T>, keep: T -> Res<bool>): (r: Res<Option<T>>)
    ensures forall i :: (0 <= i < |xs| && keep(xs[i]) == Ok(true)
                         && forall j :: 0 <= j < i ==> keep(xs[j]) == Ok(false))
                        ==> r == Ok(Some(xs[i]))
    ensures r.Ok? && r.value.Some? ==> exists i :: (0 <= i < |xs| && xs[i] == r.value.value
      && keep(xs[i]) == Ok(true) && forall j :: 0 <= j < i ==> keep(xs[j]) == Ok(false))
    ensures r.Err? ==> exists i :: (0 <= i < |xs| && keep(xs[i]) == Err(r.error)
      && forall j :: 0 <= j < i ==> keep(xs[j]) == Ok(false))
    ensures r == Ok(None) <==> forall j :: 0 <= j < |xs| ==> keep(xs[j]) == Ok(false)
    decreases |xs|
  {
    if xs == [] then Ok(None)
    else
      var found :- keep(xs[0]);
      if found then Ok(Some(xs[0]))
      else
        var rest :- First(xs[1..], keep);
        assert forall j :: 1 <= j < |xs| ==> xs[j] == xs[1..][j - 1];
        Ok(rest)
  }

  /** `list(filter(keep, xs))[-1]`, None for the IndexError of an empty
      result: the filter runs to the end, so the first raising test raises. */
  function Last<T>(xs: seq<T>, keep: T -> Res<bool>): (r: Res<Option<T>>)
    ensures r.Err? <==> exists i :: 0 <= i < |xs| && keep(xs[i]).Err?
    ensures r.Err? ==> exists i :: (0 <= i < |xs| && keep(xs[i]) == Err(r.error)
      && forall j :: 0 <= j < i ==> keep(xs[j]).Ok?)
    ensures r == Ok(None) <==> forall j :: 0 <= j < |xs| ==> keep(xs[j]) == Ok(false)
    ensures r.Ok? && r.value.Some? ==> exists i :: (0 <= i < |xs| && xs[i] == r.value.value
      && keep(xs[i]) == Ok(true)
      && forall j :: i < j < |xs| ==> keep(xs[j]) == Ok(false))
  {
    var sel := Select(xs, keep);
    FailsSomewhere(xs, keep);
    if sel.failure.Some? then
      assert keep(xs[sel.cut]).Err?;
      Err(sel.failure.value)
    else if sel.indices == [] then
      NothingKept(xs, keep);
      Ok(None)
    else
      var i := sel.indices[|sel.indices| - 1];
      LastKept(xs, keep);
      assert keep(xs[i]) == Ok(true);
      Ok(Some(xs[i]))
  }

  /** The yielded items themselves. */
  function Pick<T>(xs: seq<T>, indices: seq<nat>): (r: seq<T>)
    requires forall k :: 0 <= k < |indices| ==> indices[k] < |xs|
    ensures |r| == |indices|
    ensures forall k :: 0 <= k < |indices| ==> r[k] == xs[indices[k]]
  {
    seq(|indices|, k requires 0 <= k < |indices| => xs[indices[k]])
  }
}

=== FILE: sorting.dfy ===
/** Bin sorting choices and the "human" sort key of `avbutils/sorting.py`
    and `trtlib/__init__.py`: text is split at runs of digits, and the runs
    compare as numbers, so "9" sorts before "10". */
module Sorting {
  import opened Wrappers
  import opened Avb
  import Text
  import Order

  /** `BinSorting`, an IntEnum numbered from 1. */
  datatype BinSorting = DateCreated | DateModified | ByName {
    function Code(): int {
      match this
      case DateCreated => 1
      case DateModified => 2
      case ByName => 3
    }
  }

  function DecodeBinSorting(code: int): (r: Res<BinSorting>)
    ensures r.Ok? <==> 1 <= code <= 3
    ensures r.Ok? ==> r.value.Code() == code
    ensures r.Err? ==> r.error == UnknownCode(code)
  {
    if code == 1 then Ok(DateCreated)
    else if code == 2 then Ok(DateModified)
    else if code == 3 then Ok(ByName)
    else Err(UnknownCode(code))
  }

  /** The bin item field a sort lambda reads. */
  datatype SortField = CreationTime | LastModified | Name

  /** What `get_sort_lambda` returns: a key function, or (for an unknown
      choice) a ValueError object, returned and not raised. */
  datatype SortLambda = KeyOf(field: SortField) | ErrorValue(choice: int)

  function GetSortLambda(choice: int): (r: SortLambda)
    ensures r.ErrorValue? <==> DecodeBinSorting(choice).Err?
    ensures r.ErrorValue? ==> r.choice == choice
    ensures DecodeBinSorting(choice) == Ok(DateCreated) <==> r == KeyOf(CreationTime)
    ensures DecodeBinSorting(choice) == Ok(DateModified) <==> r == KeyOf(LastModified)
    ensures DecodeBinSorting(choice) == Ok(ByName) <==> r == KeyOf(Name)
  {
    if choice == 1 then KeyOf(CreationTime)
    else if choice == 2 then KeyOf(LastModified)
    else if choice == 3 then KeyOf(Name)
    else ErrorValue(choice)
  }

  /** String concatenation of the parts. */
  function Join(parts: seq<string>): string {
    if |parts| == 0 then [] else parts[0] + Join(parts[1..])
  }

  /** The shape of `re.split(r'(\d+)', text)`: an odd number of parts,
      digit-free text at even positions, non-empty digit runs at odd ones,
      and no empty text between two runs (the runs are maximal). */
  predicate Alternation(parts: seq<string>) {
    && |parts| % 2 == 1
    && (forall i :: 0 <= i < |parts| && i % 2 == 0 ==> Text.NoDigits(parts[i]))
    && (forall i :: 0 <= i < |parts| && i % 2 == 1 ==> |parts[i]| > 0 && Text.AllDigits(parts[i]))
    && (forall i :: 0 < i < |parts| - 1 && i % 2 == 0 ==> |parts[i]| > 0)
  }

  lemma JoinCons(a: string, parts: seq<string>)
    ensures Join([a] + parts) == a + Join(parts)
  {
    assert ([a] + parts)[1..] == parts;
  }

  /** `re.split(r'(\d+)', text)` for ASCII digits. */
  function Split(t: string): (r: seq<string>)
    ensures |r| % 2 == 1
    decreases |t|
  {
    if t == [] then [""]
    else
      var rest := Split(t[1..]);
      if !Text.IsDigit(t[0]) then [[t[0]] + rest[0]] + rest[1..]
      else if rest[0] == [] && |rest| > 1 then ["", [t[0]] + rest[1]] + rest[2..]
      else ["", [t[0]]] + rest
  }

  /** Joining the parts gives the text back. */
  lemma {:induction false} SplitJoin(t: string)
    ensures Join(Split(t)) == t
    decreases |t|
  {
    if t != [] {
      var rest := Split(t[1..]);
      SplitJoin(t[1..]);
      assert t == [t[0]] + t[1..];
      if !Text.IsDigit(t[0]) {
        JoinTextStep(t[0], rest);
      } else if rest[0] == [] && |rest| > 1 {
        JoinRunGrows(t[0], rest);
      } else {
        JoinRunStarts(t[0], rest);
      }
    }
  }

  lemma JoinTextStep(c: char, rest: seq<string>)
    requires |rest| > 0
    ensures Join([[c] + rest[0]] + rest[1..]) == [c] + Join(rest)
  {
    JoinCons([c] + rest[0], rest[1..]);
  }

  lemma JoinRunGrows(c: char, rest: seq<string>)
    requires |rest| > 1 && rest[0] == []
    ensures Join(["", [c] + rest[1]] + rest[2..]) == [c] + Join(rest)
  {
    var grown := [[c] + rest[1]] + rest[2..];
    assert rest[1..][1..] == rest[2..];
    JoinTextStep(c, rest[1..]);
    JoinCons("", grown);
    assert ["", [c] + rest[1]] + rest[2..] == [""] + grown;
  }

  lemma JoinRunStarts(c: char, rest: seq<string>)
    ensures Join(["", [c]] + rest) == [c] + Join(rest)
  {
    JoinCons([c], rest);
    JoinCons("", [[c]] + rest);
    assert ["", [c]] + rest == [""] + ([[c]] + rest);
  }

  lemma TextStep(c: char, rest: seq<string>)
    requires Alternation(rest) && !Text.IsDigit(c)
    ensures Alternation([[c] + rest[0]] + rest[1..])
  {
    var r := [[c] + rest[0]] + rest[1..];
    assert forall i :: 1 <= i < |r| ==> r[i] == rest[i];
  }

  lemma RunGrows(c: char, rest: seq<string>)
    requires Alternation(rest) && Text.IsDigit(c) && rest[0] == [] && |rest| > 1
    ensures Alternation(["", [c] + rest[1]] + rest[2..])
  {
    var r := ["", [c] + rest[1]] + rest[2..];
    assert forall i :: 2 <= i < |r| ==> r[i] == rest[i];
  }

  lemma RunStarts(c: char, rest: seq<string>)
    requires Alternation(rest) && Text.IsDigit(c) && (rest[0] != [] || |rest| == 1)
    ensures Alternation(["", [c]] + rest)
  {
    var r := ["", [c]] + rest;
    assert forall i :: 2 <= i < |r| ==> r[i] == rest[i - 2];
  }

  /** The parts have the shape `re.split` produces. */
  lemma {:induction false} SplitAlternates(t: string)
    ensures Alternation(Split(t))
    decreases |t|
  {
    if t != [] {
      var rest := Split(t[1..]);
      SplitAlternates(t[1..]);
      if !Text.IsDigit(t[0]) {
        TextStep(t[0], rest);
      } else if rest[0] == [] && |rest| > 1 {
        RunGrows(t[0], rest);
      } else {
        RunStarts(t[0], rest);
      }
    }
  }

  lemma {:induction false} JoinEmpty(parts: seq<string>)
    requires Join(parts) == []
    ensures forall i :: 0 <= i < |parts| ==> parts[i] == []
    decreases |parts|
  {
    if parts != [] {
      JoinEmpty(parts[1..]);
      assert forall i :: 1 <= i < |parts| ==> parts[i] == parts[1..][i - 1];
    }
  }

  /** `Split` is the only alternation that joins back to the text: any
      parts of that shape whose concatenation is `t` are `Split(t)`. */
  lemma {:induction false} SplitUnique(parts: seq<string>, t: string)
    requires Alternation(parts) && Join(parts) == t
    ensures parts == Split(t)
    decreases |t|
  {
    SplitAlternates(t);
    if t == [] {
      JoinEmpty(parts);
    } else if parts[0] != [] {
      var c := parts[0][0];
      var shorter := [parts[0][1..]] + parts[1..];
      assert parts == [parts[0]] + parts[1..];
      JoinCons(parts[0], parts[1..]);
      JoinCons(parts[0][1..], parts[1..]);
      assert parts[0] == [c] + parts[0][1..];
      assert t[0] == c && t[1..] == Join(shorter);
      assert !Text.IsDigit(c);
      TailAlternates(parts);
      SplitUnique(shorter, t[1..]);
      assert parts == [[c] + shorter[0]] + shorter[1..];
    } else {
      var run := parts[1];
      var c := run[0];
      assert parts == ["", run] + parts[2..];
      JoinCons(run, parts[2..]);
      JoinCons("", [run] + parts[2..]);
      assert [""] + ([run] + parts[2..]) == parts;
      assert run == [c] + run[1..];
      assert t[0] == c && Text.IsDigit(c);
      if |run| > 1 {
        var shorter := ["", run[1..]] + parts[2..];
        JoinCons(run[1..], parts[2..]);
        JoinCons("", [run[1..]] + parts[2..]);
        assert [""] + ([run[1..]] + parts[2..]) == shorter;
        assert t[1..] == Join(shorter);
        RunShortens(parts);
        SplitUnique(shorter, t[1..]);
        assert parts == ["", [c] + shorter[1]] + shorter[2..];
      } else {
        var shorter := parts[2..];
        assert run == [c];
        assert t[1..] == Join(shorter);
        DropTwo(parts);
        SplitUnique(shorter, t[1..]);
        assert shorter[0] != [] || |shorter| == 1;
      }
    }
  }

  lemma TailAlternates(parts: seq<string>)
    requires Alternation(parts) && parts[0] != []
    ensures Alternation([parts[0][1..]] + parts[1..])
  {
    var r := [parts[0][1..]] + parts[1..];
    assert forall i :: 1 <= i < |r| ==> r[i] == parts[i];
  }

  lemma RunShortens(parts: seq<string>)
    requires Alternation(parts) && |parts| > 1 && parts[0] == [] && |parts[1]| > 1
    ensures Alternation(["", parts[1][1..]] + parts[2..])
  {
    var r := ["", parts[1][1..]] + parts[2..];
    assert forall i :: 2 <= i < |r| ==> r[i] == parts[i];
  }

  lemma DropTwo(parts: seq<string>)
    requires Alternation(parts) && |parts| > 1
    ensures Alternation(parts[2..])
    ensures |parts| > 3 ==> parts[2] != []
  {
    var r := parts[2..];
    assert forall i :: 0 <= i < |r| ==> r[i] == parts[i + 2];
  }

  /** One element of a human sort key: Python's `int` or `str`. */
  datatype KeyPart = Txt(s: string) | Num(n: nat)

  /** `_atoi`: a non-empty digit run becomes its number; any other part
      stays text, lower-cased by `avbutils/sorting.py` (`lower`) and kept
      as is by `trtlib` (`str.isdigit()` is false for the empty string). */
  function Atoi(part: string, lower: bool): (r: KeyPart)
    ensures r.Num? <==> |part| > 0 && Text.AllDigits(part)
    ensures r.Txt? && !lower ==> r.s == part
    ensures r.Txt? && lower ==> r.s == Text.LowerStr(part)
  {
    if |part| > 0 && Text.AllDigits(part) then Num(Text.DecimalValue(part))
    else Txt(if lower then Text.LowerStr(part) else part)
  }

  function KeyOfParts(parts: seq<string>, lower: bool): (r: seq<KeyPart>)
    ensures |r| == |parts|
    ensures forall i :: 0 <= i < |parts| ==> r[i] == Atoi(parts[i], lower)
  {
    seq(|parts|, i requires 0 <= i < |parts| => Atoi(parts[i], lower))
  }

  /** `human_sort` of `avbutils/sorting.py`: the text pieces between digit
      runs, lower-cased, alternating with the runs' integer values. */
  function HumanSortKey(text: string): (r: seq<KeyPart>)
    ensures KeyShape(r)
    ensures |r| == |Split(text)|
    ensures forall i :: 0 <= i < |r| && i % 2 == 0 ==> r[i] == Txt(Text.LowerStr(Split(text)[i]))
    ensures forall i :: 0 <= i < |r| && i % 2 == 1 ==>
      Text.AllDigits(Split(text)[i]) && r[i] == Num(Text.DecimalValue(Split(text)[i]))
  {
    SplitAlternates(text);
    KeyOfPartsShape(Split(text), true);
    KeyOfParts(Split(text), true)
  }

  /** `human_sort` of `trtlib`, which keeps the case of text parts. */
  function TrtHumanSortKey(text: string): (r: seq<KeyPart>)
    ensures KeyShape(r)
    ensures |r| == |Split(text)|
    ensures forall i :: 0 <= i < |r| && i % 2 == 0 ==> r[i] == Txt(Split(text)[i])
    ensures forall i :: 0 <= i < |r| && i % 2 == 1 ==>
      Text.AllDigits(Split(text)[i]) && r[i] == Num(Text.DecimalValue(Split(text)[i]))
  {
    SplitAlternates(text);
    KeyOfPartsShape(Split(text), false);
    KeyOfParts(Split(text), false)
  }

  /** Every key alternates text and numbers, starting and ending with text. */
  predicate KeyShape(k: seq<KeyPart>) {
    && |k| % 2 == 1
    && forall i :: 0 <= i < |k| ==> (k[i].Num? <==> i % 2 == 1)
  }

  lemma KeyOfPartsShape(parts: seq<string>, lower: bool)
    requires Alternation(parts)
    ensures KeyShape(KeyOfParts(parts, lower))
  {
    forall i | 0 <= i < |parts| && i % 2 == 0
      ensures !(|parts[i]| > 0 && Text.AllDigits(parts[i]))
    {
      if |parts[i]| > 0 {
        assert !Text.IsDigit(parts[i][0]);
      }
    }
  }

  lemma HumanSortKeyShape(text: string)
    ensures KeyShape(HumanSortKey(text)) && KeyShape(TrtHumanSortKey(text))
  {
    SplitAlternates(text);
    KeyOfPartsShape(Split(text), true);
    KeyOfPartsShape(Split(text), false);
  }

  /** Two keys agree on the kind of part at every common index, so
      comparing them never sets an `int` against a `str`. */
  lemma KeysAligned(a: string, b: string, lower: bool)
    ensures var ka := KeyOfParts(Split(a), lower);
            var kb := KeyOfParts(Split(b), lower);
            forall i :: 0 <= i < |ka| && i < |kb| ==> ka[i].Num? == kb[i].Num?
  {
    SplitAlternates(a);
    SplitAlternates(b);
    KeyOfPartsShape(Split(a), lower);
    KeyOfPartsShape(Split(b), lower);
  }

  function LowerParts(parts: seq<string>): (r: seq<string>)
    ensures |r| == |parts|
    ensures forall i :: 0 <= i < |parts| ==> r[i] == Text.LowerStr(parts[i])
  {
    seq(|parts|, i requires 0 <= i < |parts| => Text.LowerStr(parts[i]))
  }

  lemma LowerConcat(a: string, b: string)
    ensures Text.LowerStr(a + b) == Text.LowerStr(a) + Text.LowerStr(b)
  {
  }

  lemma {:induction false} LowerJoin(parts: seq<string>)
    ensures Join(LowerParts(parts)) == Text.LowerStr(Join(parts))
    decreases |parts|
  {
    if parts != [] {
      LowerPartsCons(parts);
      assert parts == [parts[0]] + parts[1..];
      JoinCons(Text.LowerStr(parts[0]), LowerParts(parts[1..]));
      JoinCons(parts[0], parts[1..]);
      LowerJoin(parts[1..]);
      LowerConcat(parts[0], Join(parts[1..]));
    }
  }

  lemma LowerPartsCons(parts: seq<string>)
    requires parts != []
    ensures LowerParts(parts) == [Text.LowerStr(parts[0])] + LowerParts(parts[1..])
  {
    var lowered := LowerParts(parts);
    var tail := LowerParts(parts[1..]);
    assert lowered[1..] == tail by {
      forall i | 0 <= i < |tail|
        ensures lowered[1..][i] == tail[i]
      {
        assert parts[1..][i] == parts[i + 1];
      }
    }
    assert lowered == [lowered[0]] + lowered[1..];
  }

  lemma LowerKeepsDigits(s: string)
    ensures Text.AllDigits(Text.LowerStr(s)) <==> Text.AllDigits(s)
    ensures Text.NoDigits(Text.LowerStr(s)) <==> Text.NoDigits(s)
    ensures Text.AllDigits(s) ==> Text.LowerStr(s) == s
  {
  }

  /** Lower-casing the text before splitting it is the same as lower-casing
      each part after. */
  lemma SplitLower(t: string)
    ensures Split(Text.LowerStr(t)) == LowerParts(Split(t))
  {
    var parts := Split(t);
    SplitAlternates(t);
    SplitJoin(t);
    forall i | 0 <= i < |parts|
      ensures Text.AllDigits(Text.LowerStr(parts[i])) <==> Text.AllDigits(parts[i])
      ensures Text.NoDigits(Text.LowerStr(parts[i])) <==> Text.NoDigits(parts[i])
    {
      LowerKeepsDigits(parts[i]);
    }
    LowerJoin(parts);
    SplitUnique(LowerParts(parts), Text.LowerStr(t));
  }

  lemma AtoiOfLower(part: string)
    ensures Atoi(Text.LowerStr(part), true) == Atoi(part, true)
  {
    LowerKeepsDigits(part);
    var twice := Text.LowerStr(Text.LowerStr(part));
    forall i | 0 <= i < |part|
      ensures twice[i] == Text.LowerStr(part)[i]
    {
      Text.LowerIdempotent(part[i]);
    }
  }

  /** The key of `avbutils/sorting.py` ignores letter case: texts that
      lower-case to the same string get the same key. */
  lemma HumanSortIgnoresCase(a: string, b: string)
    requires Text.LowerStr(a) == Text.LowerStr(b)
    ensures HumanSortKey(a) == HumanSortKey(b)
  {
    LowerKeyIs(a);
    LowerKeyIs(b);
  }

  lemma LowerKeyIs(t: string)
    ensures HumanSortKey(Text.LowerStr(t)) == HumanSortKey(t)
  {
    SplitLower(t);
    var parts := Split(t);
    forall i | 0 <= i < |parts|
      ensures Atoi(LowerParts(parts)[i], true) == Atoi(parts[i], true)
    {
      AtoiOfLower(parts[i]);
    }
  }

  /** Python's `<` between two parts at the same index of two keys. Parts
      of different kinds are never compared (`KeysAligned`); they get an
      arbitrary order here so that the order is total. */
  predicate PartLess(a: KeyPart, b: KeyPart) {
    match (a, b)
    case (Num(x), Num(y)) => x < y
    case (Txt(x), Txt(y)) => Order.StrLess(x, y)
    case (Txt(_), Num(_)) => true
    case (Num(_), Txt(_)) => false
  }

  lemma PartLessStrictTotal()
    ensures Order.StrictTotal(PartLess)
  {
    Order.CharLessStrictTotal();
    forall a: KeyPart | a.Txt? ensures !PartLess(a, a) {
      Order.LexIrreflexive(a.s, Order.CharLess);
    }
    forall a: KeyPart, b: KeyPart, c: KeyPart | a.Txt? && b.Txt? && c.Txt? && PartLess(a, b) && PartLess(b, c)
      ensures PartLess(a, c)
    {
      Order.LexTransitive(a.s, b.s, c.s, Order.CharLess);
    }
    forall a: KeyPart, b: KeyPart | a.Txt? && b.Txt?
      ensures a == b || PartLess(a, b) || PartLess(b, a)
    {
      Order.LexTotal(a.s, b.s, Order.CharLess);
    }
  }

  /** Python's `<` on two human sort keys (lists). */
  predicate KeyLess(a: seq<KeyPart>, b: seq<KeyPart>) {
    Order.LexLess(a, b, PartLess)
  }

  /** The key of a text that splits into one digit run between two empty
      texts. */
  lemma JoinThree(a: string, b: string, c: string)
    ensures Join([a, b, c]) == a + b + c
  {
    JoinCons(c, []);
    JoinCons(b, [c]);
    JoinCons(a, [b, c]);
    assert [a] + [b, c] == [a, b, c] && [b] + [c] == [b, c] && [c] + [] == [c];
  }

  /** Text, one digit run, text: the shape `re.split` gives around a
      single run of digits. */
  lemma AlternationThree(a: string, run: string, b: string)
    requires Text.NoDigits(a) && |run| > 0 && Text.AllDigits(run) && Text.NoDigits(b)
    ensures Alternation([a, run, b])
  {
    var parts := [a, run, b];
    forall i | 0 <= i < 3 && i % 2 == 0
      ensures Text.NoDigits(parts[i])
    {
      if i != 0 {
        assert i == 2;
      }
    }
    forall i | 0 <= i < 3 && i % 2 == 1
      ensures |parts[i]| > 0 && Text.AllDigits(parts[i])
    {
      assert i == 1;
    }
  }

  lemma RunKey(t: string, lower: bool)
    requires |t| > 0 && Text.AllDigits(t)
    ensures KeyOfParts(Split(t), lower) == [Txt(""), Num(Text.DecimalValue(t)), Txt("")]
  {
    var none: string := "";
    AlternationThree(none, t, none);
    ThreePartKey(none, t, none, lower);
    assert none + t + none == t;
    assert Text.LowerStr(none) == none;
  }

  lemma KeyLessStrictTotal()
    ensures Order.StrictTotal(KeyLess)
  {
    PartLessStrictTotal();
    forall a: seq<KeyPart> ensures !KeyLess(a, a) {
      Order.LexIrreflexive(a, PartLess);
    }
    forall a: seq<KeyPart>, b: seq<KeyPart>, c: seq<KeyPart> | KeyLess(a, b) && KeyLess(b, c)
      ensures KeyLess(a, c)
    {
      Order.LexTransitive(a, b, c, PartLess);
    }
    forall a: seq<KeyPart>, b: seq<KeyPart> ensures a == b || KeyLess(a, b) || KeyLess(b, a) {
      Order.LexTotal(a, b, PartLess);
    }
  }

  /** "9" sorts before "10" by key, although as plain strings "10" comes
      first. */
  lemma NineBeforeTen()
    ensures KeyLess(HumanSortKey("9"), HumanSortKey("10"))
    ensures KeyLess(TrtHumanSortKey("9"), TrtHumanSortKey("10"))
    ensures Order.StrLess("10", "9")
  {
    RunKey("9", true);
    RunKey("9", false);
    RunKey("10", true);
    RunKey("10", false);
    assert Text.DecimalValue("9") == 9 by {
      assert "9"[..0] == "";
    }
    assert Text.DecimalValue("10") == 10 by {
      assert "10"[..1] == "1";
      assert "1"[..0] == "";
    }
    var nine := [Txt(""), Num(9), Txt("")];
    var ten := [Txt(""), Num(10), Txt("")];
    assert nine[1..] == [Num(9), Txt("")] && ten[1..] == [Num(10), Txt("")];
    assert KeyLess(nine, ten);
  }

  /** The key of a text made of text, one digit run, then text. */
  lemma ThreePartKey(a: string, run: string, b: string, lower: bool)
    requires Alternation([a, run, b])
    ensures KeyOfParts(Split(a + run + b), lower) == [Atoi(a, lower), Atoi(run, lower), Atoi(b, lower)]
  {
    JoinThree(a, run, b);
    SplitUnique([a, run, b], a + run + b);
  }

  /** Zeros in front of a digit run do not change the key: the run is
      compared as a number. */
  lemma ZeroPaddingIgnored(a: string, zeros: string, run: string, lower: bool)
    requires Text.NoDigits(a)
    requires forall i :: 0 <= i < |zeros| ==> zeros[i] == '0'
    requires |run| > 0 && Text.AllDigits(run)
    ensures KeyOfParts(Split(a + (zeros + run)), lower) == KeyOfParts(Split(a + run), lower)
  {
    Text.LeadingZerosVanish(zeros, run);
    AlternationThree(a, zeros + run, "");
    AlternationThree(a, run, "");
    ThreePartKey(a, zeros + run, "", lower);
    ThreePartKey(a, run, "", lower);
    assert a + (zeros + run) + "" == a + (zeros + run);
    assert a + run + "" == a + run;
  }

  /** Leading zeros and case vanish: "A007" and "a7" get the same key. */
  lemma LeadingZerosIgnored()
    ensures HumanSortKey("A007") == HumanSortKey("a7")
  {
    ZeroPaddingIgnored("A", "00", "7", true);
    assert "A" + ("00" + "7") == "A007" && "A" + "7" == "A7";
    assert Text.LowerStr("A7") == "a7" == Text.LowerStr("a7");
    HumanSortIgnoresCase("A7", "a7");
  }

  /** The `trtlib` key keeps letter case, where the `avbutils` key drops it. */
  lemma TrtKeepsCase()
    ensures TrtHumanSortKey("A") != TrtHumanSortKey("a")
    ensures HumanSortKey("A") == HumanSortKey("a")
  {
    SplitUnique(["A"], "A");
    SplitUnique(["a"], "a");
    assert Text.LowerStr("A") == Text.LowerStr("a");
    HumanSortIgnoresCase("A", "a");
  }

  /** Index i is what `sorted(xs, key, reverse=True)[0]` returns: its key
      is maximal, and every earlier element has a smaller key (the sort is
      stable, so among equal keys the first one stays in front). */
  ghost predicate IsLatest<K>(keys: seq<K>, i: nat, less: (K, K) -> bool) {
    && i < |keys|
    && (forall j :: 0 <= j < |keys| ==> !less(keys[i], keys[j]))
    && (forall j :: 0 <= j < i ==> less(keys[j], keys[i]))
  }

  /** The first element of a descending stable sort, found in one pass;
      an empty input is the `IndexError` the callers turn into
      "No sequences found in bin". */
  method Latest<K(!new)>(keys: seq<K>, less: (K, K) -> bool) returns (r: Res<nat>)
    requires Order.StrictTotal(less)
    ensures r.Err? <==> keys == []
    ensures r.Err? ==> r.error == NoSequences
    ensures r.Ok? ==> r.value < |keys|
    ensures r.Ok? ==> forall j :: 0 <= j < |keys| ==> !less(keys[r.value], keys[j])
    ensures r.Ok? ==> forall j :: 0 <= j < r.value ==> less(keys[j], keys[r.value])
  {
    if keys == [] {
      return Err(NoSequences);
    }
    var best := 0;
    var i := 1;
    while i < |keys|
      invariant 0 <= best < i <= |keys|
      invariant forall j :: 0 <= j < i ==> !less(keys[best], keys[j])
      invariant forall j :: 0 <= j < best ==> less(keys[j], keys[best])
    {
      if less(keys[best], keys[i]) {
        best := i;
      }
      i := i + 1;
    }
    return Ok(best);
  }

  function TrtKeys(names: seq<string>): (r: seq<seq<KeyPart>>)
    ensures |r| == |names|
    ensures forall i :: 0 <= i < |names| ==> r[i] == TrtHumanSortKey(names[i])
  {
    seq(|names|, i requires 0 <= i < |names| => TrtHumanSortKey(names[i]))
  }

  /** `get_reelinfo_from_path` of `trtlib`: the sequence whose name has the
      greatest `human_sort` key, the first such one on a tie. */
  method LatestByName(names: seq<string>) returns (r: Res<nat>)
    ensures r.Err? <==> names == []
    ensures r.Err? ==> r.error == NoSequences
    ensures r.Ok? ==> IsLatest(TrtKeys(names), r.value, KeyLess)
  {
    KeyLessStrictTotal();
    r := Latest(TrtKeys(names), KeyLess);
  }

  /** A top-level sequence of a bin, with the fields a sort lambda reads;
      datetimes are modelled as integer timestamps. */
  datatype BinEntry = BinEntry(name: string, creationTime: int, lastModified: int)

  /** The value a sort lambda returns. */
  datatype SortValue = Time(t: int) | Label(s: string)

  function FieldOf(field: SortField, e: BinEntry): (v: SortValue)
    ensures field == Name <==> v.Label?
  {
    match field
    case CreationTime => Time(e.creationTime)
    case LastModified => Time(e.lastModified)
    case Name => Label(e.name)
  }

  /** `<` on sort values: numbers by value, names as Python strings. The
      two kinds never meet, since one sort reads one field. */
  predicate ValueLess(a: SortValue, b: SortValue) {
    match (a, b)
    case (Time(x), Time(y)) => x < y
    case (Label(x), Label(y)) => Order.StrLess(x, y)
    case (Time(_), Label(_)) => true
    case (Label(_), Time(_)) => false
  }

  lemma ValueLessStrictTotal()
    ensures Order.StrictTotal(ValueLess)
  {
    Order.CharLessStrictTotal();
    forall a: SortValue | a.Label? ensures !ValueLess(a, a) {
      Order.LexIrreflexive(a.s, Order.CharLess);
    }
    forall a: SortValue, b: SortValue, c: SortValue | a.Label? && b.Label? && c.Label? && ValueLess(a, b) && ValueLess(b, c)
      ensures ValueLess(a, c)
    {
      Order.LexTransitive(a.s, b.s, c.s, Order.CharLess);
    }
    forall a: SortValue, b: SortValue | a.Label? && b.Label?
      ensures a == b || ValueLess(a, b) || ValueLess(b, a)
    {
      Order.LexTotal(a.s, b.s, Order.CharLess);
    }
  }

  function FieldValues(field: SortField, entries: seq<BinEntry>): (r: seq<SortValue>)
    ensures |r| == |entries|
    ensures forall i :: 0 <= i < |entries| ==> r[i] == FieldOf(field, entries[i])
  {
    seq(|entries|, i requires 0 <= i < |entries| => FieldOf(field, entries[i]))
  }

  /** `get_reel_info_from_path` of `examples/get_trts.py`: sort the bin's
      sequences by the chosen lambda, descending, and take the first. An
      empty bin is reported before the key is ever called; an unknown
      choice makes the key a `ValueError` object, which fails as soon as
      it is called. */
  method LatestBy(entries: seq<BinEntry>, choice: int) returns (r: Res<nat>)
    ensures entries == [] ==> r == Err(NoSequences)
    ensures entries != [] && GetSortLambda(choice).ErrorValue? ==> r == Err(KeyNotCallable)
    ensures r.Ok? <==> entries != [] && GetSortLambda(choice).KeyOf?
    ensures r.Ok? ==> IsLatest(FieldValues(GetSortLambda(choice).field, entries), r.value, ValueLess)
  {
    if entries == [] {
      return Err(NoSequences);
    }
    match GetSortLambda(choice)
    case ErrorValue(_) =>
      return Err(KeyNotCallable);
    case KeyOf(field) =>
      ValueLessStrictTotal();
      r := Latest(FieldValues(field, entries), ValueLess);
  }
}

=== FILE: sourcerefs.dfy ===
/** The settled source-reference walk of `avbutils/sourcerefs.py`: peel the
    structural wrappers off a component (`resolve_base_component_from_component`),
    then follow SourceClip references from mob to mob, carrying a frame
    offset (`source_references_for_component`), and classify the chain into
    file and physical sources. */
module SourceRefs {
  import opened Wrappers
  import opened Avb
  import opened Compositions
  import opened Chains
  import Selection
  import Text

  /** `Timecode.resample(rate=...)` of the timecode library, which is not
      part of this model: (frames, current rate, new rate) to frames. */
  type Resampler = (int, int, int) -> int

  /** A timecode: a frame number at an integer rate. */
  datatype Offset = Offset(frames: int, rate: int)

  /** The `offset` argument, a bare int or a Timecode. */
  datatype OffsetArg = Frames(n: int) | At(tc: Offset)

  /** `SourceMobRole`: the descriptor's `mob_kind`. */
  datatype SourceMobRole = Essence | Tape | Film | Soundroll | SourceFile {

    function Code(): int {
      match this
      case Essence => 1
      case Tape => 2
      case Film => 3
      case Soundroll => 4
      case SourceFile => 5
    }

    function Name(): string {
      match this
      case Essence => "ESSENCE"
      case Tape => "TAPE"
      case Film => "FILM"
      case Soundroll => "SOUNDROLL"
      case SourceFile => "SOURCE_FILE"
    }

    /** `__str__` */
    function Str(): string {
      Text.Pretty(Name())
    }
  }

  /** `SourceMobRole.from_descriptor`: `mob_kind` 1 to 5, anything else raises. */
  function DecodeSourceMobRole(mobKind: int): (r: Res<SourceMobRole>)
    ensures r.Ok? <==> 1 <= mobKind <= 5
    ensures r.Ok? ==> r.value.Code() == mobKind
    ensures r.Err? ==> r.error == UnknownSourceRole(mobKind)
  {
    match mobKind
    case 1 => Ok(Essence)
    case 2 => Ok(Tape)
    case 3 => Ok(Film)
    case 4 => Ok(Soundroll)
    case 5 => Ok(SourceFile)
    case _ => Err(UnknownSourceRole(mobKind))
  }

  /** `SourceMobRole.from_composition`: only a source mob that has a
      descriptor has a role; an undecodable type code raises first. */
  function SourceMobRoleOf(mob: Mob): (r: Res<SourceMobRole>)
    ensures r.Ok? <==> mob.typeCode == 3 && mob.descriptor.Some? && 1 <= mob.descriptor.value.mobKind <= 5
    ensures r.Ok? ==> r.value.Code() == mob.descriptor.value.mobKind
    ensures mob.typeCode !in MobTypeCodes ==> r == Err(UnknownMobType(mob.typeCode))
    ensures mob.typeCode in MobTypeCodes && (mob.typeCode != 3 || mob.descriptor.None?) ==> r == Err(NotASourceMob)
  {
    var t :- MobTypeOf(mob);
    if t != SourceMob || mob.descriptor.None? then Err(NotASourceMob)
    else DecodeSourceMobRole(mob.descriptor.value.mobKind)
  }

  /** The offset normalisation that opens both walks: a bare int becomes a
      timecode at the component's rounded rate, and a timecode at another
      rate is resampled to it. */
  function Normalize(arg: OffsetArg, rate: int, resample: Resampler): (o: Offset)
    ensures o.rate == rate
    ensures arg.Frames? ==> o.frames == arg.n
    ensures arg.At? && arg.tc.rate == rate ==> o == arg.tc
    ensures arg.At? && arg.tc.rate != rate ==> o.frames == resample(arg.tc.frames, arg.tc.rate, rate)
  {
    match arg
    case Frames(n) => Offset(n, rate)
    case At(tc) => if tc.rate == rate then tc else Offset(resample(tc.frames, tc.rate, rate), rate)
  }

  /** pyavb's `Sequence.nearest_component_at_time` is not part of this
      model; it is taken to return the last member below position k that
      starts at or before frame t, and None when there is none. Members are
      placed as the marker walk places them, a transition overlapping the
      member before it (`Avb.ItemPosition`). */
  function NearestBelow(cs: seq<Component>, t: int, k: nat): (r: Option<nat>)
    requires k <= |cs|
    ensures r.Some? ==> r.value < k && ItemPosition(cs, r.value, 0) <= t
    ensures r.Some? ==> forall j :: r.value < j < k ==> ItemPosition(cs, j, 0) > t
    ensures r.None? ==> forall j :: 0 <= j < k ==> ItemPosition(cs, j, 0) > t
  {
    if k == 0 then None
    else if ItemPosition(cs, k - 1, 0) <= t then Some(k - 1)
    else NearestBelow(cs, t, k - 1)
  }

  /** A transition between two clips starts its own length before the
      first clip ends, and the clip after it starts there too: the two
      clips overlap by the transition's length. */
  lemma TransitionOverlap(a: Component, t: Component, b: Component)
    requires !IsTransition(a) && IsTransition(t) && !IsTransition(b)
    ensures ItemPosition([a, t, b], 1, 0) == a.length - t.length
    ensures ItemPosition([a, t, b], 2, 0) == a.length - t.length
  {
    var cs := [a, t, b];
    assert Lengths(cs, 1, false) == a.length && Lengths(cs, 1, true) == 0;
    assert Lengths(cs, 2, false) == a.length && Lengths(cs, 2, true) == t.length;
  }

  function Nearest(cs: seq<Component>, t: int): Option<nat> {
    NearestBelow(cs, t, |cs|)
  }

  /** A single-track EssenceGroup or TrackEffect, or a Track carrying a
      component: the wrappers the walk looks straight through. */
  predicate Transparent(c: Component) {
    || (c.body.TrackGroup? && (c.body.group.TrackEffect? || c.body.group.EssenceGroup?) && |c.body.tracks| == 1)
    || (c.body.TrackNode? && c.body.track.component.Some?)
  }

  /** The component a transparent wrapper wraps, if it has one. */
  function Inner(c: Component): Option<Component>
    requires Transparent(c)
  {
    if c.body.TrackNode? then c.body.track.component else c.body.tracks[0].component
  }

  /** x can be reached from c through transparent wrappers and at most one
      sequence step, which must be the last. */
  predicate Reaches(c: Component, x: Component)
    decreases c
  {
    || x == c
    || (c.body.Sequence? && x in c.body.components)
    || (c.body.TrackGroup? && (c.body.group.TrackEffect? || c.body.group.EssenceGroup?) && |c.body.tracks| == 1
        && c.body.tracks[0].component.Some? && Reaches(c.body.tracks[0].component.value, x))
    || (c.body.TrackNode? && c.body.track.component.Some? && Reaches(c.body.track.component.value, x))
  }

  datatype Leaf = Leaf(component: Component, offset: Offset)

  /** `resolve_base_component_from_component`. A Sequence is stepped once
      into the member at the offset, whose start is subtracted; the
      resample of that branch is discarded, so the offset keeps the
      sequence's rate. A transparent wrapper is looked through with the
      offset unchanged. Everything else is the leaf. */
  function ResolveBase(c: Component, arg: OffsetArg, resample: Resampler): (r: Res<Leaf>)
    ensures r.Ok? ==> Reaches(c, r.value.component)
    ensures c.body.Sequence? && r.Ok? ==>
      r.value.component in c.body.components && r.value.offset.rate == Rounded(c.rate)
      && r.value.offset.frames >= 0
    ensures c.body.Sequence? && r.Err? ==> r.error == NoComponentAtTime(Normalize(arg, Rounded(c.rate), resample).frames)
    ensures !c.body.Sequence? && !Transparent(c) ==> r == Ok(Leaf(c, Normalize(arg, Rounded(c.rate), resample)))
    decreases c
  {
    var offset := Normalize(arg, Rounded(c.rate), resample);
    match c.body
    case Sequence(cs) =>
      (match Nearest(cs, offset.frames)
       case None => Err(NoComponentAtTime(offset.frames))
       case Some(k) => Ok(Leaf(cs[k], Offset(offset.frames - ItemPosition(cs, k, 0), offset.rate))))
    case TrackGroup(g, ts) =>
      if (g.TrackEffect? || g.EssenceGroup?) && |ts| == 1 then
        (match ts[0].component
         case None => Err(MissingComponent)
         case Some(inner) => ResolveBase(inner, At(offset), resample))
      else
        Ok(Leaf(c, offset))
    case TrackNode(t) =>
      (match t.component
       case Some(inner) => ResolveBase(inner, At(offset), resample)
       case None => Ok(Leaf(c, offset)))
    case _ => Ok(Leaf(c, offset))
  }

  /** A Sequence fails exactly when every member starts after the offset;
      otherwise it steps into the last member starting at or before it, at
      the offset less that member's start, keeping the sequence's rate. */
  lemma ResolveSequence(c: Component, arg: OffsetArg, resample: Resampler)
    requires c.body.Sequence?
    ensures var r := ResolveBase(c, arg, resample);
      var o := Normalize(arg, Rounded(c.rate), resample);
      var cs := c.body.components;
      && (r.Err? <==> forall j :: 0 <= j < |cs| ==> ItemPosition(cs, j, 0) > o.frames)
      && (r.Ok? ==> exists k :: 0 <= k < |cs| && ItemPosition(cs, k, 0) <= o.frames
                      && (forall j :: k < j < |cs| ==> ItemPosition(cs, j, 0) > o.frames)
                      && r.value == Leaf(cs[k], Offset(o.frames - ItemPosition(cs, k, 0), o.rate)))
  {
    var o := Normalize(arg, Rounded(c.rate), resample);
    var cs := c.body.components;
    match Nearest(cs, o.frames)
    case None =>
    case Some(k) =>
      assert ResolveBase(c, arg, resample).value == Leaf(cs[k], Offset(o.frames - ItemPosition(cs, k, 0), o.rate));
  }

  /** A transparent wrapper is looked through with the normalised offset;
      one without an inner component raises. */
  lemma ResolveTransparent(c: Component, arg: OffsetArg, resample: Resampler)
    requires Transparent(c)
    ensures ResolveBase(c, arg, resample) ==
      (if Inner(c).None? then Err(MissingComponent)
       else ResolveBase(Inner(c).value, At(Normalize(arg, Rounded(c.rate), resample)), resample))
  {
  }

  /** The offset is normalised before anything else: only its value at the
      component's rounded rate matters. */
  lemma NormalizationFirst(c: Component, arg: OffsetArg, resample: Resampler)
    ensures ResolveBase(c, arg, resample) == ResolveBase(c, At(Normalize(arg, Rounded(c.rate), resample)), resample)
  {
  }

  /** Resolving a leaf that is neither a Sequence nor transparent again only
      re-normalises its offset: one round of unwrapping is complete except
      for the one-level sequence step. */
  lemma ResolveSettled(c: Component, arg: OffsetArg, resample: Resampler)
    requires ResolveBase(c, arg, resample).Ok?
    ensures var l := ResolveBase(c, arg, resample).value;
      !l.component.body.Sequence? && !Transparent(l.component) ==>
        ResolveBase(l.component, At(l.offset), resample) == Ok(Leaf(l.component, Normalize(At(l.offset), Rounded(l.component.rate), resample)))
  {
  }

  /** A chain entry can be followed: a SourceClip whose track resolves. */
  predicate Followable(table: MobTable, c: Component) {
    TargetTrack(table, c).Some?
  }

  /** One hop: resolve the referenced track's component at
      `start_time + offset`. */
  function Hop(table: MobTable, l: Leaf, resample: Resampler): Res<Leaf>
    requires Followable(table, l.component)
  {
    var t := TargetTrack(table, l.component).value;
    match t.component
    case None => Err(MissingComponent)
    case Some(inner) => ResolveBase(inner, At(Offset(l.component.body.startTime + l.offset.frames, l.offset.rate)), resample)
  }

  /** What the walk yields: the chain's leaves and how it ended. */
  type LeafTrace = Trace<Leaf, Failure>

  /** The walk's step: a followable leaf hops, any other ends the chain. */
  function HopStep(table: MobTable, resample: Resampler): Chains.Step<Leaf, Failure> {
    (l: Leaf) => if Followable(table, l.component) then Some(Hop(table, l, resample)) else None
  }

  /** The reference chain from a resolved leaf, with at most `fuel` hops
      (the source has no bound): yield the entry, then resolve the next. */
  function Chain(table: MobTable, l: Leaf, resample: Resampler, fuel: nat): (r: LeafTrace)
    ensures |r.refs| <= fuel
    ensures forall k :: 0 <= k < |r.refs| ==> Followable(table, r.refs[k].component)
  {
    var r := Follow(HopStep(table, resample), l, fuel);
    assert forall k :: 0 <= k < |r.refs| ==> HopStep(table, resample)(r.refs[k]).Some?;
    r
  }

  /** A chain starts at the resolved leaf and each entry is the hop of the
      one before. */
  lemma ChainLinked(table: MobTable, l: Leaf, resample: Resampler, fuel: nat)
    ensures var r := Chain(table, l, resample, fuel);
      && (|r.refs| > 0 ==> r.refs[0] == l)
      && (forall k :: 0 <= k < |r.refs| - 1 ==> Hop(table, r.refs[k], resample) == Ok(r.refs[k + 1]))
  {
    var r := Chain(table, l, resample, fuel);
    FollowLinked(HopStep(table, resample), l, fuel);
    forall k | 0 <= k < |r.refs| - 1
      ensures Hop(table, r.refs[k], resample) == Ok(r.refs[k + 1])
    {
      assert HopStep(table, resample)(r.refs[k]) == Some(Ok(r.refs[k + 1]));
    }
  }

  /** The leaf the walk looks at after yielding `refs`. */
  function AfterChain(table: MobTable, start: Leaf, refs: seq<Leaf>, resample: Resampler): Res<Leaf>
    requires forall k :: 0 <= k < |refs| ==> Followable(table, refs[k].component)
  {
    if refs == [] then Ok(start) else Hop(table, refs[|refs| - 1], resample)
  }

  /** Whether the walk ends at the leaf after its chain: silently at an
      unfollowable leaf, with a failed hop's exception, or (only when the
      bound is used up) as too deep. */
  predicate EndsAt(table: MobTable, after: Res<Leaf>, stop: Stop<Failure>) {
    match stop
    case Finished => after.Ok? && !Followable(table, after.value.component)
    case Failed(e) => after == Err(e)
    case TooDeep => after.Ok? && Followable(table, after.value.component)
  }

  /** How a chain ends is read off the leaf after its last entry, and it
      is too deep only when it used the whole bound. */
  lemma ChainStop(table: MobTable, l: Leaf, resample: Resampler, fuel: nat)
    ensures var r := Chain(table, l, resample, fuel);
      && EndsAt(table, AfterChain(table, l, r.refs, resample), r.stop)
      && (r.stop == TooDeep ==> |r.refs| == fuel)
  {
    var step := HopStep(table, resample);
    var r := Chain(table, l, resample, fuel);
    FollowStop(step, l, fuel);
    var after := AfterChain(table, l, r.refs, resample);
    assert Chains.After(step, l, r.refs) == after by {
      if r.refs != [] {
        assert step(r.refs[|r.refs| - 1]) == Some(Hop(table, r.refs[|r.refs| - 1], resample));
      }
    }
    if after.Ok? {
      assert step(after.value).Some? <==> Followable(table, after.value.component);
    }
  }

  /** `source_references_for_component`: normalise the offset to the
      component's rate, resolve the base component, then walk the chain. */
  function SourceReferences(table: MobTable, c: Component, arg: OffsetArg, resample: Resampler, fuel: nat): (r: LeafTrace)
    ensures ResolveBase(c, arg, resample).Err? ==> r == Trace([], Failed(ResolveBase(c, arg, resample).error))
    ensures ResolveBase(c, arg, resample).Ok? ==> r == Chain(table, ResolveBase(c, arg, resample).value, resample, fuel)
  {
    NormalizationFirst(c, arg, resample);
    match ResolveBase(c, At(Normalize(arg, Rounded(c.rate), resample)), resample)
    case Err(e) => Trace([], Failed(e))
    case Ok(l) => Chain(table, l, resample, fuel)
  }

  /** More fuel never changes a chain that ended within the bound. */
  lemma ChainFuelIrrelevant(table: MobTable, l: Leaf, resample: Resampler, fuel: nat, more: nat)
    requires Chain(table, l, resample, fuel).stop != TooDeep
    requires fuel <= more
    ensures Chain(table, l, resample, more) == Chain(table, l, resample, fuel)
  {
    FollowFuelIrrelevant(HopStep(table, resample), l, fuel, more);
  }

  /** With more fuel the chain only grows: a shorter bound yields a prefix. */
  lemma ChainFuelPrefix(table: MobTable, l: Leaf, resample: Resampler, fuel: nat, more: nat)
    requires fuel <= more
    ensures Chain(table, l, resample, fuel).refs <= Chain(table, l, resample, more).refs
  {
    FollowFuelPrefix(HopStep(table, resample), l, fuel, more);
  }

  /** The role of a chain entry's mob, as the file and physical filters
      see it. */
  datatype RefClass = NotSource | EssenceSource | PhysicalSource(role: SourceMobRole)

  /** The filters' test: `MobTypes.from_composition(mob) == SOURCE_MOB and
      SourceMobRole.from_composition(mob) ...`; the `and` skips the role of
      a mob that is no source mob. */
  function ClassifyRef(table: MobTable, l: Leaf): (r: Res<RefClass>)
    ensures r.Ok? ==> l.component.body.SourceClip? && l.component.body.mobId in table
    ensures Followable(table, l.component) ==>
      var mob := table[l.component.body.mobId];
      && (r.Ok? <==> (mob.typeCode in {1, 2} || SourceMobRoleOf(mob).Ok?))
      && (r == Ok(NotSource) <==> mob.typeCode in {1, 2})
      && (r == Ok(EssenceSource) <==> SourceMobRoleOf(mob) == Ok(Essence))
      && (r.Ok? && r.value.PhysicalSource? <==> SourceMobRoleOf(mob).Ok? && SourceMobRoleOf(mob).value != Essence)
  {
    if !l.component.body.SourceClip? || l.component.body.mobId !in table then Err(MobNotFound)
    else
      var mob := table[l.component.body.mobId];
      var t :- MobTypeOf(mob);
      if t != SourceMob then Ok(NotSource)
      else
        var role :- SourceMobRoleOf(mob);
        Ok(if role == Essence then EssenceSource else PhysicalSource(role))
  }

  function IsFileRef(table: MobTable, l: Leaf): Res<bool> {
    var cls :- ClassifyRef(table, l);
    Ok(cls == EssenceSource)
  }

  function IsPhysicalRef(table: MobTable, l: Leaf): Res<bool> {
    var cls :- ClassifyRef(table, l);
    Ok(cls.PhysicalSource?)
  }

  function FileSelection(table: MobTable, refs: seq<Leaf>): Selection.Selection {
    Selection.Select(refs, (l: Leaf) => IsFileRef(table, l))
  }

  function PhysicalSelection(table: MobTable, refs: seq<Leaf>): Selection.Selection {
    Selection.Select(refs, (l: Leaf) => IsPhysicalRef(table, l))
  }

  /** A filter over a chain: the kept entries in chain order; a raising test
      ends it, otherwise it ends as the chain did. */
  function Filtered(refs: seq<Leaf>, stop: Stop<Failure>, sel: Selection.Selection): LeafTrace
    requires forall k :: 0 <= k < |sel.indices| ==> sel.indices[k] < |refs|
  {
    Trace(Selection.Pick(refs, sel.indices), if sel.failure.Some? then Failed(sel.failure.value) else stop)
  }

  /** `file_references_for_component`: the entries whose mob is an essence
      source mob. */
  function FileReferences(table: MobTable, c: Component, resample: Resampler, fuel: nat): (r: LeafTrace)
    ensures var all := SourceReferences(table, c, Frames(0), resample, fuel);
      forall k :: 0 <= k < |r.refs| ==> r.refs[k] in all.refs && ClassifyRef(table, r.refs[k]) == Ok(EssenceSource)
  {
    var all := SourceReferences(table, c, Frames(0), resample, fuel);
    var sel := FileSelection(table, all.refs);
    Filtered(all.refs, all.stop, sel)
  }

  /** `physical_references_for_component`: the entries whose mob is a
      source mob of any other role. */
  function PhysicalReferences(table: MobTable, c: Component, resample: Resampler, fuel: nat): (r: LeafTrace)
    ensures var all := SourceReferences(table, c, Frames(0), resample, fuel);
      forall k :: 0 <= k < |r.refs| ==>
        r.refs[k] in all.refs && ClassifyRef(table, r.refs[k]).Ok? && ClassifyRef(table, r.refs[k]).value.PhysicalSource?
  {
    var all := SourceReferences(table, c, Frames(0), resample, fuel);
    var sel := PhysicalSelection(table, all.refs);
    Filtered(all.refs, all.stop, sel)
  }

  /** The two filters split the source mobs of a chain: every entry whose
      mob is a source mob is kept by exactly one of them, no other entry by
      either, and both keep chain order. A raising test stops both at the
      same entry with the same exception. */
  lemma FilePhysicalPartition(table: MobTable, refs: seq<Leaf>)
    ensures var f := FileSelection(table, refs);
      var p := PhysicalSelection(table, refs);
      && f.cut == p.cut && f.failure == p.failure
      && Selection.Increasing(f.indices) && Selection.Increasing(p.indices)
      && forall j :: 0 <= j < f.cut ==>
        ClassifyRef(table, refs[j]).Ok?
        && (j in f.indices <==> ClassifyRef(table, refs[j]) == Ok(EssenceSource))
        && (j in p.indices <==> ClassifyRef(table, refs[j]).value.PhysicalSource?)
  {
    var f := FileSelection(table, refs);
    var p := PhysicalSelection(table, refs);
    var fileTest := (l: Leaf) => IsFileRef(table, l);
    var physTest := (l: Leaf) => IsPhysicalRef(table, l);
    assert forall j :: 0 <= j < |refs| ==> (fileTest(refs[j]).Err? <==> physTest(refs[j]).Err?);
    forall j | 0 <= j < f.cut
      ensures ClassifyRef(table, refs[j]).Ok?
      ensures j in f.indices <==> ClassifyRef(table, refs[j]) == Ok(EssenceSource)
      ensures j in p.indices <==> ClassifyRef(table, refs[j]).value.PhysicalSource?
    {
      KeptAt(refs, fileTest, f, j);
      KeptAt(refs, physTest, p, j);
    }
  }

  /** Membership in a finished-or-cut scan's kept positions is the test
      holding there. */
  lemma KeptAt<T>(xs: seq<T>, keep: T -> Res<bool>, sel: Selection.Selection, j: nat)
    requires sel == Selection.Select(xs, keep)
    requires j < sel.cut
    ensures keep(xs[j]).Ok?
    ensures j in sel.indices <==> keep(xs[j]) == Ok(true)
  {
    if j in sel.indices {
      var k :| 0 <= k < |sel.indices| && sel.indices[k] == j;
    }
  }

  function IsPrimary(t: Track): bool {
    t.kind == Picture || t.kind == Sound
  }

  /** `primary_track_for_composition`: the first picture or sound track in
      track order; ValueError when there is none. */
  function PrimaryTrack(mob: Mob): (r: Res<Track>)
    ensures r.Err? <==> forall j :: 0 <= j < |mob.tracks| ==> !IsPrimary(mob.tracks[j])
    ensures r.Err? ==> r.error == NoPrimaryTrack
    ensures r.Ok? ==> exists i :: (0 <= i < |mob.tracks| && mob.tracks[i] == r.value && IsPrimary(r.value)
                                   && forall j :: 0 <= j < i ==> !IsPrimary(mob.tracks[j]))
  {
    PrimaryFrom(mob.tracks, 0)
  }

  function PrimaryFrom(tracks: seq<Track>, from: nat): (r: Res<Track>)
    requires from <= |tracks|
    ensures r.Err? <==> forall j :: from <= j < |tracks| ==> !IsPrimary(tracks[j])
    ensures r.Err? ==> r.error == NoPrimaryTrack
    ensures r.Ok? ==> exists i :: (from <= i < |tracks| && tracks[i] == r.value && IsPrimary(r.value)
                                   && forall j :: from <= j < i ==> !IsPrimary(tracks[j]))
    decreases |tracks| - from
  {
    if from == |tracks| then Err(NoPrimaryTrack)
    else if IsPrimary(tracks[from]) then Ok(tracks[from])
    else PrimaryFrom(tracks, from + 1)
  }

  /** The physical chain of a composition's primary track, as the three
      functions below obtain it; raises as `track.component` would. */
  function PrimaryPhysical(table: MobTable, mob: Mob, resample: Resampler, fuel: nat): (r: Res<LeafTrace>)
    ensures r.Ok? ==> forall k :: 0 <= k < |r.value.refs| ==>
      ClassifyRef(table, r.value.refs[k]).Ok? && ClassifyRef(table, r.value.refs[k]).value.PhysicalSource?
  {
    var track :- PrimaryTrack(mob);
    if track.component.None? then Err(MissingComponent)
    else Ok(PhysicalReferences(table, track.component.value, resample, fuel))
  }

  /** What `next()` on a generator gives: its first item, or the exception
      it stopped with, or StopIteration (None here). */
  function First(t: LeafTrace): (r: Res<Option<Leaf>>)
    ensures |t.refs| > 0 ==> r == Ok(Some(t.refs[0]))
    ensures |t.refs| == 0 && t.stop == Finished ==> r == Ok(None)
    ensures |t.refs| == 0 && t.stop != Finished ==> r.Err?
  {
    if |t.refs| > 0 then Ok(Some(t.refs[0]))
    else match t.stop
      case Finished => Ok(None)
      case TooDeep => Err(HopBoundExhausted)
      case Failed(e) => Err(e)
  }

  /** What `next()` raises on a generator that yielded nothing: StopIteration
      is turned into ValueError by the two lookups below. */
  function ChainFailure(stop: Stop<Failure>): Failure {
    match stop
    case Finished => NoPhysicalSource
    case TooDeep => HopBoundExhausted
    case Failed(e) => e
  }

  /** `composition_has_physical_source`: true exactly when the physical
      chain yields something; a chain that ends silently empty is false. */
  function HasPhysicalSource(table: MobTable, mob: Mob, resample: Resampler, fuel: nat): (r: Res<bool>)
    ensures r == Ok(true) <==> PrimaryPhysical(table, mob, resample, fuel).Ok? && |PrimaryPhysical(table, mob, resample, fuel).value.refs| > 0
    ensures r == Ok(false) <==> PrimaryPhysical(table, mob, resample, fuel).Ok? && PrimaryPhysical(table, mob, resample, fuel).value == Trace([], Finished)
  {
    var trace :- PrimaryPhysical(table, mob, resample, fuel);
    var first :- First(trace);
    Ok(first.Some?)
  }

  /** `physical_source_name_for_composition`: the name of the first
      physical source mob; ValueError when the chain has none. */
  function PhysicalSourceName(table: MobTable, mob: Mob, resample: Resampler, fuel: nat): (r: Res<string>)
    ensures var t := PrimaryPhysical(table, mob, resample, fuel);
      && (t.Err? ==> r == Err(t.error))
      && (t.Ok? && |t.value.refs| > 0 ==> r == Ok(table[t.value.refs[0].component.body.mobId].name))
      && (t.Ok? && |t.value.refs| == 0 ==> r == Err(ChainFailure(t.value.stop)))
    ensures HasPhysicalSource(table, mob, resample, fuel) == Ok(false) ==> r == Err(NoPhysicalSource)
  {
    var trace :- PrimaryPhysical(table, mob, resample, fuel);
    var first :- First(trace);
    if first.None? then Err(NoPhysicalSource)
    else
      var clip := first.value.component;
      if !clip.body.SourceClip? || clip.body.mobId !in table then Err(MobNotFound)
      else Ok(table[clip.body.mobId].name)
  }

  /** `physical_source_type_for_composition`: the role of the first physical
      source mob, which is never Essence. */
  function PhysicalSourceType(table: MobTable, mob: Mob, resample: Resampler, fuel: nat): (r: Res<SourceMobRole>)
    ensures r.Ok? ==> r.value != Essence
    ensures var t := PrimaryPhysical(table, mob, resample, fuel);
      && (t.Err? ==> r == Err(t.error))
      && (t.Ok? && |t.value.refs| > 0 ==>
            r.Ok? && r == SourceMobRoleOf(table[t.value.refs[0].component.body.mobId]))
      && (t.Ok? && |t.value.refs| == 0 ==> r == Err(ChainFailure(t.value.stop)))
    ensures HasPhysicalSource(table, mob, resample, fuel) == Ok(false) ==> r == Err(NoPhysicalSource)
  {
    var trace :- PrimaryPhysical(table, mob, resample, fuel);
    var first :- First(trace);
    if first.None? then Err(NoPhysicalSource)
    else
      var clip := first.value.component;
      if !clip.body.SourceClip? || clip.body.mobId !in table then Err(MobNotFound)
      else SourceMobRoleOf(table[clip.body.mobId])
  }
}

=== FILE: text.dfy ===
/** ASCII text helpers standing in for the Python `str` methods the source
    uses: `isdigit`, `lower`, `title`, `replace`, `int()` on a digit run and
    decimal rendering in f-strings. Only ASCII is modelled. */
module Text {

  predicate IsDigit(c: char) {
    '0' <= c <= '9'
  }

  predicate IsUpper(c: char) {
    'A' <= c <= 'Z'
  }

  predicate IsLower(c: char) {
    'a' <= c <= 'z'
  }

  /** Python's "cased" characters, restricted to ASCII letters. */
  predicate IsLetter(c: char) {
    IsUpper(c) || IsLower(c)
  }

  function Lower(c: char): (d: char)
    ensures IsLetter(c) <==> IsLetter(d)
    ensures !IsUpper(d)
    ensures IsDigit(c) <==> IsDigit(d)
    ensures !IsLetter(c) ==> d == c
  {
    if IsUpper(c) then (c as int + 32) as char else c
  }

  lemma LowerIdempotent(c: char)
    ensures Lower(Lower(c)) == Lower(c)
  {
  }

  function Upper(c: char): (d: char)
    ensures IsLetter(c) <==> IsLetter(d)
    ensures !IsLower(d)
    ensures !IsLetter(c) ==> d == c
    ensures Lower(d) == Lower(c)
  {
    if IsLower(c) then (c as int - 32) as char else c
  }

  predicate AllDigits(s: string) {
    forall i :: 0 <= i < |s| ==> IsDigit(s[i])
  }

  predicate NoDigits(s: string) {
    forall i :: 0 <= i < |s| ==> !IsDigit(s[i])
  }

  /** Python's `str.lower()` on ASCII. */
  function LowerStr(s: string): (r: string)
    ensures |r| == |s|
    ensures forall i :: 0 <= i < |s| ==> r[i] == Lower(s[i])
  {
    seq(|s|, i requires 0 <= i < |s| => Lower(s[i]))
  }

  /** Python's `str.title()` on ASCII, written as CPython computes it: one
      pass carrying whether the previous character was cased. */
  function TitleFrom(s: string, previousCased: bool): (r: string)
    ensures |r| == |s|
    ensures forall i :: 0 <= i < |s| ==>
      r[i] == (if (if i == 0 then previousCased else IsLetter(s[i - 1])) then Lower(s[i]) else Upper(s[i]))
  {
    if s == [] then []
    else [if previousCased then Lower(s[0]) else Upper(s[0])] + TitleFrom(s[1..], IsLetter(s[0]))
  }

  function Title(s: string): string {
    TitleFrom(s, false)
  }

  /** `name.replace("_", " ")`. */
  function SpaceUnderscores(s: string): (r: string)
    ensures |r| == |s|
    ensures forall i :: 0 <= i < |s| ==> r[i] == (if s[i] == '_' then ' ' else s[i])
  {
    seq(|s|, i requires 0 <= i < |s| => if s[i] == '_' then ' ' else s[i])
  }

  /** `name.replace("_", " ").title()`, the `__str__` of every enumeration
      in the source: each underscore becomes a space, a letter that follows a
      letter is lower-cased and every other letter is upper-cased. */
  function Pretty(name: string): (r: string)
    ensures |r| == |name|
    ensures forall i :: 0 <= i < |name| ==> (r[i] == ' ' <==> name[i] == '_' || name[i] == ' ')
    ensures forall i :: 0 <= i < |name| && IsLetter(name[i]) ==>
      (if i > 0 && IsLetter(name[i - 1]) then IsLower(r[i]) else IsUpper(r[i]))
    ensures forall i :: 0 <= i < |name| && IsLetter(name[i]) ==> Lower(r[i]) == Lower(name[i])
    ensures forall i :: 0 <= i < |name| ==> r[i] == PrettyChar(name, i)
  {
    var spaced := SpaceUnderscores(name);
    var r := Title(spaced);
    assert forall i :: 0 <= i < |name| ==> (IsLetter(spaced[i]) <==> IsLetter(name[i]));
    forall i | 0 <= i < |name|
      ensures r[i] == ' ' <==> name[i] == '_' || name[i] == ' '
      ensures IsLetter(name[i]) ==> Lower(r[i]) == Lower(name[i])
    {
      var prev := if i == 0 then false else IsLetter(spaced[i - 1]);
      assert r[i] == (if prev then Lower(spaced[i]) else Upper(spaced[i]));
      if IsLetter(name[i]) {
        assert spaced[i] == name[i];
        LowerIdempotent(name[i]);
      }
    }
    r
  }

  /** The character `Pretty` puts at position i. */
  function PrettyChar(name: string, i: nat): char
    requires i < |name|
  {
    if name[i] == '_' then ' '
    else if i > 0 && IsLetter(name[i - 1]) then Lower(name[i])
    else Upper(name[i])
  }

  /** `Pretty(name)` is the string of its characters. */
  lemma PrettyIs(name: string, expected: string)
    requires |expected| == |name|
    requires forall i :: 0 <= i < |name| ==> expected[i] == PrettyChar(name, i)
    ensures Pretty(name) == expected
  {
  }

  function DigitChar(d: nat): (c: char)
    requires d < 10
    ensures IsDigit(c)
  {
    ('0' as int + d) as char
  }

  function DigitValue(c: char): (d: nat)
    requires IsDigit(c)
    ensures d < 10
  {
    c as int - '0' as int
  }

  /** Python's `int(text)` on a run of decimal digits. */
  function DecimalValue(s: string): nat
    requires AllDigits(s)
  {
    if s == [] then 0 else DecimalValue(s[..|s| - 1]) * 10 + DigitValue(s[|s| - 1])
  }

  /** Python's `str(n)` for a natural number. */
  function NatToDecimal(n: nat): (s: string)
    ensures |s| > 0 && AllDigits(s)
    ensures |s| > 1 ==> s[0] != '0'
    decreases n
  {
    if n < 10 then [DigitChar(n)] else NatToDecimal(n / 10) + [DigitChar(n % 10)]
  }

  /** Python's `str(i)` for any integer. */
  function IntToDecimal(i: int): (s: string)
    ensures |s| > 0
    ensures i >= 0 ==> AllDigits(s)
    ensures i < 0 ==> s[0] == '-' && AllDigits(s[1..])
  {
    if i < 0 then "-" + NatToDecimal(-i) else NatToDecimal(i)
  }

  /** Rendering then reading a natural number gives it back. */
  lemma {:induction false} DecimalRoundTrip(n: nat)
    ensures DecimalValue(NatToDecimal(n)) == n
    decreases n
  {
    if n >= 10 {
      var s := NatToDecimal(n);
      var prefix := NatToDecimal(n / 10);
      assert s[..|s| - 1] == prefix;
      DecimalRoundTrip(n / 10);
    }
  }

  /** Leading zeros do not change the value of a digit run. */
  lemma {:induction false} LeadingZerosVanish(zeros: string, d: string)
    requires forall i :: 0 <= i < |zeros| ==> zeros[i] == '0'
    requires AllDigits(d)
    ensures AllDigits(zeros + d)
    ensures DecimalValue(zeros + d) == DecimalValue(d)
    decreases |d|
  {
    if d == [] {
      assert zeros + d == zeros;
      AllZerosValue(zeros);
    } else {
      var s := zeros + d;
      assert s[..|s| - 1] == zeros + d[..|d| - 1];
      LeadingZerosVanish(zeros, d[..|d| - 1]);
    }
  }

  lemma {:induction false} AllZerosValue(zeros: string)
    requires forall i :: 0 <= i < |zeros| ==> zeros[i] == '0'
    ensures AllDigits(zeros) && DecimalValue(zeros) == 0
    decreases |zeros|
  {
    if zeros != [] {
      AllZerosValue(zeros[..|zeros| - 1]);
    }
  }
}

=== FILE: wrappers.dfy ===
/** Failure-carrying wrappers used throughout the model: Python's `None`
    and raised exceptions become explicit values. */
module Wrappers {

  /** An optional value: Python's `X | None`. */
  datatype Option<+T> = None | Some(value: T) {

    /** The wrapped value, or `default` when absent. */
    function GetOr(default: T): T {
      match this
      case Some(v) => v
      case None => default
    }
  }

  /** The outcome of a Python call that either returns a value or raises. */
  datatype Result<+T, +E> = Ok(value: T) | Err(error: E) {

    predicate IsFailure() {
      Err?
    }

    function PropagateFailure<U>(): Result<U, E>
      requires Err?
    {
      Err(error)
    }

    function Extract(): T
      requires Ok?
    {
      value
    }
  }
}
